=== FILE: README.md ===
# SABADESA dashboard rules in Dafny

This project models the rules inside the SABADESA dashboard, a React front end for a member of
the West Java provincial parliament (dapil JABAR 2, Kabupaten Bandung). Most of the dashboard is
rendering and `fetch` glue. What is modelled is the logic underneath:

- the region table (31 kecamatan, each with its dapil and its desa/kelurahan) and its lookups;
- the age-to-generation classifier;
- the zod form schemas;
- `getApiUrl`;
- the state changes of the pages and components that use them:
  - the export page: cascading filters, query string and CSV file;
  - the engagement form: duplicate-NIK check;
  - vote results: totals, search and row toggles;
  - the duplicate-NIK dialog: sorting and "+k lainnya";
  - the heat map: colours, key normalisation and markers;
  - the simulated upload;
  - the paging combobox and its stale-response guard;
  - the activity-type master;
  - the authentication context.

Every HTTP call, timer and storage access is replaced by an input: the outcome of the call, an
explicit tick or fire event, or a map. Each handler is a pure function from the old state and
that input to the new state, plus what the user would see: a notice, a request, the emitted
value.

Files, one module each:

| file | module | models |
|---|---|---|
| wrappers.dfy | `Wrappers` | `Option`, `Result` |
| seqs.dfy | `Seqs` | `Array.prototype.filter` and what it keeps |
| text.dfy | `Text` | ASCII case mapping, `trim`, `indexOf`/`replace`, decimal `toString`, `join`/`split`, string `<` |
| wilayah.dfy | `Wilayah` | the lookups of `src/lib/wilayah-data.ts` over any table, and the generation bands |
| wilayah_table.dfy | `WilayahTable` | `KECAMATAN_DATA`, `DAPIL_OPTIONS` and the `TOTAL_*` constants, with facts about this table |
| validation_schemas.dfy | `ValidationSchemas` | `nikSchema`, `nisSchema`, `loginSchema`, `attendeeSchema`, `eventSchema` |
| api.dfy | `Api` | `getApiUrl` |
| export_data.dfy | `ExportData` | `src/pages/ExportData.tsx` |
| engagement_form.dfy | `EngagementForm` | `src/pages/EngagementForm.tsx` |
| vote_results.dfy | `VoteResults` | `src/pages/VoteResults.tsx` |
| duplicate_nik_dialog.dfy | `DuplicateNikDialog` | `src/components/DuplicateNIKConfirmationDialog.tsx` |
| map_analytics.dfy | `MapAnalytics` | `src/pages/MapAnalytics.tsx` |
| data_import.dfy | `DataImport` | `src/pages/DataImport.tsx` |
| async_combobox.dfy | `AsyncCombobox` | `src/components/ui/async-searchable-combobox.tsx` |
| activity_master.dfy | `ActivityMaster` | `src/pages/ActivityMaster.tsx` |
| auth_context.dfy | `AuthContext` | `src/contexts/AuthContext.tsx` |

The project is verified as one unit:
`dafny verify --resource-limit 2000000 --verification-time-limit 0 --warn-contradictory-assumptions *.dfy`.

## Model

| member | source | states |
|---|---|---|
| Seqs.Filter | src/pages/EngagementForm.tsx:109 | `filter` keeps the elements satisfying the predicate and no others, in their original order (a subsequence), each position kept exactly once: the length is the number of satisfying positions |
| Seqs.FilterKeepsUniqueKeys | src/pages/EngagementForm.tsx:109 | filtering a list whose keys are pairwise distinct leaves them pairwise distinct |
| Seqs.FilterAppend | src/pages/ActivityMaster.tsx:66-97 | filtering a concatenation is the concatenation of the filtered parts |
| Text.Lower | src/pages/VoteResults.tsx:33-34 | `toLowerCase` keeps the length, leaves no capital letter, keeps every other character, and gives the same string as the input once both are upper-cased (ASCII letters only; see Left out) |
| Text.Upper | src/pages/MapAnalytics.tsx:103 | `toUpperCase` keeps the length (ASCII letters only; see Left out) |
| Text.CaseMappingResults | src/pages/VoteResults.tsx:34 | after `toLowerCase` no character is an upper-case letter, and after `toUpperCase` none is lower-case |
| Text.LowerIdempotent | src/pages/VoteResults.tsx:34 | lower-casing twice is lower-casing once |
| Text.Trim | src/pages/MapAnalytics.tsx:104 | `trim` returns the longest middle part that has no leading or trailing ECMAScript white space and is surrounded only by white space |
| Text.TrimUnchanged | src/pages/MapAnalytics.tsx:104 | a string with no white space at either end is its own trim |
| Text.TrimKeepsCase | src/pages/MapAnalytics.tsx:104 | trimming never lengthens a string, never brings in a lower-case letter, and leaves no white space at either end |
| Text.IndexOf | src/pages/VoteResults.tsx:34 | `indexOf` finds a position exactly when the pattern occurs, and that position is the first occurrence |
| Text.ReplaceFirst | src/pages/MapAnalytics.tsx:104 | `replace` with a string pattern changes only the first occurrence, and returns the input when there is none |
| Text.RemovalKeepsCase | src/pages/MapAnalytics.tsx:104 | deleting the first occurrence of a pattern never lengthens a string nor brings in a lower-case letter |
| Text.NatToString | src/pages/VoteResults.tsx:34 | `toString` of a count, id or vote total: a non-empty string of decimal digits with no leading zero (the number 0 alone is "0") |
| Text.IntToString | src/pages/ExportData.tsx:98 | the decimal text of an integer: a minus sign exactly for negatives, then digits that read back to the magnitude, with no leading zero |
| Text.IntToStringInjective | src/pages/ExportData.tsx:98 | distinct integers have distinct decimal texts |
| Text.ParseNatToString | src/pages/ExportData.tsx:98 | reading back the decimal text of a natural number gives the number |
| Text.NatToStringInjective | src/components/DuplicateNIKConfirmationDialog.tsx:119 | distinct counts have distinct decimal texts |
| Text.Split | src/pages/ExportData.tsx:102-105 | splitting at a character gives at least one piece, none containing the character |
| Text.SplitJoin | src/pages/ExportData.tsx:102-105 | splitting the `join` of pieces free of the separator gives back the pieces |
| Text.StrictlySortedDistinct | src/lib/wilayah-data.ts:31-458 | a strictly ascending list of names has no repeats |
| Wilayah.KecamatanNames | src/lib/wilayah-data.ts:461-463 | `getKecamatanNames` lists every table name, in table order, one per entry |
| Wilayah.Find | src/lib/wilayah-data.ts:466 | `find` by name returns the first entry with that name, and nothing exactly when no entry has it |
| Wilayah.DesaByKecamatan | src/lib/wilayah-data.ts:465-468 | the villages of the first entry with that name, or none for an unknown name |
| Wilayah.KecamatanByDapil | src/lib/wilayah-data.ts:470-472 | the entries of that dapil and no others, in table order, each kept once: a subsequence as long as the number of entries of that dapil |
| Wilayah.DapilByKecamatan | src/lib/wilayah-data.ts:474-477 | the dapil of the first entry with that name, absent exactly for an unknown name; the name is among that dapil's kecamatan |
| Wilayah.UniqueNameFirst | src/lib/wilayah-data.ts:466 | when names are unique, looking an entry's name up finds that entry |
| Wilayah.DapilGroupsPartition | src/lib/wilayah-data.ts:470-472 | when every dapil is one of a duplicate-free list, the groups of that list hold every entry exactly once, each in its own dapil's group |
| Wilayah.GroupSizesTotal | src/lib/wilayah-data.ts:470-472 | when every dapil is one of a duplicate-free list, the dapil groups of that list together have exactly as many entries as the table |
| Wilayah.GenerationCategory | src/lib/wilayah-data.ts:482-489 | negative ages, and only those, are Unknown; every other age falls in its generation's band (bounds 25, 41, 57 and 76 belong to the younger band) |
| Wilayah.BandsDisjoint | src/lib/wilayah-data.ts:482-489 | no age lies in two bands, so the category is the only band holding the age |
| Wilayah.GenerationEdges | src/lib/wilayah-data.ts:483-488 | each threshold and the age one above it fall on the stated sides |
| Wilayah.GenerationMonotone | src/lib/wilayah-data.ts:482-489 | an older non-negative age never gets a younger generation |
| WilayahTable.TableSize | src/lib/wilayah-data.ts:31-492 | the table has `TOTAL_KECAMATAN` = 31 entries and names |
| WilayahTable.DapilsListed | src/lib/wilayah-data.ts:21-458 | every entry's dapil is one of `DAPIL_OPTIONS` |
| WilayahTable.NamesAscending | src/lib/wilayah-data.ts:31-458 | the table is in strictly ascending name order |
| WilayahTable.NamesDistinct | src/lib/wilayah-data.ts:31-458 | no two entries share a name |
| WilayahTable.OptionsDistinct | src/lib/wilayah-data.ts:21-28 | `DAPIL_OPTIONS` has no repeats |
| WilayahTable.DapilOptionsPartitionTable | src/lib/wilayah-data.ts:21-472 | the six dapil groups of the table together hold all 31 entries, each in exactly its own dapil's group |
| WilayahTable.CileunyiLookup | src/lib/wilayah-data.ts:465-477 | CILEUNYI is in JABAR 2-4 and has its six villages |
| ValidationSchemas.NikIssues | src/lib/validation-schemas.ts:4-7 | a NIK is accepted exactly when it has 16 characters, all digits; at most two messages |
| ValidationSchemas.NisIssues | src/lib/validation-schemas.ts:10-13 | a NIS is accepted exactly when it has 1 to 20 characters, all digits; the empty string gets the required and the digits messages |
| ValidationSchemas.MinLength | src/lib/validation-schemas.ts:17 | a required string field is accepted exactly when present and long enough; any issue is at the field's path |
| ValidationSchemas.OptionalEnum | src/lib/validation-schemas.ts:31 | an optional enum field is accepted exactly when absent or one of the allowed values |
| ValidationSchemas.OptionalRange | src/lib/validation-schemas.ts:33 | an optional number is accepted exactly when absent or within the bounds |
| ValidationSchemas.LoginIssues | src/lib/validation-schemas.ts:16-19 | a login is accepted exactly when both fields are non-empty, and there is an issue at a field exactly when that field is missing or empty |
| ValidationSchemas.AttendeeIssues | src/lib/validation-schemas.ts:24-34 | an attendee is accepted exactly when every field rule holds; all issues lie under the record's path; a short name is reported at `name` |
| ValidationSchemas.ParseAttendee | src/lib/validation-schemas.ts:24-34 | parsing succeeds exactly for acceptable input; a success copies every field (name, NIK, kecamatan, desa, alamat, gender, pekerjaan, age) and fills `identifier_type` with NIK unless NIS was given; a failure carries issues |
| ValidationSchemas.AttendeeListIssues | src/lib/validation-schemas.ts:45 | an attendee array is accepted exactly when every element is |
| ValidationSchemas.EventIssues | src/lib/validation-schemas.ts:39-46 | an event is accepted exactly when every field rule holds (the date through the given parse test); a short title is reported at `title` |
| Api.ApiUrl | src/lib/api.ts:12-19 | the URL ends with the endpoint and starts with the base URL when one is set, otherwise with "/api"; nothing else is added |
| Api.ApiUrlInjective | src/lib/api.ts:12-19 | for a fixed base, different endpoints give different URLs |
| Api.ApiUrlExamples | src/lib/api.ts:18 | with no base, "" gives "/api", "/auth/login" gives "/api/auth/login" and "auth/login" gives "/apiauth/login" |
| ExportData.KecamatanOptions | src/pages/ExportData.tsx:34-36 | with no dapil selected, the names of the whole table in order; with a dapil selected, the names of exactly that dapil's entries in table order, each the name of an entry of that dapil, and every entry of that dapil offered |
| ExportData.DesaOptions | src/pages/ExportData.tsx:39-41 | no options without a kecamatan or for an unknown one; otherwise the names of that kecamatan's villages, in order |
| ExportData.HandleDapilChange | src/pages/ExportData.tsx:126-129 | sets the dapil ("ALL" becomes "") and clears kecamatan and desa |
| ExportData.HandleKecamatanChange | src/pages/ExportData.tsx:131-134 | keeps the dapil, sets the kecamatan ("ALL" becomes "") and clears desa |
| ExportData.HandleDesaChange | src/pages/ExportData.tsx:136-139 | changes only the desa ("ALL" becomes "") |
| ExportData.ChangesKeepConsistent | src/pages/ExportData.tsx:34-139 | starting from no filters, choosing only offered values keeps each level among the options of the level above |
| ExportData.QueryParamsMeaning | src/pages/ExportData.tsx:51-61 | a selected kecamatan gives exactly one `kecamatan` parameter; otherwise a dapil gives one per kecamatan of that dapil, in table order; a `desa` parameter exactly when desa is set; the query is the kecamatan parameters followed by the desa parameter and nothing else; no parameters exactly when nothing contributes one |
| ExportData.KecamatanParamsValues | src/pages/ExportData.tsx:56-59 | the parameters appended for a list of names carry exactly those names, in order, and no desa |
| ExportData.HexRoundTrip | src/pages/ExportData.tsx:63 | each percent-encoding hex digit reads back as its value |
| ExportData.Utf8 | src/pages/ExportData.tsx:63 | the UTF-8 encoding of a character: the shortest sequence for its code point (one byte below 0x80, two below 0x800, three below 0x10000, else four), the lead byte announcing the length, continuation bytes after it, and the bytes spelling the code point |
| ExportData.PercentRoundTrip | src/pages/ExportData.tsx:63 | the `%XY` form of bytes reads back as the same bytes |
| ExportData.EncodeChar | src/pages/ExportData.tsx:63 | unreserved characters are sent as they are, a space as "+", any other character as `%XY` triples of its UTF-8 bytes; nothing is produced outside letters, digits, `*-._`, `+`, `%` and hex digits |
| ExportData.DecodeEncodeChar | src/pages/ExportData.tsx:63 | the urlencoded reader turns the encoding of any character back into that character, whatever follows it |
| ExportData.DecodeEncode | src/pages/ExportData.tsx:63 | the urlencoded reader gives back every encoded text unchanged |
| ExportData.EncodeUnescaped | src/pages/ExportData.tsx:53-61 | a text of unreserved characters, such as the keys "kecamatan" and "desa", is sent as it is |
| ExportData.SerializeSplits | src/pages/ExportData.tsx:51-63 | the serialized parameters split at `&` into exactly one `key=value` piece per parameter, in order, and each piece's first `=` ends its encoded key |
| ExportData.ParseSerialize | src/pages/ExportData.tsx:51-63 | parsing the serialized parameters as `application/x-www-form-urlencoded` gives back every parameter, its name and value, in order |
| ExportData.QueryString | src/pages/ExportData.tsx:63 | the query string is empty exactly when there are no parameters, and otherwise is "?" and the serialized parameters |
| ExportData.AttendeesUrl | src/pages/ExportData.tsx:63-64 | the request goes to `getApiUrl` of "/events/attendees/all", followed by "?" and the parameters when there are any |
| ExportData.ApplyFetch | src/pages/ExportData.tsx:68-79 | a loaded response replaces the list with no message; a non-ok one and an exception keep the list and report their own messages; loading ends either way |
| ExportData.Quoted | src/pages/ExportData.tsx:93-97 | a quoted field is the text between two double quotes |
| ExportData.GenderLabel | src/pages/ExportData.tsx:96 | "L" gives "Laki-laki", "P" gives "Perempuan", and anything else, missing included, gives "" |
| ExportData.CsvRow | src/pages/ExportData.tsx:92-100 | seven fields per attendee; missing texts become empty; an age of 0 or none leaves both age and generation empty, otherwise they are the age and its generation |
| ExportData.CsvLines | src/pages/ExportData.tsx:102-105 | the header line, then one line per attendee in input order |
| ExportData.LinesSingleLine | src/pages/ExportData.tsx:102-105 | when no attendee field holds a line break, neither the header nor any attendee line does |
| ExportData.CsvContentLines | src/pages/ExportData.tsx:102-105 | when no field holds a line break, splitting the file at line breaks gives exactly the header and one line per attendee |
| ExportData.FilterLabel | src/pages/ExportData.tsx:112-117 | the label is empty exactly when neither kecamatan nor dapil is set; otherwise it is "_" and the kecamatan, or the dapil when no kecamatan is set |
| ExportData.FileName | src/pages/ExportData.tsx:118 | the file name is "peserta_kegiatan", then the filter label, then "_", then the date, then ".csv", each segment at its position |
| ExportData.FileNameDistinguishesFilters | src/pages/ExportData.tsx:112-118 | on one day two exports get the same file name exactly when their filters give the same label, and a ten-character date is the part before ".csv" |
| ExportData.HandleExport | src/pages/ExportData.tsx:82-124 | an empty list, and only that, is refused with "Tidak ada data untuk diekspor"; otherwise the file content, file name and count message are produced |
| EngagementForm.FindSource | src/pages/EngagementForm.tsx:25-80 | the engagement source with that value, and nothing exactly when none of the five has it |
| EngagementForm.SourceVotesAllowed | src/pages/EngagementForm.tsx:25-31 | every source is worth 50, 100 or 150 potential votes |
| EngagementForm.NewEntry | src/pages/EngagementForm.tsx:86-92 | the new entry copies the form and takes the source's label and votes, the given id and the given date |
| EngagementForm.HandleSubmit | src/pages/EngagementForm.tsx:71-106 | a NIK already listed is refused and a missing source is refused, leaving entries and form unchanged; otherwise exactly one entry is prepended, the old entries follow in order, and the form is reset |
| EngagementForm.HandleDelete | src/pages/EngagementForm.tsx:108-111 | removes every entry with that id and keeps each other entry exactly once, in order (as many entries as carry another id), and changes nothing else |
| EngagementForm.DeleteAbsent | src/pages/EngagementForm.tsx:109 | deleting an id that no entry has is a no-op |
| EngagementForm.InitialValid | src/pages/EngagementForm.tsx:34-59 | the two initial entries have distinct NIKs and allowed vote counts |
| EngagementForm.SubmitKeepsValid | src/pages/EngagementForm.tsx:75-94 | submitting keeps the NIKs distinct and the vote counts allowed |
| EngagementForm.DeleteKeepsValid | src/pages/EngagementForm.tsx:108-110 | deleting keeps the NIKs distinct and the vote counts allowed |
| VoteResults.Totals | src/pages/VoteResults.tsx:28-29 | the loop computes the sum of the votes and the sum of the potential over all rows |
| VoteResults.RowTotalsSum | src/pages/VoteResults.tsx:28-138 | the row totals (votes + potential) add up to the two totals together |
| VoteResults.RowWithinTotal | src/pages/VoteResults.tsx:28-29 | no row's votes or potential exceeds the corresponding total |
| VoteResults.MockVotesTotal | src/pages/VoteResults.tsx:11-28 | the sample data has 4630 votes |
| VoteResults.MockPotentialTotal | src/pages/VoteResults.tsx:11-29 | the sample data has 2340 potential votes |
| VoteResults.AreaKeys | src/pages/VoteResults.tsx:30 | the area set holds exactly the `village-hamlet` keys of the rows |
| VoteResults.AreasAtMostRows | src/pages/VoteResults.tsx:30 | there are never more areas than rows |
| VoteResults.MockAreas | src/pages/VoteResults.tsx:11-30 | the sample data covers 4 areas |
| VoteResults.FilteredData | src/pages/VoteResults.tsx:32-36 | the search keeps the rows with a column containing the lower-cased term and no others, in order, each once: as many rows as match |
| VoteResults.EmptySearchKeepsAll | src/pages/VoteResults.tsx:32-36 | an empty search keeps every row |
| VoteResults.SearchIgnoresCase | src/pages/VoteResults.tsx:33-34 | a term and its lower-cased form find the same rows |
| VoteResults.ToggleRow | src/pages/VoteResults.tsx:38-46 | toggling flips the membership of that id and no other |
| VoteResults.ToggleTwice | src/pages/VoteResults.tsx:38-46 | toggling twice restores the set |
| DuplicateNikDialog.SortByDateDesc | src/components/DuplicateNIKConfirmationDialog.tsx:78-80 | the sorted copy is a permutation of the activities |
| DuplicateNikDialog.SortedDescending | src/components/DuplicateNIKConfirmationDialog.tsx:78-80 | the sorted copy has non-increasing dates |
| DuplicateNikDialog.SortStable | src/components/DuplicateNIKConfirmationDialog.tsx:78-80 | activities with the same date keep their input order (the sort is stable) |
| DuplicateNikDialog.Displayed | src/components/DuplicateNIKConfirmationDialog.tsx:81 | collapsed, the first min(3, n) sorted activities are shown; expanded, all of them |
| DuplicateNikDialog.Render | src/components/DuplicateNIKConfirmationDialog.tsx:34-141 | nothing exactly when unmounted or closed; otherwise the displayed list, the "+k lainnya" badge exactly when collapsed with n > 3 (k = n - 3), and the collapse button exactly when expanded with n > 3 |
| DuplicateNikDialog.ExpandCollapse | src/components/DuplicateNIKConfirmationDialog.tsx:108-140 | with more than three activities, collapsed shows three and the badge, and expanded shows all and the collapse button |
| DuplicateNikDialog.BadgeExamples | src/components/DuplicateNIKConfirmationDialog.test.tsx:113-188 | four activities give "+1 lainnya"; three or fewer, none included, give no badge and no collapse button |
| MapAnalytics.GetColor | src/pages/MapAnalytics.tsx:48-57 | blue exactly when the maximum is 0; otherwise green, yellow, orange or red exactly when the ratio lies in the first, second, third or last quarter, each boundary belonging to the band above |
| MapAnalytics.GetColorMonotone | src/pages/MapAnalytics.tsx:50-56 | for a fixed positive maximum, a larger value never gets a lower colour |
| MapAnalytics.GetColorBoundaries | src/pages/MapAnalytics.tsx:53-56 | ratios 0.25, 0.5 and 0.75 fall into the upper band, and 0 is green |
| MapAnalytics.MaxIntensity | src/pages/MapAnalytics.tsx:82 | at least 1 and at least every intensity (missing counts as 0), and equal to 1 or to some item's intensity |
| MapAnalytics.NormalizeWithoutPrefix | src/pages/MapAnalytics.tsx:103-104 | a name without "KEC" normalises to its trimmed upper-case form |
| MapAnalytics.NormalizeExample | src/pages/MapAnalytics.tsx:103-104 | "Kec. Cileunyi " normalises to "CILEUNYI" |
| MapAnalytics.NormalizeKey | src/pages/MapAnalytics.tsx:103-104 | the key of a reported name has no lower-case letter, no white space at either end, and is no longer than the name |
| MapAnalytics.NormalizeFixed | src/pages/MapAnalytics.tsx:103-104 | a name already in key form (upper case, no "KEC", no white space at either end) is its own key |
| MapAnalytics.NormalizeDropsPrefix | src/pages/MapAnalytics.tsx:103-104 | a key-form name behind "Kec. " in any letter case is found under that name |
| MapAnalytics.NormalizeDropsShortPrefix | src/pages/MapAnalytics.tsx:103-104 | a key-form name behind "Kec " (no dot) in any letter case is found under that name |
| MapAnalytics.MarkersFrom | src/pages/MapAnalytics.tsx:102-135 | from a position on, one dot per item whose key is known, in item order, coloured against the maximum |
| MapAnalytics.Markers | src/pages/MapAnalytics.tsx:102-135 | every dot belongs to an item with coordinates and has that item's colour, none is blue, the dots follow item order, and an item has a dot exactly when its key has coordinates |
| MapAnalytics.AliasesListed | src/pages/MapAnalytics.tsx:36-41 | both spellings of Pasir Jambu and Solokan Jeruk have coordinates |
| DataImport.HandleFileUpload | src/pages/DataImport.tsx:13-17 | starting an upload sets the status to uploading and the progress to 0, and starts the ticks |
| DataImport.Tick | src/pages/DataImport.tsx:17-25 | a tick below 100 adds 10; a tick at 100 or more sets 100 and success and stops the ticks; after that ticks change nothing |
| DataImport.StepsKeepValid | src/pages/DataImport.tsx:13-25 | the progress stays a multiple of 10 within 0 to 100, and success only ever comes with 100 |
| DataImport.ProgressAfter | src/pages/DataImport.tsx:18-24 | n ticks that stay within 100 add 10 n |
| DataImport.SuccessAfterElevenTicks | src/pages/DataImport.tsx:13-25 | success comes at the eleventh tick, at 100, and the upload is still running before it |
| DataImport.RunUpload | src/pages/DataImport.tsx:13-25 | running the ticks to the end takes eleven and ends in success at 100 |
| DataImport.Render | src/pages/DataImport.tsx:54-71 | the progress bar exactly while uploading, the success alert exactly on success, never both |
| AsyncCombobox.Complete | src/components/ui/async-searchable-combobox.tsx:71-88 | a response is applied only while its search term is current, appending or replacing as requested and recording its page; a stale or failed one leaves options, hasMore and the page ref unchanged; loading and initial loading end either way |
| AsyncCombobox.OpenChange | src/components/ui/async-searchable-combobox.tsx:91-100 | opening a closed popover resets the search and both refs and requests page 1 with no search, keeping the options, the selection, `hasMore` and an armed timer; other changes only record the flag |
| AsyncCombobox.SearchChange | src/components/ui/async-searchable-combobox.tsx:103-112 | typing shows the term and loading and arms the timer with it, requests nothing, and keeps the options, refs, page, `hasMore`, selection and open flag |
| AsyncCombobox.DebounceFire | src/components/ui/async-searchable-combobox.tsx:113-120 | the timer makes the term current, resets the page to 1, clears the options and requests page 1 of the term, keeping the shown search, selection, open flag and `hasMore`; with no timer armed nothing happens |
| AsyncCombobox.Scroll | src/components/ui/async-searchable-combobox.tsx:124-135 | a load is requested exactly when near the bottom with more pages and no load running, for the page after the page ref, with the current term, appending; the request changes only the page and the loading flag |
| AsyncCombobox.Select | src/components/ui/async-searchable-combobox.tsx:198-202 | choosing the current value emits "" and clears the selection, any other option is emitted and selected, the popover closes, and nothing else changes |
| AsyncCombobox.FindOpt | src/components/ui/async-searchable-combobox.tsx:140 | the first loaded option with that value (no earlier option has it), and nothing exactly when none has it |
| AsyncCombobox.SyncSelected | src/components/ui/async-searchable-combobox.tsx:138-147 | an empty value clears the selection, a value among the loaded options selects it, and otherwise the selection stays |
| AsyncCombobox.RequestsKeepValid | src/components/ui/async-searchable-combobox.tsx:91-135 | pages stay numbered from 1, and every request asks for a page of at least 1 |
| AsyncCombobox.OtherEventsKeepValid | src/components/ui/async-searchable-combobox.tsx:71-202 | the other events keep the pages numbered from 1 |
| AsyncCombobox.StaleResponsesIgnored | src/components/ui/async-searchable-combobox.tsx:76-119 | after a new search fires, a late response for another term leaves the cleared list empty |
| AsyncCombobox.PagesAccumulate | src/components/ui/async-searchable-combobox.tsx:78-135 | the first page of a fresh search replaces the list, and scrolling then asks for page 2 of the same term, which is appended |
| ActivityMaster.ApplyFetch | src/pages/ActivityMaster.tsx:33-45 | an ok response replaces the list, a non-ok one is ignored, and an exception only reports the load failure |
| ActivityMaster.HandleSubmit | src/pages/ActivityMaster.tsx:47-74 | a created record goes to the end and the form resets to ("", 100); a non-ok status ("Gagal menyimpan data") or an exception (its message) leaves list and form unchanged; loading ends either way; the staged record and the delete-dialog flag are kept |
| ActivityMaster.HandleDelete | src/pages/ActivityMaster.tsx:76-79 | stages the record and opens the dialog; the list, loading flag, deletingId and form are kept |
| ActivityMaster.WithoutId | src/pages/ActivityMaster.tsx:97 | no record with the id remains, every other record is kept exactly once, in order: as many records as carry another id |
| ActivityMaster.ConfirmDelete | src/pages/ActivityMaster.tsx:81-105 | with nothing staged, nothing happens; otherwise the dialog closes, a success removes the staged id, a failure keeps the list with its message, and the staged record and deleting marker are cleared whatever happened |
| ActivityMaster.CreateThenDelete | src/pages/ActivityMaster.tsx:66-97 | creating a record with a new id and then deleting it through the dialog restores the list |
| ActivityMaster.UpdatesKeepIdsUnique | src/pages/ActivityMaster.tsx:66-97 | deleting keeps the ids distinct, and so does creating a record with a new id |
| AuthContext.GetItem | src/contexts/AuthContext.tsx:21 | `getItem` gives the stored value, and nothing exactly for an absent key |
| AuthContext.Mount | src/contexts/AuthContext.tsx:20-33 | the provider starts with no user and the stored token, and fetches the user exactly when that token is non-empty |
| AuthContext.Login | src/contexts/AuthContext.tsx:52-56 | `login` stores the token, makes it the state's token and fetches the user with it |
| AuthContext.Logout | src/contexts/AuthContext.tsx:58-62 | `logout` removes the stored token, clears token and user, and keeps every other stored key |
| AuthContext.FetchUser | src/contexts/AuthContext.tsx:35-50 | an ok response sets the user, a non-ok one logs out, and an exception changes nothing |
| AuthContext.ContextOf | src/contexts/AuthContext.tsx:65 | `isAuthenticated` holds exactly when the token is present and non-empty |
| AuthContext.UseAuth | src/contexts/AuthContext.tsx:71-77 | outside a provider the hook fails with "useAuth must be used within an AuthProvider", and inside one it returns the context |
| AuthContext.LoginSurvivesReload | src/contexts/AuthContext.tsx:21-56 | a logged-in token is the token a later provider starts with, and a non-empty one is fetched again; login authenticates exactly for a non-empty token |
| AuthContext.LogoutSurvivesReload | src/contexts/AuthContext.tsx:21-62 | after logout, or a rejected token, this provider and any later one are unauthenticated and fetch no user |
| AuthContext.LoginLogout | src/contexts/AuthContext.tsx:52-62 | logging in and out leaves the storage as it was, apart from the token |

## Left out

- HTTP, toasts, console logging, downloads and rendering are not modelled. Every `fetch` is an outcome parameter, toasts are returned notices, and the Blob, anchor and portal code is omitted. The `console.log` and `console.error` calls around the fetches of the pages, the combobox and the auth provider have no effect on state and are dropped. Only the visibility conditions of rendered elements are kept.
- Timers are not modelled. The upload interval is an explicit `Tick`, the combobox debounce an explicit `DebounceFire`, and the delay lengths play no part.
- Concurrency is not modelled beyond the combobox. The combobox splits each load into the request and a later completion, so late and out-of-order responses are modelled there, and its guard compares search terms only, as written. Elsewhere each event is applied to the latest state: two upload intervals running at once are not modelled, and in the export and activity pages the last completed fetch wins.
- EngagementForm.HandleSubmit: HTML constraint validation is not modelled; the `required` inputs of src/pages/EngagementForm.tsx:130,141,150,172,183,194,205 keep the browser from submitting empty fields, so the model also accepts an empty NIK or name.
- Closures over stale state are not modelled. `confirmDelete` and the submit handlers read the state of the render that created them; the model uses the current state.
- Dates are parameters. Today's date, `Date.now()` ids, `Date.parse` in `eventSchema` and the dialog's timestamps are all given from outside, so an unparsable date (NaN in the sort comparator) is not modelled.
- Numbers are `real` (ages, intensities) or `int` (ids, votes, progress); IEEE doubles, NaN and `toLocaleString` are not modelled.
- ExportData.CsvRow: the age is an integer, so the JavaScript text of a fractional age is not modelled.
- Text.Upper: case mapping covers ASCII letters only; full Unicode case mapping is not modelled.
- Text.Trim: `trim` strips the ECMAScript white-space set by code point; UTF-16 code units are not modelled.
- Text.Lower: lengths and indices count code points rather than UTF-16 units.
- Map coordinates and the default centre are left out. Only the set of keys with coordinates is modelled.
- The MapAnalytics fetch (src/pages/MapAnalytics.tsx:62-80) is not modelled. It only stores the response or raises a toast; the items are a parameter.
- WilayahTable.TableSize: only `TOTAL_KECAMATAN` is checked against the table. The table holds 230 desa and 10 kelurahan, which does not match `TOTAL_DESA` = 270 or `TOTAL_WILAYAH` = 280. These constants are declared as written, but no lemma counts the villages; that count over the 240 literal villages is too costly to prove.
- The CSV file is not parsed back into records. The line structure is proved; field quoting is not escaped by the source, so a quote inside a field is not handled.
- `getApiHeaders` is not part of this model, and neither is a token-refresh wrapper.
- Several pages are purely presentational and are not part of this model: Settings, Dashboard, Login (beyond `loginSchema`), Prioritization, the dashboard widgets, the layout and the delete dialog.
- ExportData.Decode: the urlencoded reader is a reference for the serializer's output and not code of the repository; it rejects a malformed escape instead of substituting U+FFFD as a browser's parser does.
- Property names such as `__proto__` as object keys are not modelled; lookups use plain maps and sets.

=== FILE: activity_master.dfy ===
/** The activity-type master page: creating a type appends the server's record, deleting
    goes through a confirmation dialog and removes the record by id. HTTP calls are replaced
    by their outcome, given as a parameter; toasts become the returned `Notice`. */
module ActivityMaster {
  import opened Wrappers
  import opened Seqs

  datatype ActivityType = ActivityType(id: int, name: string, maxParticipants: int)

  datatype Form = Form(name: string, maxParticipants: int)

  const EmptyForm := Form("", 100)

  datatype State = State(
    activities: seq<ActivityType>, form: Form, loading: bool,
    deletingId: Option<int>, itemToDelete: Option<ActivityType>, showDeleteDialog: bool)

  const Initial := State([], EmptyForm, false, None, None, false)

  datatype Notice = Done(text: string) | Failed(text: string)

  const Created := "Activity Type berhasil ditambahkan"
  const SaveFailed := "Gagal menyimpan data"
  const Deleted := "Activity Type berhasil dihapus"
  const DeleteFailed := "Gagal menghapus data"
  const LoadFailed := "Gagal mengambil data activity type"

  /** What a call to the server came to: a decoded body, a non-ok status, or an exception
      (network failure or undecodable body) with its message. */
  datatype Outcome<+T> = Ok(body: T) | NotOk | Threw(message: string)

  /** `fetchActivities`: an ok response replaces the list; a non-ok one is ignored; an
      exception only raises the load-failure notice. */
  function ApplyFetch(s: State, outcome: Outcome<seq<ActivityType>>): (r: (State, Option<Notice>))
    ensures outcome.Ok? ==> r == (s.(activities := outcome.body), None)
    ensures outcome.NotOk? ==> r == (s, None)
    ensures outcome.Threw? ==> r == (s, Some(Failed(LoadFailed)))
  {
    match outcome
    case Ok(data) => (s.(activities := data), None)
    case NotOk => (s, None)
    case Threw(_) => (s, Some(Failed(LoadFailed)))
  }

  /** `handleSubmit` once the POST has settled: the returned record goes to the end of the
      list and the form is reset; a non-ok status reports the save failure, an exception its
      own message, and neither touches the list or the form. Loading ends either way. */
  function HandleSubmit(s: State, outcome: Outcome<ActivityType>): (r: (State, Notice))
    ensures !r.0.loading
    ensures outcome.Ok? ==>
      |r.0.activities| == |s.activities| + 1 && r.0.activities[..|s.activities|] == s.activities &&
      r.0.activities[|s.activities|] == outcome.body && r.0.form == EmptyForm && r.1 == Done(Created)
    ensures !outcome.Ok? ==> r.0 == s.(loading := false)
    ensures outcome.NotOk? ==> r.1 == Failed(SaveFailed)
    ensures outcome.Threw? ==> r.1 == Failed(outcome.message)
    ensures r.0.deletingId == s.deletingId && r.0.itemToDelete == s.itemToDelete
    ensures r.0.showDeleteDialog == s.showDeleteDialog
  {
    match outcome
    case Ok(item) =>
      (s.(activities := s.activities + [item], form := EmptyForm, loading := false), Done(Created))
    case NotOk => (s.(loading := false), Failed(SaveFailed))
    case Threw(m) => (s.(loading := false), Failed(m))
  }

  /** `handleDelete`: stages the record and opens the dialog; the list is untouched. */
  function HandleDelete(s: State, a: ActivityType): (r: State)
    ensures r.itemToDelete == Some(a) && r.showDeleteDialog
    ensures r.activities == s.activities && r.deletingId == s.deletingId && r.form == s.form
    ensures r.loading == s.loading
  {
    s.(itemToDelete := Some(a), showDeleteDialog := true)
  }

  /** The list without the records carrying `id`. */
  function WithoutId(activities: seq<ActivityType>, id: int): (r: seq<ActivityType>)
    ensures forall i :: 0 <= i < |r| ==> r[i].id != id
    ensures forall i :: 0 <= i < |activities| && activities[i].id != id ==> activities[i] in r
    ensures IsSubsequence(r, activities)
    ensures |r| == CountWhere((a: ActivityType) => a.id != id, activities)
  {
    Filter((a: ActivityType) => a.id != id, activities)
  }

  /** `confirmDelete`, from the click to the settled DELETE: with nothing staged it does
      nothing and sends nothing; otherwise the dialog closes, a success removes every record
      with the staged id and keeps the rest in order, a failure keeps the list, and the
      staged record and the deleting marker are cleared whatever happened. The notice is
      `None` exactly when no request was sent. */
  function ConfirmDelete(s: State, outcome: Outcome<()>): (r: (State, Option<Notice>))
    ensures s.itemToDelete.None? ==> r == (s, None)
    ensures s.itemToDelete.Some? ==>
      !r.0.showDeleteDialog && r.0.deletingId.None? && r.0.itemToDelete.None? && r.1.Some? &&
      r.0.form == s.form && r.0.loading == s.loading
    ensures s.itemToDelete.Some? && outcome.Ok? ==>
      r.0.activities == WithoutId(s.activities, s.itemToDelete.value.id) && r.1 == Some(Done(Deleted))
    ensures s.itemToDelete.Some? && !outcome.Ok? ==> r.0.activities == s.activities
    ensures s.itemToDelete.Some? && outcome.NotOk? ==> r.1 == Some(Failed(DeleteFailed))
    ensures s.itemToDelete.Some? && outcome.Threw? ==> r.1 == Some(Failed(outcome.message))
  {
    match s.itemToDelete
    case None => (s, None)
    case Some(item) =>
      var started := s.(deletingId := Some(item.id), showDeleteDialog := false);
      var (activities, notice) :=
        match outcome
        case Ok(_) => (WithoutId(started.activities, item.id), Done(Deleted))
        case NotOk => (started.activities, Failed(DeleteFailed))
        case Threw(m) => (started.activities, Failed(m));
      (started.(activities := activities, deletingId := None, itemToDelete := None), Some(notice))
  }

  /** The record ids are pairwise distinct. */
  predicate IdsUnique(activities: seq<ActivityType>) {
    forall i, j :: 0 <= i < j < |activities| ==> activities[i].id != activities[j].id
  }

  /** Creating a record whose id is new and then deleting it through the dialog gives back
      the list as it was. */
  lemma CreateThenDelete(s: State, item: ActivityType)
    requires forall i :: 0 <= i < |s.activities| ==> s.activities[i].id != item.id
    ensures
      var created := HandleSubmit(s, Ok(item)).0;
      ConfirmDelete(HandleDelete(created, item), Ok(())).0.activities == s.activities
  {
    var p := (a: ActivityType) => a.id != item.id;
    FilterAppend(p, s.activities, [item]);
    FilterKeepsAll(p, s.activities);
    assert Filter(p, [item]) == [];
  }

  /** Deleting keeps the ids distinct, and so does creating a record whose id is new. */
  lemma UpdatesKeepIdsUnique(s: State, item: ActivityType, outcome: Outcome<()>)
    requires IdsUnique(s.activities)
    ensures (forall i :: 0 <= i < |s.activities| ==> s.activities[i].id != item.id) ==>
      IdsUnique(HandleSubmit(s, Ok(item)).0.activities)
    ensures IdsUnique(ConfirmDelete(s, outcome).0.activities)
  {
    assert UniqueKeys((a: ActivityType) => a.id, s.activities);
    if s.itemToDelete.Some? {
      var id := s.itemToDelete.value.id;
      FilterKeepsUniqueKeys((a: ActivityType) => a.id, (a: ActivityType) => a.id != id, s.activities);
    }
  }
}

=== FILE: api.dfy ===
/** Request URL construction for the backend REST API. The configured base URL
    (`VITE_API_URL`, read at build time) is a parameter. */
module Api {

  /** The prefix used when no base URL is configured: requests go through the dev proxy. */
  const ProxyPrefix := "/api"

  /** `getApiUrl`: the base URL when one is set, otherwise `/api`, followed directly by the
      endpoint. No separator is inserted or normalised. */
  function ApiUrl(baseUrl: string, endpoint: string): (r: string)
    ensures |r| >= |endpoint| && r[|r| - |endpoint|..] == endpoint
    ensures baseUrl != "" ==> |r| == |baseUrl| + |endpoint| && r[..|baseUrl|] == baseUrl
    ensures baseUrl == "" ==> |r| == 4 + |endpoint| && r[..4] == ProxyPrefix
  {
    if baseUrl != "" then baseUrl + endpoint else ProxyPrefix + endpoint
  }

  /** Removing the prefix again recovers the endpoint, so distinct endpoints give distinct
      URLs under the same configuration. */
  lemma ApiUrlInjective(baseUrl: string, e1: string, e2: string)
    requires ApiUrl(baseUrl, e1) == ApiUrl(baseUrl, e2)
    ensures e1 == e2
  {
    var p := if baseUrl != "" then baseUrl else ProxyPrefix;
    assert ApiUrl(baseUrl, e1)[|p|..] == e1;
    assert ApiUrl(baseUrl, e2)[|p|..] == e2;
  }

  /** The documented cases: an empty endpoint yields just the prefix, and an endpoint without
      a leading slash is appended as it is. */
  lemma ApiUrlExamples()
    ensures ApiUrl("", "") == "/api"
    ensures ApiUrl("", "/auth/login") == "/api/auth/login"
    ensures ApiUrl("", "auth/login") == "/apiauth/login"
  {
  }
}

=== FILE: async_combobox.dfy ===
/** The searchable combobox that loads its options page by page. Each load is split into
    the request an event issues and a later completion carrying the response, so that a
    response can arrive after the search has moved on; the debounce timer is an explicit
    `DebounceFire` event. */
module AsyncCombobox {
  import opened Wrappers

  datatype Opt = Opt(value: string, title: string)

  /** A call of `loadOptions(page, search, append)`. */
  datatype Request = Request(page: int, search: string, append: bool)

  /** A response page: its items and whether more pages follow. */
  datatype Response = Response(items: seq<Opt>, hasMore: bool)

  datatype State = State(
    open: bool, options: seq<Opt>, selected: Option<Opt>, search: string, page: int,
    hasMore: bool, loading: bool, initialLoading: bool,
    searchRef: string, pageRef: int,    // `currentSearchRef` and `currentPageRef`
    pending: Option<string>)            // the search term of the armed debounce timer

  const Initial := State(false, [], None, "", 1, true, false, true, "", 1, None)

  // ---------------------------------------------------------------- loading

  /** `loadOptions` as issued: the loading flag goes up. */
  function Issue(s: State, req: Request): (r: (State, Option<Request>))
    ensures r.0 == s.(loading := true) && r.1 == Some(req)
  {
    (s.(loading := true), Some(req))
  }

  /** The end of `loadOptions`: a response is applied only while its search term is still
      the current one, appended or replacing as requested; a failed call (`None`) or a
      stale one changes no data. Either way both loading flags drop. */
  function Complete(s: State, req: Request, response: Option<Response>): (r: State)
    ensures !r.loading && !r.initialLoading
    ensures response.None? || req.search != s.searchRef ==>
      r.options == s.options && r.hasMore == s.hasMore && r.pageRef == s.pageRef
    ensures response.Some? && req.search == s.searchRef ==>
      r.options == (if req.append then s.options + response.value.items else response.value.items) &&
      r.hasMore == response.value.hasMore && r.pageRef == req.page
    ensures r.open == s.open && r.search == s.search && r.searchRef == s.searchRef
    ensures r.selected == s.selected && r.page == s.page && r.pending == s.pending
  {
    var applied :=
      if response.Some? && req.search == s.searchRef then
        s.(options := if req.append then s.options + response.value.items else response.value.items,
           hasMore := response.value.hasMore, pageRef := req.page)
      else s;
    applied.(loading := false, initialLoading := false)
  }

  // ---------------------------------------------------------------- events

  /** `onOpenChange`: opening a closed popover resets the search and both refs and loads
      page 1 afresh; any other change only records the flag. */
  function OpenChange(s: State, open: bool): (r: (State, Option<Request>))
    ensures r.0.open == open
    ensures open && !s.open ==>
      r.0.search == "" && r.0.searchRef == "" && r.0.page == 1 && r.0.pageRef == 1 &&
      r.0.initialLoading && r.0.loading && r.1 == Some(Request(1, "", false))
    ensures open && !s.open ==>
      r.0.options == s.options && r.0.selected == s.selected && r.0.hasMore == s.hasMore &&
      r.0.pending == s.pending
    ensures !(open && !s.open) ==> r == (s.(open := open), None)
  {
    if open && !s.open then
      Issue(s.(open := true, page := 1, search := "", searchRef := "", pageRef := 1,
               initialLoading := true), Request(1, "", false))
    else (s.(open := open), None)
  }

  /** `handleSearchChange`: shows the term, shows loading, and (re)arms the debounce timer
      with it; nothing is requested yet. */
  function SearchChange(s: State, term: string): (r: State)
    ensures r.search == term && r.loading && r.pending == Some(term)
    ensures r.options == s.options && r.searchRef == s.searchRef && r.pageRef == s.pageRef
    ensures r.open == s.open && r.selected == s.selected && r.page == s.page &&
      r.hasMore == s.hasMore && r.initialLoading == s.initialLoading
  {
    s.(search := term, loading := true, pending := Some(term))
  }

  /** The debounce timer firing: the armed term becomes current, paging restarts at 1, the
      options are cleared, and page 1 of the term is requested. */
  function DebounceFire(s: State): (r: (State, Option<Request>))
    ensures s.pending.None? ==> r == (s, None)
    ensures s.pending.Some? ==>
      r.0.searchRef == s.pending.value && r.0.pageRef == 1 && r.0.page == 1 &&
      r.0.options == [] && r.0.pending.None? && r.0.loading &&
      r.1 == Some(Request(1, s.pending.value, false))
    ensures r.0.open == s.open && r.0.selected == s.selected && r.0.search == s.search &&
      r.0.hasMore == s.hasMore && r.0.initialLoading == s.initialLoading
  {
    match s.pending
    case None => (s, None)
    case Some(term) =>
      Issue(s.(searchRef := term, pageRef := 1, page := 1, options := [], pending := None),
            Request(1, term, false))
  }

  /** `handleScroll`: near the bottom, with more pages and no load running, the page after
      the last applied one is requested for the current term and appended; otherwise
      nothing happens. */
  function Scroll(s: State, nearBottom: bool): (r: (State, Option<Request>))
    ensures r.1.Some? <==> nearBottom && s.hasMore && !s.loading
    ensures r.1.Some? ==>
      r.1.value == Request(s.pageRef + 1, s.searchRef, true) && r.0.page == s.pageRef + 1 &&
      r.0.loading && r.0.options == s.options
    ensures r.1.Some? ==>
      r.0.open == s.open && r.0.selected == s.selected && r.0.search == s.search &&
      r.0.hasMore == s.hasMore && r.0.initialLoading == s.initialLoading &&
      r.0.searchRef == s.searchRef && r.0.pageRef == s.pageRef && r.0.pending == s.pending
    ensures r.1.None? ==> r.0 == s
  {
    if nearBottom && s.hasMore && !s.loading then
      Issue(s.(page := s.pageRef + 1), Request(s.pageRef + 1, s.searchRef, true))
    else (s, None)
  }

  /** Choosing an option: choosing the current value again clears it, any other option
      becomes the value; the popover closes either way. Returns the value emitted. */
  function Select(s: State, value: string, opt: Opt): (r: (State, string))
    ensures opt.value == value ==> r.1 == "" && r.0.selected.None?
    ensures opt.value != value ==> r.1 == opt.value && r.0.selected == Some(opt)
    ensures !r.0.open && r.0.options == s.options
    ensures r.0.search == s.search && r.0.page == s.page && r.0.hasMore == s.hasMore &&
      r.0.loading == s.loading && r.0.initialLoading == s.initialLoading &&
      r.0.searchRef == s.searchRef && r.0.pageRef == s.pageRef && r.0.pending == s.pending
  {
    if opt.value == value then (s.(selected := None, open := false), "")
    else (s.(selected := Some(opt), open := false), opt.value)
  }

  /** The first loaded option carrying `value`. */
  function FindOpt(options: seq<Opt>, value: string): (r: Option<Opt>)
    ensures r.Some? ==> r.value.value == value && r.value in options
    ensures r.Some? ==>
      exists i :: 0 <= i < |options| && options[i] == r.value &&
        (forall j :: 0 <= j < i ==> options[j].value != value)
    ensures r.None? <==> forall i :: 0 <= i < |options| ==> options[i].value != value
    decreases |options|
  {
    if |options| == 0 then None
    else if options[0].value == value then Some(options[0])
    else
      var r := FindOpt(options[1..], value);
      assert forall i :: 1 <= i < |options| ==> options[i] == options[1..][i - 1];
      r
  }

  /** Following the `value` prop: an empty value clears the selection; a value found
      among the loaded options selects it; otherwise the selection stays. */
  function SyncSelected(s: State, value: string): (r: State)
    ensures value == "" ==> r == s.(selected := None)
    ensures value != "" && FindOpt(s.options, value).Some? ==> r == s.(selected := FindOpt(s.options, value))
    ensures value != "" && FindOpt(s.options, value).None? ==> r == s
  {
    if value != "" && |s.options| > 0 then
      match FindOpt(s.options, value)
      case Some(o) => s.(selected := Some(o))
      case None => s
    else if value == "" then s.(selected := None)
    else s
  }

  // ---------------------------------------------------------------- properties

  /** Pages are numbered from 1. */
  predicate Valid(s: State) {
    s.page >= 1 && s.pageRef >= 1
  }

  /** The initial state and the events that issue requests keep the page numbers
      positive, and every request they issue asks for a positive page. */
  lemma RequestsKeepValid(s: State, open: bool, nearBottom: bool)
    requires Valid(s)
    ensures Valid(Initial)
    ensures Valid(OpenChange(s, open).0) && Valid(DebounceFire(s).0) && Valid(Scroll(s, nearBottom).0)
    ensures OpenChange(s, open).1.Some? ==> OpenChange(s, open).1.value.page >= 1
    ensures DebounceFire(s).1.Some? ==> DebounceFire(s).1.value.page >= 1
    ensures Scroll(s, nearBottom).1.Some? ==> Scroll(s, nearBottom).1.value.page >= 1
  {
  }

  /** The remaining events keep the page numbers positive, a completion as long as its
      request asked for a positive page. */
  lemma OtherEventsKeepValid(s: State, term: string, value: string, opt: Opt,
                             req: Request, response: Option<Response>)
    requires Valid(s)
    ensures Valid(SearchChange(s, term)) && Valid(Select(s, value, opt).0) && Valid(SyncSelected(s, value))
    ensures req.page >= 1 ==> Valid(Complete(s, req, response))
  {
  }

  /** Once a new search has fired, the late response of any earlier search leaves the
      cleared list empty, however many arrive. */
  lemma StaleResponsesIgnored(s: State, req: Request, response: Option<Response>)
    requires s.pending.Some? && req.search != s.pending.value
    ensures Complete(DebounceFire(s).0, req, response).options == []
  {
  }

  /** The first page of a fresh search replaces whatever was listed, and a following page of
      the same search extends it. */
  lemma PagesAccumulate(s: State, first: Response, next: Response)
    requires s.pending.Some?
    ensures
      var term := s.pending.value;
      var s1 := Complete(DebounceFire(s).0, Request(1, term, false), Some(first));
      var s2 := Scroll(s1, true);
      s1.options == first.items &&
      (first.hasMore ==>
        (s2.1 == Some(Request(2, term, true)) &&
         Complete(s2.0, s2.1.value, Some(next)).options == first.items + next.items))
  {
  }
}

=== FILE: auth_context.dfy ===
/** The authentication context: the session token lives both in component state and in
    `localStorage` (a map from keys to strings here), and the user record is fetched with
    the token. The `/auth/me` call is replaced by its outcome. */
module AuthContext {
  import opened Wrappers

  type Storage = map<string, string>

  const TokenKey := "token"

  datatype User = User(nik: string, name: string, role: string)

  datatype Session = Session(user: Option<User>, token: Option<string>)

  /** A provider: its state together with the storage it writes. */
  datatype Provider = Provider(session: Session, storage: Storage)

  /** `localStorage.getItem`. */
  function GetItem(storage: Storage, key: string): (r: Option<string>)
    ensures r.Some? <==> key in storage
    ensures r.Some? ==> r.value == storage[key]
  {
    if key in storage then Some(storage[key]) else None
  }

  /** `!!token`: a token that is present and not the empty string. */
  predicate IsAuthenticated(s: Session) {
    s.token.Some? && s.token.value != ""
  }

  /** The provider as created: no user, and the token read from storage. The mount effect
      asks for the user exactly when the stored token is non-empty; the token to send is
      returned. */
  function Mount(storage: Storage): (r: (Provider, Option<string>))
    ensures r.0.storage == storage && r.0.session.user.None?
    ensures r.0.session.token == GetItem(storage, TokenKey)
    ensures r.1.Some? <==> IsAuthenticated(r.0.session)
    ensures r.1.Some? ==> r.1 == r.0.session.token
  {
    var token := GetItem(storage, TokenKey);
    (Provider(Session(None, token), storage),
     if token.Some? && token.value != "" then token else None)
  }

  /** `login`: the token is stored and becomes the state's token; the user is then fetched
      with it. */
  function Login(p: Provider, token: string): (r: (Provider, string))
    ensures r.0.storage == p.storage[TokenKey := token]
    ensures r.0.session == p.session.(token := Some(token)) && r.1 == token
  {
    (Provider(p.session.(token := Some(token)), p.storage[TokenKey := token]), token)
  }

  /** `logout`: the stored token is removed and both token and user are cleared; every other
      stored key keeps its value. */
  function Logout(p: Provider): (r: Provider)
    ensures r.session == Session(None, None)
    ensures TokenKey !in r.storage
    ensures forall k :: k != TokenKey ==> (k in r.storage <==> k in p.storage)
    ensures forall k :: k in r.storage ==> r.storage[k] == p.storage[k]
  {
    Provider(Session(None, None), p.storage - {TokenKey})
  }

  /** What `/auth/me` came to. */
  datatype FetchOutcome = Ok(user: User) | NotOk | Threw

  /** The end of `fetchUser`: an ok response sets the user, a rejected token logs out, and
      an exception changes nothing. */
  function FetchUser(p: Provider, outcome: FetchOutcome): (r: Provider)
    ensures outcome.Ok? ==> r == p.(session := p.session.(user := Some(outcome.user)))
    ensures outcome.NotOk? ==> r == Logout(p)
    ensures outcome.Threw? ==> r == p
  {
    match outcome
    case Ok(u) => p.(session := p.session.(user := Some(u)))
    case NotOk => Logout(p)
    case Threw => p
  }

  /** The value handed to consumers. */
  datatype Context = Context(user: Option<User>, token: Option<string>, isAuthenticated: bool)

  function ContextOf(p: Provider): (r: Context)
    ensures r.user == p.session.user && r.token == p.session.token
    ensures r.isAuthenticated <==> IsAuthenticated(p.session)
  {
    Context(p.session.user, p.session.token, IsAuthenticated(p.session))
  }

  const OutsideProvider := "useAuth must be used within an AuthProvider"

  /** `useAuth`: outside a provider there is no context and the hook fails. */
  function UseAuth(context: Option<Context>): (r: Result<Context, string>)
    ensures context.None? <==> r == Failure(OutsideProvider)
    ensures context.Some? ==> r == Success(context.value)
  {
    match context
    case None => Failure(OutsideProvider)
    case Some(c) => Success(c)
  }

  /** A token saved by `login` is the token a later provider starts with, and a non-empty
      one makes that provider fetch the user with it. */
  lemma LoginSurvivesReload(p: Provider, token: string)
    ensures Mount(Login(p, token).0.storage).0.session.token == Some(token)
    ensures token != "" ==> Mount(Login(p, token).0.storage).1 == Some(token)
    ensures IsAuthenticated(Login(p, token).0.session) <==> token != ""
  {
  }

  /** After `logout`, also after a rejected token, the provider and any later one are
      unauthenticated and ask for no user. */
  lemma LogoutSurvivesReload(p: Provider)
    ensures !IsAuthenticated(Logout(p).session) && !IsAuthenticated(FetchUser(p, NotOk).session)
    ensures Mount(Logout(p).storage).0.session.token.None? && Mount(Logout(p).storage).1.None?
  {
  }

  /** Logging in and then out leaves the storage as it was before, apart from the token. */
  lemma LoginLogout(p: Provider, token: string)
    ensures Logout(Login(p, token).0).storage == p.storage - {TokenKey}
  {
  }
}

=== FILE: data_import.dfy ===
/** The simulated Excel upload: choosing a file starts a progress counter that an interval
    timer raises by 10 per tick until it passes 100, when the upload is reported done. The
    timer is modelled by explicit `Tick` events; a single interval is assumed running. */
module DataImport {

  datatype UploadStatus = Idle | Uploading | Success | Error

  /** The status, the progress percentage, and whether the interval is still running. */
  datatype State = State(status: UploadStatus, progress: int, ticking: bool)

  const Initial := State(Idle, 0, false)

  /** Percent added per tick, and the percentage at which the next tick finishes. */
  const Step := 10
  const Full := 100

  /** `handleFileUpload`: uploading from 0 with the interval started. */
  function HandleFileUpload(s: State): (r: State)
    ensures r.status == Uploading && r.progress == 0 && r.ticking
  {
    State(Uploading, 0, true)
  }

  /** One interval tick: below 100 adds 10; at or above 100 stops the interval, pins the
      progress at 100 and reports success. Without a running interval nothing happens. */
  function Tick(s: State): (r: State)
    ensures !s.ticking ==> r == s
    ensures s.ticking && s.progress < Full ==> r == s.(progress := s.progress + Step)
    ensures s.ticking && s.progress >= Full ==> r == State(Success, Full, false)
  {
    if !s.ticking then s
    else if s.progress >= Full then State(Success, Full, false)
    else s.(progress := s.progress + Step)
  }

  function Ticks(s: State, n: nat): State
    decreases n
  {
    if n == 0 then s else Ticks(Tick(s), n - 1)
  }

  /** What the page can be in: progress a multiple of 10 within [0, 100], the interval
      running only while uploading, and success only at 100. */
  predicate Valid(s: State) {
    0 <= s.progress <= Full && s.progress % Step == 0 &&
    (s.ticking ==> s.status == Uploading) &&
    (s.status == Success ==> s.progress == Full) &&
    (s.status == Uploading ==> s.ticking)
  }

  lemma StepsKeepValid(s: State)
    requires Valid(s)
    ensures Valid(Initial)
    ensures Valid(HandleFileUpload(s))
    ensures Valid(Tick(s))
  {
  }

  /** After `n` ticks, at most ten of them, an upload has progressed by `10 * n`. */
  lemma {:induction false} ProgressAfter(s: State, n: nat)
    requires s.status == Uploading && s.ticking && 0 <= s.progress && s.progress + Step * n <= Full
    ensures Ticks(s, n) == s.(progress := s.progress + Step * n)
    decreases n
  {
    if n > 0 {
      ProgressAfter(Tick(s), n - 1);
    }
  }

  /** Success comes with the eleventh tick of an upload and not before. */
  lemma SuccessAfterElevenTicks(s: State, n: nat)
    ensures Ticks(HandleFileUpload(s), 11) == State(Success, Full, false)
    ensures n < 11 ==> Ticks(HandleFileUpload(s), n).status == Uploading
  {
    var u := HandleFileUpload(s);
    ProgressAfter(u, 10);
    if n < 11 {
      ProgressAfter(u, if n <= 10 then n else 10);
    }
  }

  /** Running the interval until it stops: the tick count it takes and the state it ends in. */
  method RunUpload(s: State) returns (ticks: nat, done: State)
    ensures ticks == 11 && done == Ticks(HandleFileUpload(s), ticks)
    ensures done.status == Success && done.progress == Full
  {
    var u := HandleFileUpload(s);
    var cur := u;
    ticks := 0;
    while cur.ticking
      invariant ticks <= 11
      invariant cur == Ticks(u, ticks)
      invariant cur.ticking ==> cur.status == Uploading && cur.progress == Step * ticks
      invariant !cur.ticking ==> ticks == 11 && cur == State(Success, Full, false)
      decreases Full + Step - Step * ticks
    {
      TicksStep(u, ticks);
      cur := Tick(cur);
      ticks := ticks + 1;
    }
    done := cur;
  }

  lemma {:induction false} TicksStep(s: State, n: nat)
    ensures Ticks(s, n + 1) == Tick(Ticks(s, n))
    decreases n
  {
    if n > 0 {
      TicksStep(Tick(s), n - 1);
    }
  }

  /** The progress bar shows only while uploading and the success notice only after. */
  datatype View = View(progressBar: bool, progressText: int, successAlert: bool)

  function Render(s: State): (v: View)
    ensures v.progressBar <==> s.status == Uploading
    ensures v.successAlert <==> s.status == Success
    ensures !(v.progressBar && v.successAlert)
  {
    View(s.status == Uploading, s.progress, s.status == Success)
  }
}

=== FILE: duplicate_nik_dialog.dfy ===
/** The dialog shown when a NIK is already registered: the activities the NIK took part in,
    most recent first, three at a time unless expanded. Parsing a date into a time stamp is
    a parameter (`time`), as is whether the portal has mounted. */
module DuplicateNikDialog {
  import opened Wrappers
  import opened Seqs
  import opened Text

  datatype Activity = Activity(activityName: string, date: string, location: string)

  // ---------------------------------------------------------------- sorting

  /** Neighbour-free statement of "most recent first". */
  predicate Descending(time: Activity -> int, s: seq<Activity>) {
    forall i, j :: 0 <= i < j < |s| ==> time(s[i]) >= time(s[j])
  }

  /** Inserts `x` into a descending list after every element at least as recent, so that
      elements of equal time keep their arrival order. */
  function Insert(time: Activity -> int, x: Activity, s: seq<Activity>): (r: seq<Activity>)
    ensures multiset(r) == multiset(s) + multiset{x}
    ensures |r| == |s| + 1
    decreases |s|
  {
    if |s| == 0 then [x]
    else
      assert s == [s[0]] + s[1..];
      if time(s[0]) >= time(x) then [s[0]] + Insert(time, x, s[1..]) else [x] + s
  }

  /** No element of `s` is more recent than `v`. */
  predicate AtMost(time: Activity -> int, s: seq<Activity>, v: int) {
    forall i :: 0 <= i < |s| ==> time(s[i]) <= v
  }

  lemma {:induction false} InsertAtMost(time: Activity -> int, x: Activity, s: seq<Activity>, v: int)
    requires AtMost(time, s, v) && time(x) <= v
    ensures AtMost(time, Insert(time, x, s), v)
    decreases |s|
  {
    if |s| > 0 && time(s[0]) >= time(x) {
      assert AtMost(time, s[1..], v);
      InsertAtMost(time, x, s[1..], v);
    }
  }

  lemma {:induction false} InsertDescending(time: Activity -> int, x: Activity, s: seq<Activity>)
    requires Descending(time, s)
    ensures Descending(time, Insert(time, x, s))
    decreases |s|
  {
    if |s| > 0 && time(s[0]) >= time(x) {
      var rest := Insert(time, x, s[1..]);
      assert Descending(time, s[1..]);
      InsertDescending(time, x, s[1..]);
      assert AtMost(time, s[1..], time(s[0]));
      InsertAtMost(time, x, s[1..], time(s[0]));
      var r := [s[0]] + rest;
      assert forall j :: 0 < j < |r| ==> r[j] == rest[j - 1];
    }
  }

  /** `[...activities].sort((a, b) => time(b) - time(a))`: a stable sort on a copy, most
      recent first. */
  function SortByDateDesc(time: Activity -> int, s: seq<Activity>): (r: seq<Activity>)
    ensures |r| == |s|
    ensures multiset(r) == multiset(s)
    decreases |s|
  {
    if |s| == 0 then []
    else
      assert s == s[..|s| - 1] + [s[|s| - 1]];
      Insert(time, s[|s| - 1], SortByDateDesc(time, s[..|s| - 1]))
  }

  lemma {:induction false} SortedDescending(time: Activity -> int, s: seq<Activity>)
    ensures Descending(time, SortByDateDesc(time, s))
    decreases |s|
  {
    if |s| > 0 {
      SortedDescending(time, s[..|s| - 1]);
      InsertDescending(time, s[|s| - 1], SortByDateDesc(time, s[..|s| - 1]));
    }
  }

  // ---------------------------------------------------------------- stability

  /** The activities with time stamp `t`, in their order in `s`. */
  function OfTime(time: Activity -> int, t: int, s: seq<Activity>): seq<Activity>
    decreases |s|
  {
    if |s| == 0 then []
    else if time(s[0]) == t then [s[0]] + OfTime(time, t, s[1..])
    else OfTime(time, t, s[1..])
  }

  lemma {:induction false} OfTimeAppend(time: Activity -> int, t: int, a: seq<Activity>, b: seq<Activity>)
    ensures OfTime(time, t, a + b) == OfTime(time, t, a) + OfTime(time, t, b)
    decreases |a|
  {
    if |a| == 0 {
      assert a + b == b;
    } else {
      assert (a + b)[1..] == a[1..] + b;
      OfTimeAppend(time, t, a[1..], b);
    }
  }

  lemma {:induction false} OfTimeNone(time: Activity -> int, t: int, s: seq<Activity>)
    requires AtMost(time, s, t - 1)
    ensures OfTime(time, t, s) == []
    decreases |s|
  {
    if |s| > 0 {
      assert AtMost(time, s[1..], t - 1);
      OfTimeNone(time, t, s[1..]);
    }
  }

  /** Inserting `x` puts it behind every element of its own time. */
  lemma {:induction false} InsertStable(time: Activity -> int, x: Activity, s: seq<Activity>, t: int)
    requires Descending(time, s)
    ensures OfTime(time, t, Insert(time, x, s)) == OfTime(time, t, s) + OfTime(time, t, [x])
    decreases |s|
  {
    if |s| == 0 {
    } else if time(s[0]) >= time(x) {
      assert Descending(time, s[1..]);
      InsertStable(time, x, s[1..], t);
    } else {
      assert AtMost(time, s, time(x) - 1);
      OfTimeAppend(time, t, [x], s);
      if time(x) == t {
        OfTimeNone(time, t, s);
      }
    }
  }

  /** The sort is stable: the activities of any one time stamp stay in input order. */
  lemma {:induction false} SortStable(time: Activity -> int, s: seq<Activity>, t: int)
    ensures OfTime(time, t, SortByDateDesc(time, s)) == OfTime(time, t, s)
    decreases |s|
  {
    if |s| > 0 {
      var init := s[..|s| - 1];
      SortStable(time, init, t);
      SortedDescending(time, init);
      InsertStable(time, s[|s| - 1], SortByDateDesc(time, init), t);
      OfTimeAppend(time, t, init, [s[|s| - 1]]);
      assert init + [s[|s| - 1]] == s;
    }
  }

  // ---------------------------------------------------------------- the list shown

  const Collapsed := 3

  /** The activities listed: all when expanded, otherwise the first three. */
  function Displayed(sorted: seq<Activity>, showAll: bool): (r: seq<Activity>)
    ensures |r| == if showAll || |sorted| <= Collapsed then |sorted| else Collapsed
    ensures r == sorted[..|r|]
  {
    if showAll then sorted else if |sorted| <= Collapsed then sorted else sorted[..Collapsed]
  }

  /** `remainingCount`, which is negative for short lists. */
  function RemainingCount(sorted: seq<Activity>): int {
    |sorted| - Collapsed
  }

  /** What the dialog renders around the list. */
  datatype View = View(
    shown: seq<Activity>, badge: Option<string>, collapseButton: bool)

  /** The rendered dialog: nothing before mounting or while closed; otherwise the list,
      the "+k lainnya" badge when collapsed with hidden activities, and the collapse button
      when expanded with more than three. */
  function Render(time: Activity -> int, mounted: bool, isOpen: bool, showAll: bool,
                  activities: seq<Activity>): (r: Option<View>)
    ensures r.None? <==> !mounted || !isOpen
    ensures r.Some? ==> r.value.shown == Displayed(SortByDateDesc(time, activities), showAll)
    ensures r.Some? ==> (r.value.badge.Some? <==> !showAll && |activities| > Collapsed)
    ensures r.Some? && r.value.badge.Some? ==>
      r.value.badge.value == "+" + IntToString(|activities| - Collapsed) + " lainnya"
    ensures r.Some? ==> (r.value.collapseButton <==> showAll && |activities| > Collapsed)
  {
    if !mounted || !isOpen then None
    else
      var sorted := SortByDateDesc(time, activities);
      var remaining := RemainingCount(sorted);
      var badge := if remaining > 0 && !showAll
        then Some("+" + IntToString(remaining) + " lainnya") else None;
      Some(View(Displayed(sorted, showAll), badge, showAll && |sorted| > Collapsed))
  }

  /** Clicking the badge expands the list and clicking the collapse button folds it again;
      either way every activity stays reachable. */
  lemma ExpandCollapse(time: Activity -> int, activities: seq<Activity>)
    requires |activities| > Collapsed
    ensures Render(time, true, true, false, activities).value.badge.Some?
    ensures Render(time, true, true, true, activities).value.shown == SortByDateDesc(time, activities)
    ensures Render(time, true, true, true, activities).value.collapseButton
    ensures |Render(time, true, true, false, activities).value.shown| == Collapsed
  {
  }

  /** Four activities show three and a "+1 lainnya" badge; three or fewer show no badge. */
  lemma BadgeExamples(time: Activity -> int, activities: seq<Activity>)
    ensures |activities| == 4 ==> Render(time, true, true, false, activities).value.badge == Some("+1 lainnya")
    ensures |activities| <= Collapsed ==> Render(time, true, true, false, activities).value.badge.None?
    ensures |activities| <= Collapsed ==> !Render(time, true, true, true, activities).value.collapseButton
  {
    if |activities| == 4 {
      assert NatToString(1) == [DigitChar(1)] == "1";
      assert "+" + "1" + " lainnya" == "+1 lainnya";
    }
  }
}

=== FILE: engagement_form.dfy ===
/** The engagement entry page: a list of constituents met through one of five engagement
    sources, with a form that adds an entry unless its NIK is already listed. The clock
    (entry id and date) is a parameter, and toasts are returned as notices. */
module EngagementForm {
  import opened Wrappers
  import opened Seqs

  datatype Source = Source(value: string, title: string, votes: nat)

  /** `engagementSources`: the five sources and the votes each is expected to bring. */
  const Sources: seq<Source> := [
    Source("recess", "Reses", 150),
    Source("oversight", "Pengawasan Pemerintah", 100),
    Source("education", "Pendidikan Demokrasi", 50),
    Source("dialogue", "Dialog dengan Perwakilan", 100),
    Source("cultural", "Silaturahmi Budaya", 100)
  ]

  datatype Entry = Entry(
    id: string, nik: string, name: string, subdistrict: string, village: string,
    hamlet: string, rtRw: string, source: string, potentialVotes: nat, date: string)

  datatype Form = Form(
    nik: string, name: string, subdistrict: string, village: string, hamlet: string,
    rtRw: string, source: string)

  const EmptyForm := Form("", "", "", "", "", "", "")

  const InitialEntries: seq<Entry> := [
    Entry("1", "3201234567890001", "Ahmad Pratama", "Kecamatan A", "Desa 1", "Dusun 1",
          "RT 01/RW 02", "Reses", 150, "2025-10-28"),
    Entry("2", "3201234567890002", "Siti Nurhaliza", "Kecamatan B", "Desa 2", "Dusun 3",
          "RT 03/RW 04", "Pendidikan Demokrasi", 50, "2025-10-27")
  ]

  datatype State = State(entries: seq<Entry>, form: Form)

  const InitialState := State(InitialEntries, EmptyForm)

  datatype Notice = Error(text: string) | Info(text: string)

  const DuplicateNik := "NIK sudah terdaftar dalam database"
  const MissingSource := "Silakan pilih sumber engagement"
  const Added := "Data engagement berhasil ditambahkan"
  const Deleted := "Data berhasil dihapus"

  /** Some entry already carries `nik`. */
  predicate NikListed(entries: seq<Entry>, nik: string) {
    exists i :: 0 <= i < |entries| && entries[i].nik == nik
  }

  /** `engagementSources.find`: the first source whose value is `value`. */
  function FindSource(value: string): (r: Option<Source>)
    ensures r.None? <==> forall i :: 0 <= i < |Sources| ==> Sources[i].value != value
    ensures r.Some? ==>
      (r.value.value == value && exists i :: 0 <= i < |Sources| && Sources[i] == r.value)
  {
    if value == "recess" then Some(Sources[0])
    else if value == "oversight" then Some(Sources[1])
    else if value == "education" then Some(Sources[2])
    else if value == "dialogue" then Some(Sources[3])
    else if value == "cultural" then Some(Sources[4])
    else None
  }

  /** Every source brings 50, 100 or 150 votes. */
  predicate AllowedVotes(v: nat) {
    v == 50 || v == 100 || v == 150
  }

  lemma SourceVotesAllowed(value: string)
    ensures FindSource(value).Some? ==> AllowedVotes(FindSource(value).value.votes)
  {
  }

  /** The entry the form describes, taking title and votes from its source. */
  function NewEntry(form: Form, source: Source, id: string, today: string): (e: Entry)
    ensures e.nik == form.nik && e.name == form.name && e.subdistrict == form.subdistrict
    ensures e.village == form.village && e.hamlet == form.hamlet && e.rtRw == form.rtRw
    ensures e.source == source.title && e.potentialVotes == source.votes
    ensures e.id == id && e.date == today
  {
    Entry(id, form.nik, form.name, form.subdistrict, form.village, form.hamlet, form.rtRw,
          source.title, source.votes, today)
  }

  /** `handleSubmit` with `id` the time stamp and `today` the current date. A listed NIK or
      a missing source changes nothing; otherwise the new entry goes first, the old entries
      follow unchanged, and the form is cleared. */
  function HandleSubmit(s: State, id: string, today: string): (r: (State, Notice))
    ensures NikListed(s.entries, s.form.nik) ==> r == (s, Error(DuplicateNik))
    ensures !NikListed(s.entries, s.form.nik) && FindSource(s.form.source).None? ==>
      r == (s, Error(MissingSource))
    ensures r.1.Info? <==> !NikListed(s.entries, s.form.nik) && FindSource(s.form.source).Some?
    ensures r.1.Info? ==>
      var src := FindSource(s.form.source).value;
      |r.0.entries| == |s.entries| + 1 && r.0.entries[1..] == s.entries &&
      r.0.entries[0] == NewEntry(s.form, src, id, today) &&
      r.0.form == EmptyForm && r.1 == Info(Added)
  {
    if NikListed(s.entries, s.form.nik) then (s, Error(DuplicateNik))
    else match FindSource(s.form.source)
      case None => (s, Error(MissingSource))
      case Some(src) =>
        var entries := [NewEntry(s.form, src, id, today)] + s.entries;
        assert entries[1..] == s.entries;
        (State(entries, EmptyForm), Info(Added))
  }

  function EntryId(e: Entry): string { e.id }
  function EntryNik(e: Entry): string { e.nik }

  /** `handleDelete`: drops every entry with this id and keeps the rest in order. */
  function HandleDelete(s: State, id: string): (r: (State, Notice))
    ensures forall i :: 0 <= i < |r.0.entries| ==> r.0.entries[i].id != id
    ensures forall i :: 0 <= i < |s.entries| && s.entries[i].id != id ==> s.entries[i] in r.0.entries
    ensures forall i :: 0 <= i < |r.0.entries| ==> r.0.entries[i] in s.entries
    ensures IsSubsequence(r.0.entries, s.entries)
    ensures |r.0.entries| == CountWhere((e: Entry) => e.id != id, s.entries)
    ensures r.0.form == s.form && r.1 == Info(Deleted)
  {
    (s.(entries := Filter((e: Entry) => e.id != id, s.entries)), Info(Deleted))
  }

  /** Deleting an id no entry carries leaves the list as it is. */
  lemma DeleteAbsent(s: State, id: string)
    requires forall i :: 0 <= i < |s.entries| ==> s.entries[i].id != id
    ensures HandleDelete(s, id).0 == s
  {
    FilterKeepsAll((e: Entry) => e.id != id, s.entries);
  }

  /** The page invariant: no two entries share a NIK, and every entry's votes come from
      a source. */
  predicate Valid(s: State) {
    UniqueKeys(EntryNik, s.entries) &&
    forall i :: 0 <= i < |s.entries| ==> AllowedVotes(s.entries[i].potentialVotes)
  }

  lemma InitialValid()
    ensures Valid(InitialState)
  {
  }

  /** Submitting and deleting keep the invariant. */
  lemma SubmitKeepsValid(s: State, id: string, today: string)
    requires Valid(s)
    ensures Valid(HandleSubmit(s, id, today).0)
  {
    var r := HandleSubmit(s, id, today).0;
    if r != s {
      var src := FindSource(s.form.source).value;
      SourceVotesAllowed(s.form.source);
      forall i, j | 0 <= i < j < |r.entries|
        ensures EntryNik(r.entries[i]) != EntryNik(r.entries[j])
      {
        if i == 0 {
          assert r.entries[j] == s.entries[j - 1];
        } else {
          assert r.entries[i] == s.entries[i - 1] && r.entries[j] == s.entries[j - 1];
        }
      }
      forall i | 0 <= i < |r.entries|
        ensures AllowedVotes(r.entries[i].potentialVotes)
      {
        if i > 0 {
          assert r.entries[i] == s.entries[i - 1];
        }
      }
    }
  }

  lemma DeleteKeepsValid(s: State, id: string)
    requires Valid(s)
    ensures Valid(HandleDelete(s, id).0)
  {
    FilterKeepsUniqueKeys(EntryNik, (e: Entry) => e.id != id, s.entries);
    var r := HandleDelete(s, id).0;
    forall i | 0 <= i < |r.entries|
      ensures AllowedVotes(r.entries[i].potentialVotes)
    {
      var k :| 0 <= k < |s.entries| && s.entries[k] == r.entries[i];
    }
  }
}

=== FILE: export_data.dfy ===
/** The export page: a cascading Dapil → Kecamatan → Desa filter over the region table, the
    attendee query built from it, and the CSV file built from the attendees it returns.
    The HTTP request, the toasts and the browser download are outside the model: the fetch
    result is an input, and the current date is a given string. */
module ExportData {
  import opened Wrappers
  import opened Seqs
  import opened Text
  import opened Wilayah
  import Api

  /** The three filter selections; "" means no selection. */
  datatype Filters = Filters(dapil: string, kecamatan: string, desa: string)

  const NoFilters := Filters("", "", "")

  /** The combobox value that stands for "no selection". */
  const AllChoice := "ALL"

  // ---------------------------------------------------------------- options

  /** The kecamatan names offered: every name of the table when no dapil is selected,
      otherwise the names of the kecamatan of that dapil, in table order. */
  function KecamatanOptions(table: seq<Kecamatan>, f: Filters): (r: seq<string>)
    ensures forall i :: 0 <= i < |r| ==> r[i] in KecamatanNames(table)
    ensures forall i :: 0 <= i < |table| && (f.dapil == "" || table[i].dapil == f.dapil) ==>
      table[i].name in r
    ensures f.dapil != "" ==>
      forall i :: 0 <= i < |r| ==> exists k :: k in table && k.dapil == f.dapil && k.name == r[i]
    ensures f.dapil != "" ==> r == KecamatanNames(KecamatanByDapil(table, f.dapil))
    ensures f.dapil == "" ==> r == KecamatanNames(table)
  {
    if f.dapil != "" then
      var group := KecamatanByDapil(table, f.dapil);
      var r := KecamatanNames(group);
      assert forall i :: 0 <= i < |r| ==> group[i] in table && group[i].dapil == f.dapil && group[i].name == r[i];
      assert forall i :: 0 <= i < |r| ==> r[i] in KecamatanNames(table) by {
        forall i | 0 <= i < |r|
          ensures r[i] in KecamatanNames(table)
        {
          NameListed(table, group[i]);
        }
      }
      assert forall i :: 0 <= i < |table| && table[i].dapil == f.dapil ==> table[i].name in r by {
        forall i | 0 <= i < |table| && table[i].dapil == f.dapil
          ensures table[i].name in r
        {
          NameListed(group, table[i]);
        }
      }
      r
    else
      var r := KecamatanNames(table);
      assert forall i :: 0 <= i < |table| ==> table[i].name == r[i];
      r
  }

  /** The names of some villages, in order. */
  function VillageNames(vs: seq<Village>): (r: seq<string>)
    ensures |r| == |vs|
    ensures forall i :: 0 <= i < |vs| ==> r[i] == vs[i].name
  {
    seq(|vs|, i requires 0 <= i < |vs| => vs[i].name)
  }

  /** The desa names offered: none until a kecamatan is selected, then the names of the
      villages of that kecamatan, in table order. */
  function DesaOptions(table: seq<Kecamatan>, f: Filters): (r: seq<string>)
    ensures f.kecamatan == "" || Unlisted(table, f.kecamatan) ==> r == []
    ensures forall i :: f.kecamatan != "" && FirstNamed(table, f.kecamatan, i) ==>
      |r| == |table[i].villages| &&
      forall j :: 0 <= j < |r| ==> r[j] == table[i].villages[j].name
  {
    if f.kecamatan != "" then VillageNames(DesaByKecamatan(table, f.kecamatan)) else []
  }

  // ---------------------------------------------------------------- filter changes

  /** A combobox value as a selection: "ALL" clears it. */
  function Selection(value: string): (r: string)
    ensures value == AllChoice ==> r == ""
    ensures value != AllChoice ==> r == value
  {
    if value == AllChoice then "" else value
  }

  /** `handleDapilChange`: a new dapil clears both lower levels. */
  function HandleDapilChange(f: Filters, value: string): (r: Filters)
    ensures r.dapil == Selection(value)
    ensures r.kecamatan == "" && r.desa == ""
  {
    Filters(Selection(value), "", "")
  }

  /** `handleKecamatanChange`: keeps the dapil and clears the desa. */
  function HandleKecamatanChange(f: Filters, value: string): (r: Filters)
    ensures r.dapil == f.dapil
    ensures r.kecamatan == Selection(value)
    ensures r.desa == ""
  {
    f.(kecamatan := Selection(value), desa := "")
  }

  /** `handleDesaChange`: changes the desa only. */
  function HandleDesaChange(f: Filters, value: string): (r: Filters)
    ensures r.dapil == f.dapil && r.kecamatan == f.kecamatan
    ensures r.desa == Selection(value)
  {
    f.(desa := Selection(value))
  }

  /** Every selection is one the page offers at its level: the dapil is a listed option, the
      kecamatan one of the kecamatan options, the desa one of the desa options. */
  predicate Consistent(table: seq<Kecamatan>, dapils: seq<string>, f: Filters) {
    (f.dapil == "" || f.dapil in dapils) &&
    (f.kecamatan == "" || f.kecamatan in KecamatanOptions(table, f)) &&
    (f.desa == "" || f.desa in DesaOptions(table, f))
  }

  /** A value the combobox of a level can emit: one of its options, or "ALL". */
  predicate Offered(value: string, options: seq<string>) {
    value == AllChoice || value in options
  }

  /** The initial filters are consistent, and so is every change made through a combobox
      offering the options of its level. */
  lemma ChangesKeepConsistent(table: seq<Kecamatan>, dapils: seq<string>, f: Filters, value: string)
    requires Consistent(table, dapils, f)
    ensures Consistent(table, dapils, NoFilters)
    ensures Offered(value, dapils) ==> Consistent(table, dapils, HandleDapilChange(f, value))
    ensures Offered(value, KecamatanOptions(table, f)) ==>
      Consistent(table, dapils, HandleKecamatanChange(f, value))
    ensures Offered(value, DesaOptions(table, f)) ==>
      Consistent(table, dapils, HandleDesaChange(f, value))
  {
    var k := HandleKecamatanChange(f, value);
    assert KecamatanOptions(table, k) == KecamatanOptions(table, f);
    var d := HandleDesaChange(f, value);
    assert KecamatanOptions(table, d) == KecamatanOptions(table, f);
    assert DesaOptions(table, d) == DesaOptions(table, f);
  }

  // ---------------------------------------------------------------- attendee query

  datatype Param = Param(key: string, value: string)

  /** One `kecamatan` parameter per name, in order. */
  function KecamatanParams(names: seq<string>): (r: seq<Param>)
    ensures |r| == |names|
    ensures forall i :: 0 <= i < |r| ==> r[i] == Param("kecamatan", names[i])
  {
    seq(|names|, i requires 0 <= i < |names| => Param("kecamatan", names[i]))
  }

  /** The parameters `fetchAttendees` appends: the selected kecamatan, or else every kecamatan
      of the selected dapil; then the selected desa. */
  function QueryParams(table: seq<Kecamatan>, f: Filters): (r: seq<Param>)
  {
    var kec :=
      if f.kecamatan != "" then [Param("kecamatan", f.kecamatan)]
      else if f.dapil != "" then KecamatanParams(KecamatanNames(KecamatanByDapil(table, f.dapil)))
      else [];
    kec + (if f.desa != "" then [Param("desa", f.desa)] else [])
  }

  /** The values of the `kecamatan` parameters, in order. */
  function KecamatanValues(ps: seq<Param>): (r: seq<string>)
    ensures |r| <= |ps|
    decreases |ps|
  {
    if |ps| == 0 then []
    else if ps[0].key == "kecamatan" then [ps[0].value] + KecamatanValues(ps[1..])
    else KecamatanValues(ps[1..])
  }

  /** The values of the `desa` parameters, in order. */
  function DesaValues(ps: seq<Param>): (r: seq<string>)
    ensures |r| <= |ps|
    decreases |ps|
  {
    if |ps| == 0 then []
    else if ps[0].key == "desa" then [ps[0].value] + DesaValues(ps[1..])
    else DesaValues(ps[1..])
  }

  lemma {:induction false} KecamatanValuesAppend(a: seq<Param>, b: seq<Param>)
    ensures KecamatanValues(a + b) == KecamatanValues(a) + KecamatanValues(b)
    decreases |a|
  {
    if |a| == 0 {
      assert a + b == b;
    } else {
      assert (a + b)[0] == a[0];
      assert (a + b)[1..] == a[1..] + b;
      KecamatanValuesAppend(a[1..], b);
    }
  }

  lemma {:induction false} DesaValuesAppend(a: seq<Param>, b: seq<Param>)
    ensures DesaValues(a + b) == DesaValues(a) + DesaValues(b)
    decreases |a|
  {
    if |a| == 0 {
      assert a + b == b;
    } else {
      assert (a + b)[0] == a[0];
      assert (a + b)[1..] == a[1..] + b;
      DesaValuesAppend(a[1..], b);
    }
  }

  lemma {:induction false} KecamatanParamsValues(names: seq<string>)
    ensures KecamatanValues(KecamatanParams(names)) == names
    ensures DesaValues(KecamatanParams(names)) == []
    decreases |names|
  {
    if |names| > 0 {
      assert KecamatanParams(names)[1..] == KecamatanParams(names[1..]);
      KecamatanParamsValues(names[1..]);
    }
  }

  /** The query asks for exactly the selected kecamatan when there is one, otherwise for
      exactly the kecamatan the dapil offers, in the order offered, or for none at all; it
      carries one `desa` parameter, the selected one, iff a desa is selected. */
  lemma QueryParamsMeaning(table: seq<Kecamatan>, f: Filters)
    ensures f.kecamatan != "" ==> KecamatanValues(QueryParams(table, f)) == [f.kecamatan]
    ensures f.kecamatan == "" && f.dapil != "" ==>
      KecamatanValues(QueryParams(table, f)) == KecamatanOptions(table, f)
    ensures f.kecamatan == "" && f.dapil == "" ==> KecamatanValues(QueryParams(table, f)) == []
    ensures f.desa != "" ==> DesaValues(QueryParams(table, f)) == [f.desa]
    ensures f.desa == "" ==> DesaValues(QueryParams(table, f)) == []
    ensures QueryParams(table, f) == [] <==>
      f.desa == "" && (f.kecamatan == "" && (f.dapil == "" || KecamatanOptions(table, f) == []))
    ensures QueryParams(table, f) ==
      KecamatanParams(KecamatanValues(QueryParams(table, f))) +
      (if f.desa != "" then [Param("desa", f.desa)] else [])
  {
    var ps := QueryParams(table, f);
    var kec :=
      if f.kecamatan != "" then [Param("kecamatan", f.kecamatan)]
      else if f.dapil != "" then KecamatanParams(KecamatanNames(KecamatanByDapil(table, f.dapil)))
      else [];
    var desa: seq<Param> := if f.desa != "" then [Param("desa", f.desa)] else [];
    assert ps == kec + desa;
    KecamatanValuesAppend(kec, desa);
    DesaValuesAppend(kec, desa);
    if f.kecamatan == "" && f.dapil != "" {
      KecamatanParamsValues(KecamatanNames(KecamatanByDapil(table, f.dapil)));
    }
    assert DesaValues([Param("desa", f.desa)]) == [f.desa];
    assert KecamatanValues([Param("kecamatan", f.kecamatan)]) == [f.kecamatan];
    assert KecamatanValues([Param("desa", f.desa)]) == [];
    assert KecamatanParams([f.kecamatan]) == [Param("kecamatan", f.kecamatan)];
    assert KecamatanParams([]) == [];
  }

  // ---------------------------------------------------------------- form encoding

  /** Characters `URLSearchParams` writes as they are. */
  predicate Unescaped(c: char) {
    ('a' <= c <= 'z') || ('A' <= c <= 'Z') || ('0' <= c <= '9') ||
    c == '*' || c == '-' || c == '.' || c == '_'
  }

  function HexDigit(d: nat): (r: char)
    requires d < 16
    ensures IsHexDigit(r)
  {
    if d < 10 then ('0' as int + d) as char else ('A' as int + d - 10) as char
  }

  predicate IsHexDigit(c: char) {
    ('0' <= c <= '9') || ('A' <= c <= 'F')
  }

  function HexValue(c: char): (d: nat)
    requires IsHexDigit(c)
    ensures d < 16
  {
    if c <= '9' then c as int - '0' as int else c as int - 'A' as int + 10
  }

  lemma HexRoundTrip(d: nat)
    requires d < 16
    ensures HexValue(HexDigit(d)) == d
  {
  }

  /** The number of bytes a UTF-8 lead byte announces (section 3 of RFC 3629). */
  function Utf8Length(lead: nat): (k: nat)
    ensures 1 <= k <= 4
  {
    if lead < 0x80 then 1 else if lead < 0xE0 then 2 else if lead < 0xF0 then 3 else 4
  }

  /** A UTF-8 continuation byte, `10xxxxxx`. */
  predicate Continuation(b: nat) {
    0x80 <= b < 0xC0
  }

  /** The code point a one- to four-byte UTF-8 sequence spells: the payload bits of the lead
      byte followed by six bits from each continuation byte. */
  function Utf8Value(bs: seq<nat>): int
    requires 1 <= |bs| <= 4
  {
    if |bs| == 1 then bs[0]
    else if |bs| == 2 then (bs[0] as int - 0xC0) * 64 + (bs[1] as int - 0x80)
    else if |bs| == 3 then
      (bs[0] as int - 0xE0) * 4096 + (bs[1] as int - 0x80) * 64 + (bs[2] as int - 0x80)
    else
      (bs[0] as int - 0xF0) * 262144 + (bs[1] as int - 0x80) * 4096 +
      (bs[2] as int - 0x80) * 64 + (bs[3] as int - 0x80)
  }

  /** A value `as char` accepts: a Unicode scalar value. */
  predicate IsScalar(n: int) {
    (0 <= n < 0xD800) || (0xE000 <= n < 0x110000)
  }

  lemma Digits3(n: nat)
    requires n < 0x10000
    ensures (n / 4096) * 4096 + ((n / 64) % 64) * 64 + n % 64 == n
  {
    var q := n / 64;
    assert n == q * 64 + n % 64;
    assert q == (q / 64) * 64 + q % 64;
    assert n == (q / 64) * 4096 + (q % 64) * 64 + n % 64;
    assert n / 4096 == q / 64;
  }

  lemma Digits4(n: nat)
    requires n < 0x110000
    ensures (n / 262144) * 262144 + ((n / 4096) % 64) * 4096 + ((n / 64) % 64) * 64 + n % 64 == n
  {
    var q := n / 64;
    var q2 := q / 64;
    assert n == q * 64 + n % 64;
    assert q == q2 * 64 + q % 64;
    assert q2 == (q2 / 64) * 64 + q2 % 64;
    assert n == (q2 / 64) * 262144 + (q2 % 64) * 4096 + (q % 64) * 64 + n % 64;
    assert n / 4096 == q2;
    assert n / 262144 == q2 / 64;
  }

  /** The UTF-8 encoding of a Unicode scalar value (section 3 of RFC 3629): the shortest
      sequence for the code point, its lead byte announcing its length, then continuation
      bytes, together spelling the code point. */
  function Utf8(c: char): (r: seq<nat>)
    ensures 1 <= |r| <= 4
    ensures forall i :: 0 <= i < |r| ==> r[i] < 256
    ensures Utf8Length(r[0]) == |r|
    ensures forall i :: 1 <= i < |r| ==> Continuation(r[i])
    ensures Utf8Value(r) == c as int
    ensures |r| == 1 <==> c as int < 0x80
    ensures |r| == 2 <==> 0x80 <= c as int < 0x800
    ensures |r| == 3 <==> 0x800 <= c as int < 0x10000
  {
    var n := c as int;
    if n < 0x80 then [n]
    else if n < 0x800 then [0xC0 + n / 64, 0x80 + n % 64]
    else if n < 0x10000 then
      Digits3(n);
      [0xE0 + n / 4096, 0x80 + (n / 64) % 64, 0x80 + n % 64]
    else
      Digits4(n);
      [0xF0 + n / 262144, 0x80 + (n / 4096) % 64, 0x80 + (n / 64) % 64, 0x80 + n % 64]
  }

  /** `%XY` for each byte. */
  function PercentBytes(bs: seq<nat>): (r: string)
    requires forall i :: 0 <= i < |bs| ==> bs[i] < 256
    ensures |r| == 3 * |bs|
    ensures forall i :: 0 <= i < |r| ==> EncodedChar(r[i])
    decreases |bs|
  {
    if |bs| == 0 then ""
    else ['%', HexDigit(bs[0] / 16), HexDigit(bs[0] % 16)] + PercentBytes(bs[1..])
  }

  /** Reads `%XY` triples back into bytes; anything else is not a percent-encoding. */
  function PercentDecode(s: string): (r: Option<seq<nat>>)
    ensures r.Some? ==> 3 * |r.value| == |s|
    decreases |s|
  {
    if |s| == 0 then Some([])
    else if |s| >= 3 && s[0] == '%' && IsHexDigit(s[1]) && IsHexDigit(s[2]) then
      match PercentDecode(s[3..])
      case None => None
      case Some(rest) => Some([HexValue(s[1]) * 16 + HexValue(s[2])] + rest)
    else None
  }

  /** Percent-encoded bytes read back as the same bytes. */
  lemma {:induction false} PercentRoundTrip(bs: seq<nat>)
    requires forall i :: 0 <= i < |bs| ==> bs[i] < 256
    ensures PercentDecode(PercentBytes(bs)) == Some(bs)
    decreases |bs|
  {
    if |bs| > 0 {
      var s := PercentBytes(bs);
      PercentRoundTrip(bs[1..]);
      HexRoundTrip(bs[0] / 16);
      HexRoundTrip(bs[0] % 16);
      assert s[3..] == PercentBytes(bs[1..]);
      assert bs == [bs[0]] + bs[1..];
    }
  }

  /** A character the serializer can produce: never `&` or `=`, which delimit parameters. */
  predicate EncodedChar(c: char) {
    Unescaped(c) || c == '+' || c == '%' || IsHexDigit(c)
  }

  /** The `application/x-www-form-urlencoded` byte serializer on one character. */
  function EncodeChar(c: char): (r: string)
    ensures |r| > 0
    ensures Unescaped(c) ==> r == [c]
    ensures c == ' ' ==> r == "+"
    ensures forall i :: 0 <= i < |r| ==> EncodedChar(r[i])
  {
    if Unescaped(c) then [c] else if c == ' ' then "+" else PercentBytes(Utf8(c))
  }

  function Encode(s: string): (r: string)
    ensures |r| >= |s|
    ensures forall i :: 0 <= i < |r| ==> EncodedChar(r[i])
    decreases |s|
  {
    if |s| == 0 then "" else EncodeChar(s[0]) + Encode(s[1..])
  }

  /** A string of unreserved characters is sent as it is. */
  lemma {:induction false} EncodeUnescaped(s: string)
    requires forall i :: 0 <= i < |s| ==> Unescaped(s[i])
    ensures Encode(s) == s
    decreases |s|
  {
    if |s| > 0 {
      EncodeUnescaped(s[1..]);
      assert s == [s[0]] + s[1..];
    }
  }

  /** `c` in front of a decoded string; nothing when decoding failed. */
  function Prepend(c: char, o: Option<string>): (r: Option<string>)
    ensures r.Some? <==> o.Some?
    ensures r.Some? ==> r.value == [c] + o.value
  {
    match o
    case None => None
    case Some(t) => Some([c] + t)
  }

  /** A reader for what the serializer writes, the decoding half of the
      `application/x-www-form-urlencoded` format: `+` stands for a space, a run of `%XY`
      triples as long as its first byte announces spells one character in UTF-8, and any
      other character stands for itself. A malformed escape is not a decoding. */
  function Decode(s: string): (r: Option<string>)
    decreases |s|
  {
    if |s| == 0 then Some("")
    else if s[0] == '+' then Prepend(' ', Decode(s[1..]))
    else if s[0] != '%' then Prepend(s[0], Decode(s[1..]))
    else if |s| < 3 || !IsHexDigit(s[1]) || !IsHexDigit(s[2]) then None
    else
      var k := Utf8Length(HexValue(s[1]) * 16 + HexValue(s[2]));
      if |s| < 3 * k then None
      else
        match PercentDecode(s[..3 * k])
        case None => None
        case Some(bs) =>
          var n := Utf8Value(bs);
          if IsScalar(n) then Prepend(n as char, Decode(s[3 * k..])) else None
  }

  lemma HexPair(b: nat)
    requires b < 256
    ensures HexValue(HexDigit(b / 16)) * 16 + HexValue(HexDigit(b % 16)) == b
  {
    HexRoundTrip(b / 16);
    HexRoundTrip(b % 16);
  }

  /** The escape of a character is read back as that character, whatever follows it. */
  lemma DecodeEscape(c: char, rest: string)
    requires !Unescaped(c) && c != ' '
    ensures Decode(EncodeChar(c) + rest) == Prepend(c, Decode(rest))
  {
    var bs := Utf8(c);
    var e := PercentBytes(bs);
    var s := e + rest;
    assert e == EncodeChar(c);
    assert s[0] == '%' && s[1] == HexDigit(bs[0] / 16) && s[2] == HexDigit(bs[0] % 16);
    HexPair(bs[0]);
    var k := Utf8Length(HexValue(s[1]) * 16 + HexValue(s[2]));
    assert k == |bs|;
    assert s[..3 * k] == e;
    PercentRoundTrip(bs);
    assert Utf8Value(bs) == c as int;
    assert s[3 * k..] == rest;
  }

  /** Each character's encoding is read back as that character, whatever follows it. */
  lemma DecodeEncodeChar(c: char, rest: string)
    ensures Decode(EncodeChar(c) + rest) == Prepend(c, Decode(rest))
  {
    if Unescaped(c) {
      assert ([c] + rest)[1..] == rest;
    } else if c == ' ' {
      assert ("+" + rest)[1..] == rest;
    } else {
      DecodeEscape(c, rest);
    }
  }

  /** The encoding loses nothing: decoding gives back the original text. */
  lemma {:induction false} DecodeEncode(s: string)
    ensures Decode(Encode(s)) == Some(s)
    decreases |s|
  {
    if |s| > 0 {
      DecodeEncode(s[1..]);
      DecodeEncodeChar(s[0], Encode(s[1..]));
      assert s == [s[0]] + s[1..];
    }
  }

  /** One serialized parameter. */
  function Pair(p: Param): string {
    Encode(p.key) + "=" + Encode(p.value)
  }

  function Pairs(ps: seq<Param>): (r: seq<string>)
    ensures |r| == |ps|
    ensures forall i :: 0 <= i < |ps| ==> r[i] == Pair(ps[i])
    decreases |ps|
  {
    if |ps| == 0 then [] else [Pair(ps[0])] + Pairs(ps[1..])
  }

  /** `URLSearchParams.prototype.toString`: `key=value` pairs joined by `&`. */
  function Serialize(ps: seq<Param>): (r: string)
    ensures r == "" <==> ps == []
    decreases |ps|
  {
    if |ps| == 0 then ""
    else
      var pair := Encode(ps[0].key) + "=" + Encode(ps[0].value);
      assert pair[|Encode(ps[0].key)|] == '=';
      if |ps| == 1 then pair else pair + "&" + Serialize(ps[1..])
  }

  lemma {:induction false} SerializeJoins(ps: seq<Param>)
    ensures Serialize(ps) == Join(Pairs(ps), "&")
    decreases |ps|
  {
    if |ps| > 1 {
      SerializeJoins(ps[1..]);
      assert Pairs(ps)[1..] == Pairs(ps[1..]);
    }
  }

  /** Neither delimiter occurs in an encoded string. */
  lemma EncodeNoDelimiters(s: string)
    ensures '&' !in Encode(s) && '=' !in Encode(s)
  {
  }

  /** A serialized parameter holds no `&`, and its first `=` ends the encoded key. */
  lemma PairShape(p: Param)
    ensures '&' !in Pair(p)
    ensures CharIndex(Pair(p), '=') == Some(|Encode(p.key)|)
  {
    var k := Encode(p.key);
    var v := Encode(p.value);
    EncodeNoDelimiters(p.key);
    EncodeNoDelimiters(p.value);
    assert Pair(p) == k + ['='] + v;
    CharIndexAfterPrefix(k, '=', v);
  }

  /** Neither delimiter occurs in an encoded key or value, so the serialized parameters
      split at `&` into one piece per parameter, in order, and each piece's first `=` ends
      its encoded key. */
  lemma SerializeSplits(ps: seq<Param>)
    requires |ps| >= 1
    ensures Split(Serialize(ps), '&') == Pairs(ps)
    ensures forall i :: 0 <= i < |ps| ==> CharIndex(Pairs(ps)[i], '=') == Some(|Encode(ps[i].key)|)
  {
    SerializeJoins(ps);
    var pairs := Pairs(ps);
    forall i | 0 <= i < |pairs|
      ensures '&' !in pairs[i]
      ensures CharIndex(pairs[i], '=') == Some(|Encode(ps[i].key)|)
    {
      PairShape(ps[i]);
    }
    assert "&" == ['&'];
    SplitJoin(pairs, '&');
  }

  /** One `name=value` piece as the urlencoded parser reads it: split at its first `=`, or
      the whole piece as the name with an empty value when there is none. */
  function ParsePiece(piece: string): Option<Param> {
    match CharIndex(piece, '=')
    case None =>
      (match Decode(piece)
       case None => None
       case Some(k) => Some(Param(k, "")))
    case Some(i) =>
      match (Decode(piece[..i]), Decode(piece[i + 1..]))
      case (Some(k), Some(v)) => Some(Param(k, v))
      case _ => None
  }

  /** The pieces of a query in order, skipping empty ones. */
  function ParsePieces(pieces: seq<string>): Option<seq<Param>>
    decreases |pieces|
  {
    if |pieces| == 0 then Some([])
    else
      match ParsePieces(pieces[1..])
      case None => None
      case Some(rest) =>
        if pieces[0] == "" then Some(rest)
        else
          match ParsePiece(pieces[0])
          case None => None
          case Some(p) => Some([p] + rest)
  }

  /** The urlencoded parser: the string split at `&`, each piece read as a parameter. */
  function ParseQuery(s: string): Option<seq<Param>> {
    ParsePieces(Split(s, '&'))
  }

  /** A serialized parameter is non-empty and reads back as that parameter. */
  lemma ParsePair(p: Param)
    ensures Pair(p) != "" && ParsePiece(Pair(p)) == Some(p)
  {
    PairShape(p);
    var k := Encode(p.key);
    assert Pair(p)[..|k|] == k;
    assert Pair(p)[|k| + 1..] == Encode(p.value);
    DecodeEncode(p.key);
    DecodeEncode(p.value);
  }

  lemma {:induction false} ParsePairs(ps: seq<Param>)
    ensures ParsePieces(Pairs(ps)) == Some(ps)
    decreases |ps|
  {
    if |ps| > 0 {
      ParsePairs(ps[1..]);
      ParsePair(ps[0]);
      assert Pairs(ps)[1..] == Pairs(ps[1..]);
      assert ps == [ps[0]] + ps[1..];
    }
  }

  /** The serialized query loses nothing: parsing it gives back every parameter, its name
      and its value, in order. */
  lemma ParseSerialize(ps: seq<Param>)
    ensures ParseQuery(Serialize(ps)) == Some(ps)
  {
    if |ps| == 0 {
      assert Split("", '&') == [""];
    } else {
      SerializeSplits(ps);
      ParsePairs(ps);
    }
  }

  /** The query string: `?` and the parameters, or nothing when there are none. */
  function QueryString(ps: seq<Param>): (r: string)
    ensures r == "" <==> ps == []
    ensures r != "" ==> r[0] == '?' && r[1..] == Serialize(ps)
  {
    var body := Serialize(ps);
    if body != "" then "?" + body else ""
  }

  const AttendeesEndpoint := "/events/attendees/all"

  /** The URL `fetchAttendees` requests. */
  function AttendeesUrl(baseUrl: string, table: seq<Kecamatan>, f: Filters): (r: string)
    ensures QueryParams(table, f) == [] ==> r == Api.ApiUrl(baseUrl, AttendeesEndpoint)
    ensures QueryParams(table, f) != [] ==>
      r == Api.ApiUrl(baseUrl, AttendeesEndpoint + "?" + Serialize(QueryParams(table, f)))
  {
    var ps := QueryParams(table, f);
    if ps == [] then
      assert AttendeesEndpoint + QueryString(ps) == AttendeesEndpoint;
      Api.ApiUrl(baseUrl, AttendeesEndpoint)
    else
      var body := Serialize(ps);
      assert QueryString(ps) == "?" + body;
      assert AttendeesEndpoint + ("?" + body) == AttendeesEndpoint + "?" + body;
      Api.ApiUrl(baseUrl, AttendeesEndpoint + QueryString(ps))
  }

  // ---------------------------------------------------------------- fetch result

  /** An attendee as the backend returns it; every field may be missing. */
  datatype AttendeeRecord = AttendeeRecord(
    name: Option<string>, nik: Option<string>, alamat: Option<string>,
    jenisKelamin: Option<string>, pekerjaan: Option<string>, usia: Option<int>)

  /** How the request ended: a successful response with its body, a non-ok response, or a
      thrown exception. */
  datatype FetchOutcome = Loaded(data: seq<AttendeeRecord>) | Rejected | Threw

  datatype Page = Page(attendees: seq<AttendeeRecord>, loading: bool, filters: Filters)

  const InitialPage := Page([], true, NoFilters)

  const LoadFailed := "Gagal memuat data peserta"
  const ConnectionFailed := "Kesalahan koneksi"

  /** The end of `fetchAttendees`: only a successful response replaces the list, loading
      always ends, and a failure shows its notice. */
  function ApplyFetch(p: Page, outcome: FetchOutcome): (r: (Page, Option<string>))
    ensures !r.0.loading && r.0.filters == p.filters
    ensures outcome.Loaded? <==> r.1.None?
    ensures r.0.attendees == (if outcome.Loaded? then outcome.data else p.attendees)
    ensures outcome == Rejected ==> r.1 == Some(LoadFailed)
    ensures outcome == Threw ==> r.1 == Some(ConnectionFailed)
  {
    match outcome
    case Loaded(data) => (p.(attendees := data, loading := false), None)
    case Rejected => (p.(loading := false), Some(LoadFailed))
    case Threw => (p.(loading := false), Some(ConnectionFailed))
  }

  // ---------------------------------------------------------------- CSV

  const CsvHeader: seq<string> := ["Nama", "NIK", "Alamat", "Jenis Kelamin", "Pekerjaan", "Usia", "Generasi"]

  function Quoted(s: string): (r: string)
    ensures |r| == |s| + 2 && r[0] == '"' && r[|r| - 1] == '"' && r[1..|r| - 1] == s
  {
    "\"" + s + "\""
  }

  function GenderLabel(g: Option<string>): (r: string)
    ensures r == "Laki-laki" <==> g == Some("L")
    ensures r == "Perempuan" <==> g == Some("P")
    ensures r == "" <==> g != Some("L") && g != Some("P")
  {
    if g == Some("L") then "Laki-laki" else if g == Some("P") then "Perempuan" else ""
  }

  /** An age that is present and not 0 (JavaScript truthiness of a number). */
  predicate HasAge(usia: Option<int>) {
    usia.Some? && usia.value != 0
  }

  /** The seven CSV fields of one attendee. Missing text fields become empty, and an age
      of 0 or none leaves both the age and the generation empty. */
  function CsvRow(a: AttendeeRecord): (r: seq<string>)
    ensures |r| == |CsvHeader|
    ensures r[0] == Quoted(a.name.GetOr("")) && r[1] == a.nik.GetOr("")
    ensures r[2] == Quoted(a.alamat.GetOr("")) && r[4] == Quoted(a.pekerjaan.GetOr(""))
    ensures r[3] == GenderLabel(a.jenisKelamin)
    ensures r[5] == "" <==> !HasAge(a.usia)
    ensures r[6] == "" <==> !HasAge(a.usia)
    ensures HasAge(a.usia) ==> r[5] == IntToString(a.usia.value)
    ensures HasAge(a.usia) ==> r[6] == GenerationLabel(GenerationCategory(a.usia.value as real))
  {
    var usia := if HasAge(a.usia) then IntToString(a.usia.value) else "";
    var generation := if HasAge(a.usia) then GenerationLabel(GenerationCategory(a.usia.value as real)) else "";
    [Quoted(a.name.GetOr("")), a.nik.GetOr(""), Quoted(a.alamat.GetOr("")),
     GenderLabel(a.jenisKelamin), Quoted(a.pekerjaan.GetOr("")), usia, generation]
  }

  function CsvLine(fields: seq<string>): string {
    Join(fields, ",")
  }

  /** The lines of the file: the header, then one line per attendee in input order. */
  function CsvLines(list: seq<AttendeeRecord>): (r: seq<string>)
    ensures |r| == |list| + 1
    ensures r[0] == CsvLine(CsvHeader)
    ensures forall i :: 0 <= i < |list| ==> r[i + 1] == RowLine(list[i])
  {
    var rest := RowLines(list);
    var r := [CsvLine(CsvHeader)] + rest;
    assert forall i :: 0 <= i < |list| ==> r[i + 1] == rest[i];
    r
  }

  function RowLine(a: AttendeeRecord): string {
    CsvLine(CsvRow(a))
  }

  function RowLines(list: seq<AttendeeRecord>): (r: seq<string>)
    ensures |r| == |list|
    ensures forall i :: 0 <= i < |list| ==> r[i] == RowLine(list[i])
    decreases |list|
  {
    if |list| == 0 then [] else [RowLine(list[0])] + RowLines(list[1..])
  }

  function CsvContent(list: seq<AttendeeRecord>): string {
    Join(CsvLines(list), "\n")
  }

  /** No text field of the attendee contains a line break. */
  predicate SingleLine(a: AttendeeRecord) {
    '\n' !in a.name.GetOr("") && '\n' !in a.nik.GetOr("") && '\n' !in a.alamat.GetOr("") &&
    '\n' !in a.pekerjaan.GetOr("")
  }

  lemma IntToStringSingleLine(n: int)
    ensures '\n' !in IntToString(n)
  {
    var s := IntToString(n);
    var d := NatToString(if n < 0 then -n else n);
    assert forall i :: 0 <= i < |d| ==> d[i] != '\n';
    assert s == d || s == "-" + d;
  }

  lemma CsvRowSingleLine(a: AttendeeRecord)
    requires SingleLine(a)
    ensures '\n' !in CsvLine(CsvRow(a))
  {
    var r := CsvRow(a);
    if HasAge(a.usia) {
      IntToStringSingleLine(a.usia.value);
      var g := GenerationCategory(a.usia.value as real);
      assert '\n' !in GenerationLabel(g) by {
        match g
        case GenZ =>
        case Millennial =>
        case GenX =>
        case Boomer =>
        case Silent =>
        case Unknown =>
      }
    }
    assert forall i :: 0 <= i < |r| ==> '\n' !in r[i];
    JoinExcludes(r, ",", '\n');
  }

  /** The header line holds no line break. */
  lemma HeaderSingleLine()
    ensures '\n' !in CsvLine(CsvHeader)
  {
    JoinExcludes(CsvHeader, ",", '\n');
  }

  /** When no field holds a line break, no line of the file does. */
  lemma LinesSingleLine(list: seq<AttendeeRecord>)
    requires forall i :: 0 <= i < |list| ==> SingleLine(list[i])
    ensures forall i :: 0 <= i < |CsvLines(list)| ==> '\n' !in CsvLines(list)[i]
  {
    var lines := CsvLines(list);
    HeaderSingleLine();
    forall i | 1 <= i < |lines|
      ensures '\n' !in lines[i]
    {
      CsvRowSingleLine(list[i - 1]);
    }
  }

  /** When no field holds a line break, the file splits back into the header line and one
      line per attendee, in order. */
  lemma CsvContentLines(list: seq<AttendeeRecord>)
    requires forall i :: 0 <= i < |list| ==> SingleLine(list[i])
    ensures Split(CsvContent(list), '\n') == CsvLines(list)
    ensures |Split(CsvContent(list), '\n')| == |list| + 1
  {
    var lines := CsvLines(list);
    LinesSingleLine(list);
    assert "\n" == ['\n'];
    assert CsvContent(list) == Join(lines, ['\n']);
    SplitJoin(lines, '\n');
  }

  // ---------------------------------------------------------------- export

  /** The file-name part naming the filter: the kecamatan when selected, else the dapil,
      else nothing. */
  function FilterLabel(f: Filters): (r: string)
    ensures r == "" <==> f.kecamatan == "" && f.dapil == ""
    ensures r != "" ==> r[0] == '_' && r[1..] == (if f.kecamatan != "" then f.kecamatan else f.dapil)
  {
    if f.kecamatan != "" then "_" + f.kecamatan
    else if f.dapil != "" then "_" + f.dapil
    else ""
  }

  const FilePrefix := "peserta_kegiatan"
  const NothingToExport := "Tidak ada data untuk diekspor"

  /** `peserta_kegiatan<label>_<date>.csv`, with `today` the first ten characters of the ISO
      time stamp. */
  function FileName(f: Filters, today: string): (r: string)
    ensures |r| == |FilePrefix| + |FilterLabel(f)| + 1 + |today| + 4
    ensures r[..|FilePrefix|] == FilePrefix && r[|r| - 4..] == ".csv"
    ensures r[|FilePrefix|..|FilePrefix| + |FilterLabel(f)|] == FilterLabel(f)
    ensures r[|FilePrefix| + |FilterLabel(f)|] == '_'
    ensures r[|FilePrefix| + |FilterLabel(f)| + 1..|r| - 4] == today
  {
    var tag := FilterLabel(f);
    var n := |FilePrefix| + |tag|;
    var r := FilePrefix + tag + "_" + today + ".csv";
    assert r[..|FilePrefix|] == FilePrefix;
    assert r[|FilePrefix|..n] == tag;
    assert r[n + 1..|r| - 4] == today;
    r
  }

  /** On the same day, two exports share a file name exactly when their filters give the
      same label, and the date can be read back from the name. */
  lemma FileNameDistinguishesFilters(f: Filters, g: Filters, today: string)
    ensures FileName(f, today) == FileName(g, today) <==> FilterLabel(f) == FilterLabel(g)
    ensures |today| == 10 ==>
      FileName(f, today)[|FileName(f, today)| - 14..|FileName(f, today)| - 4] == today
  {
    var a := FileName(f, today);
    var b := FileName(g, today);
    if a == b {
      assert |FilterLabel(f)| == |FilterLabel(g)|;
      assert FilterLabel(f) == a[|FilePrefix|..|FilePrefix| + |FilterLabel(f)|];
    }
  }

  datatype Export = Refused(message: string) | Exported(content: string, fileName: string, message: string)

  /** `handleExport`: an empty list is refused; otherwise the whole list is written. */
  function HandleExport(p: Page, today: string): (r: Export)
    ensures r.Refused? <==> p.attendees == []
    ensures r.Refused? ==> r.message == NothingToExport
    ensures r.Exported? ==>
      (r.content == CsvContent(p.attendees) && r.fileName == FileName(p.filters, today) &&
       r.message == IntToString(|p.attendees|) + " data berhasil diekspor ke CSV")
  {
    if |p.attendees| == 0 then Refused(NothingToExport)
    else Exported(CsvContent(p.attendees), FileName(p.filters, today),
                  IntToString(|p.attendees|) + " data berhasil diekspor ke CSV")
  }
}

=== FILE: map_analytics.dfy ===
/** The heat map: each kecamatan reported by the analytics endpoint becomes a coloured dot
    whose colour bands its intensity against the largest one. The map coordinates
    themselves are not modelled, only which names have them. */
module MapAnalytics {
  import opened Wrappers
  import opened Text

  /** The four heat colours, and the blue used when there is no data. */
  datatype Color = Blue | Green | Yellow | Orange | Red

  function Hex(c: Color): string {
    match c
    case Blue => "#3b82f6"
    case Green => "#10b981"
    case Yellow => "#eab308"
    case Orange => "#f97316"
    case Red => "#ef4444"
  }

  /** Position of a heat colour in the order low to high. */
  function Level(c: Color): nat {
    match c
    case Blue => 0
    case Green => 1
    case Yellow => 2
    case Orange => 3
    case Red => 4
  }

  /** `getColor`: blue when the maximum is 0; otherwise the quarter of the maximum the value
      falls in, each boundary belonging to the band above it. */
  function GetColor(value: real, max: real): (r: Color)
    ensures r == Blue <==> max == 0.0
    ensures max != 0.0 ==> (r == Green <==> value / max < 0.25)
    ensures max != 0.0 ==> (r == Yellow <==> 0.25 <= value / max < 0.5)
    ensures max != 0.0 ==> (r == Orange <==> 0.5 <= value / max < 0.75)
    ensures max != 0.0 ==> (r == Red <==> 0.75 <= value / max)
  {
    if max == 0.0 then Blue
    else
      var ratio := value / max;
      if ratio < 0.25 then Green
      else if ratio < 0.5 then Yellow
      else if ratio < 0.75 then Orange
      else Red
  }

  /** For a fixed positive maximum a larger value never gets a lower colour. */
  lemma GetColorMonotone(v: real, w: real, max: real)
    requires max > 0.0 && v <= w
    ensures Level(GetColor(v, max)) <= Level(GetColor(w, max))
  {
    assert v / max <= w / max;
  }

  /** The exact quarter boundaries fall into the upper band. */
  lemma GetColorBoundaries(max: real)
    requires max > 0.0
    ensures GetColor(0.25 * max, max) == Yellow
    ensures GetColor(0.5 * max, max) == Orange
    ensures GetColor(0.75 * max, max) == Red
    ensures GetColor(max, max) == Red
    ensures GetColor(0.0, max) == Green
  {
    assert 0.25 * max / max == 0.25;
    assert 0.5 * max / max == 0.5;
    assert 0.75 * max / max == 0.75;
  }

  // ---------------------------------------------------------------- heat-map items

  /** An item of the heat-map response; both fields may be missing. */
  datatype HeatItem = HeatItem(kecamatan: Option<string>, intensity: Option<real>)

  /** `item.intensity || 0`. */
  function Intensity(item: HeatItem): real {
    item.intensity.GetOr(0.0)
  }

  /** `Math.max(...intensities, 1)`. */
  function MaxIntensity(items: seq<HeatItem>): (r: real)
    ensures r >= 1.0
    ensures forall i :: 0 <= i < |items| ==> Intensity(items[i]) <= r
    ensures r == 1.0 || exists i :: 0 <= i < |items| && Intensity(items[i]) == r
    decreases |items|
  {
    if |items| == 0 then 1.0
    else
      var rest := MaxIntensity(items[1..]);
      assert forall i :: 1 <= i < |items| ==> items[i] == items[1..][i - 1];
      if Intensity(items[0]) > rest then Intensity(items[0]) else rest
  }

  // ---------------------------------------------------------------- kecamatan keys

  /** The names the map has coordinates for, two of them also spelled with a space. */
  const CoordinateKeys: set<string> := {
    "ARJASARI", "BALEENDAH", "BANJARAN", "BOJONGSOANG", "CIPARAY", "CANGKUANG", "CICALENGKA",
    "CIKANCUNG", "CILENGKRANG", "CILEUNYI", "CIMAUNG", "CIMENYAN", "CIWIDEY", "DAYEUHKOLOT",
    "IBUN", "KERTASARI", "KATAPANG", "KUTAWARINGIN", "MAJALAYA", "MARGAASIH", "MARGAHAYU",
    "NAGREG", "PACET", "PAMEUNGPEUK", "PANGALENGAN", "PASEH", "PASIR JAMBU", "PASIRJAMBU",
    "RANCABALI", "RANCAEKEK", "SOLOKAN JERUK", "SOLOKANJERUK", "SOREANG"
  }

  /** The map has coordinates for `key`. */
  predicate HasCoordinates(key: string) {
    key in CoordinateKeys
  }

  /** The reported name as a coordinate key: upper-cased, the first "KEC. " and then the
      first "KEC " removed, and trimmed. */
  function NormalizeKey(raw: Option<string>): (r: string)
    ensures NoLowerCase(r)
    ensures |r| > 0 ==> !IsWhiteSpace(r[0]) && !IsWhiteSpace(r[|r| - 1])
    ensures |r| <= |raw.GetOr("")|
  {
    var upper := Upper(raw.GetOr(""));
    CaseMappingResults(raw.GetOr(""));
    var once := ReplaceFirst(upper, "KEC. ", "");
    RemovalKeepsCase(upper, "KEC. ");
    var twice := ReplaceFirst(once, "KEC ", "");
    RemovalKeepsCase(once, "KEC ");
    TrimKeepsCase(twice);
    Trim(twice)
  }

  /** Where "KEC" does not occur, neither prefix does. */
  lemma PrefixAbsent(s: string, k: int)
    requires !OccursAt(s, "KEC", k)
    ensures !OccursAt(s, "KEC. ", k) && !OccursAt(s, "KEC ", k)
  {
    if 0 <= k && k + 5 <= |s| {
      assert s[k..k + 3] == s[k..k + 5][..3];
    }
    if 0 <= k && k + 4 <= |s| {
      assert s[k..k + 3] == s[k..k + 4][..3];
    }
  }

  /** Removing either prefix from a string without "KEC" changes nothing. */
  lemma NoPrefixes(s: string)
    requires !Includes(s, "KEC")
    ensures ReplaceFirst(s, "KEC. ", "") == s && ReplaceFirst(s, "KEC ", "") == s
  {
    forall k | 0 <= k
      ensures !OccursAt(s, "KEC. ", k) && !OccursAt(s, "KEC ", k)
    {
      NotAt(s, k);
      PrefixAbsent(s, k);
    }
  }

  /** A name without "KEC" in its upper-cased form is only upper-cased and trimmed. */
  lemma NormalizeWithoutPrefix(raw: Option<string>)
    requires !Includes(Upper(raw.GetOr("")), "KEC")
    ensures NormalizeKey(raw) == Trim(Upper(raw.GetOr("")))
  {
    NoPrefixes(Upper(raw.GetOr("")));
  }

  /** A name in key form: no lower-case letter, no "KEC", no white space at either end. */
  predicate KeyForm(name: string) {
    NoLowerCase(name) && !Includes(name, "KEC") &&
    (|name| > 0 ==> !IsWhiteSpace(name[0]) && !IsWhiteSpace(name[|name| - 1]))
  }

  /** "KEC" does not occur at `k` of a string that does not include it. */
  lemma NotAt(s: string, k: int)
    requires !Includes(s, "KEC")
    ensures !OccursAt(s, "KEC", k)
  {
  }

  /** A name in key form is its own key. */
  lemma NormalizeFixed(name: string)
    requires KeyForm(name)
    ensures NormalizeKey(Some(name)) == name
  {
    UpperUnchanged(name);
    NormalizeWithoutPrefix(Some(name));
    TrimUnchanged(name);
  }

  /** A name in key form reported behind "Kec. ", in any letter case, is found under that
      name. */
  lemma NormalizeDropsPrefix(prefix: string, name: string)
    requires Upper(prefix) == "KEC. " && KeyForm(name)
    ensures NormalizeKey(Some(prefix + name)) == name
  {
    UpperAppend(prefix, name);
    UpperUnchanged(name);
    var u := Upper(prefix + name);
    assert u == "KEC. " + name;
    assert OccursAt(u, "KEC. ", 0) by {
      assert u[0..5] == "KEC. ";
    }
    assert FirstOccurrence(u, "KEC. ", 0);
    assert u[..0] + "" + u[5..] == name;
    NoPrefixes(name);
    TrimUnchanged(name);
  }

  /** "KEC. " does not occur in "KEC " followed by a name in key form. */
  lemma NoDotAt(name: string, k: int)
    requires KeyForm(name)
    ensures !OccursAt("KEC " + name, "KEC. ", k)
  {
    var u := "KEC " + name;
    if 4 <= k && k + 5 <= |u| {
      NotAt(name, k - 4);
      assert name[k - 4..k - 1] == u[k..k + 3];
      assert u[k..k + 3] == u[k..k + 5][..3];
    } else if 0 <= k < 4 && k + 5 <= |u| {
      assert u[k] == u[k..k + 5][0] && u[k + 3] == u[k..k + 5][3];
    }
  }

  /** A name in key form reported behind "Kec " (no dot), in any letter case, is found under
      that name. */
  lemma NormalizeDropsShortPrefix(prefix: string, name: string)
    requires Upper(prefix) == "KEC " && KeyForm(name)
    ensures NormalizeKey(Some(prefix + name)) == name
  {
    UpperAppend(prefix, name);
    UpperUnchanged(name);
    var u := Upper(prefix + name);
    assert u == "KEC " + name;
    forall k | 0 <= k
      ensures !OccursAt(u, "KEC. ", k)
    {
      NoDotAt(name, k);
    }
    assert ReplaceFirst(u, "KEC. ", "") == u;
    assert OccursAt(u, "KEC ", 0) by {
      assert u[0..4] == "KEC ";
    }
    assert FirstOccurrence(u, "KEC ", 0);
    assert u[..0] + "" + u[4..] == name;
    TrimUnchanged(name);
  }

  /** A name reported as "Kec. Cileunyi " is found under "CILEUNYI". */
  lemma NormalizeExample()
    ensures NormalizeKey(Some("Kec. Cileunyi ")) == "CILEUNYI"
  {
    UpperStage();
    DropPrefixStage();
    KeepStage();
    TrimStage();
  }

  lemma UpperStage()
    ensures Upper("Kec. Cileunyi ") == "KEC. CILEUNYI "
  {
  }

  lemma DropPrefixStage()
    ensures ReplaceFirst("KEC. CILEUNYI ", "KEC. ", "") == "CILEUNYI "
  {
    assert FirstOccurrence("KEC. CILEUNYI ", "KEC. ", 0);
  }

  lemma KeepStage()
    ensures ReplaceFirst("CILEUNYI ", "KEC ", "") == "CILEUNYI "
  {
    AbsentFirstChar("CILEUNYI ", "KEC ");
  }

  lemma TrimStage()
    ensures Trim("CILEUNYI ") == "CILEUNYI"
  {
    assert LeadingSpace("CILEUNYI ") == 0;
    assert TrailingSpace("CILEUNYI ") == 1;
  }

  /** A dot on the map: the item it stands for, its key and its colour. */
  datatype Marker = Marker(index: nat, key: string, color: Color)

  /** `m` is the dot of item `m.index`, whose key `keys[m.index]` is a known one, coloured
      against `max`. */
  predicate MarkerFor(items: seq<HeatItem>, keys: seq<string>, known: set<string>, max: real, m: Marker) {
    m.index < |items| && m.index < |keys| && m.key == keys[m.index] &&
    m.key in known && m.color == GetColor(Intensity(items[m.index]), max)
  }

  /** Some dot stands for item `i`. */
  predicate Drawn(ms: seq<Marker>, i: nat) {
    exists j :: 0 <= j < |ms| && ms[j].index == i
  }

  /** The coordinate key of every item. */
  function Keys(items: seq<HeatItem>): (r: seq<string>)
    ensures |r| == |items|
    ensures forall i :: 0 <= i < |items| ==> r[i] == NormalizeKey(items[i].kecamatan)
  {
    seq(|items|, i requires 0 <= i < |items| => NormalizeKey(items[i].kecamatan))
  }

  /** `r` holds, in item order, exactly one dot for each item from `from` on whose key is
      known. */
  predicate MarkersOf(items: seq<HeatItem>, keys: seq<string>, known: set<string>, max: real,
                      from: nat, r: seq<Marker>)
    requires |keys| == |items|
  {
    (forall j :: 0 <= j < |r| ==> MarkerFor(items, keys, known, max, r[j]) && from <= r[j].index) &&
    (forall j, k :: 0 <= j < k < |r| ==> r[j].index < r[k].index) &&
    (forall i :: from <= i < |items| && keys[i] in known ==> Drawn(r, i))
  }

  lemma ConsMarker(items: seq<HeatItem>, keys: seq<string>, known: set<string>, max: real,
                   from: nat, rest: seq<Marker>)
    requires |keys| == |items| && from < |items| && keys[from] in known
    requires MarkersOf(items, keys, known, max, from + 1, rest)
    ensures MarkersOf(items, keys, known, max, from,
      [Marker(from, keys[from], GetColor(Intensity(items[from]), max))] + rest)
  {
    var m := Marker(from, keys[from], GetColor(Intensity(items[from]), max));
    var r := [m] + rest;
    assert forall j :: 1 <= j < |r| ==> r[j] == rest[j - 1];
    forall i | from < i < |items| && keys[i] in known
      ensures Drawn(r, i)
    {
      var j :| 0 <= j < |rest| && rest[j].index == i;
      assert r[j + 1] == rest[j];
    }
    assert r[0] == m;
  }

  lemma SkipItem(items: seq<HeatItem>, keys: seq<string>, known: set<string>, max: real,
                 from: nat, rest: seq<Marker>)
    requires |keys| == |items| && from < |items| && keys[from] !in known
    requires MarkersOf(items, keys, known, max, from + 1, rest)
    ensures MarkersOf(items, keys, known, max, from, rest)
  {
  }

  function MarkersFrom(items: seq<HeatItem>, keys: seq<string>, known: set<string>, max: real,
                       from: nat): (r: seq<Marker>)
    requires |keys| == |items| && from <= |items|
    ensures MarkersOf(items, keys, known, max, from, r)
    decreases |items| - from
  {
    if from == |items| then []
    else
      var rest := MarkersFrom(items, keys, known, max, from + 1);
      if keys[from] in known then
        ConsMarker(items, keys, known, max, from, rest);
        [Marker(from, keys[from], GetColor(Intensity(items[from]), max))] + rest
      else
        SkipItem(items, keys, known, max, from, rest);
        rest
  }

  /** The dots drawn: one per item whose key has coordinates, in response order, coloured
      against the largest intensity. None is ever the no-data blue. */
  function Markers(items: seq<HeatItem>): (r: seq<Marker>)
    ensures forall j :: 0 <= j < |r| ==> MarkerFor(items, Keys(items), CoordinateKeys, MaxIntensity(items), r[j])
    ensures forall j :: 0 <= j < |r| ==> r[j].color != Blue
    ensures forall j, k :: 0 <= j < k < |r| ==> r[j].index < r[k].index
    ensures forall i :: 0 <= i < |items| ==>
      (HasCoordinates(NormalizeKey(items[i].kecamatan)) <==> Drawn(r, i))
  {
    var keys := Keys(items);
    var r := MarkersFrom(items, keys, CoordinateKeys, MaxIntensity(items), 0);
    assert forall i :: 0 <= i < |items| && Drawn(r, i) ==> keys[i] in CoordinateKeys by {
      forall i | 0 <= i < |items| && Drawn(r, i)
        ensures keys[i] in CoordinateKeys
      {
        var j :| 0 <= j < |r| && r[j].index == i;
        assert MarkerFor(items, keys, CoordinateKeys, MaxIntensity(items), r[j]);
      }
    }
    r
  }

  /** Both spellings of the two compound names find the same place. */
  lemma AliasesListed()
    ensures "PASIR JAMBU" in CoordinateKeys && "PASIRJAMBU" in CoordinateKeys
    ensures "SOLOKAN JERUK" in CoordinateKeys && "SOLOKANJERUK" in CoordinateKeys
  {
  }
}

=== FILE: seqs.dfy ===
/** Sequence helpers shared by the table lookups and list updates: `Array.prototype.filter`
    and what it promises (membership, order, length), and sums of integer fields. */
module Seqs {

  /** `a` can be obtained from `b` by deleting elements, keeping the order of the rest.
      Greedy matching from the front decides this exactly. */
  ghost predicate IsSubsequence<T>(a: seq<T>, b: seq<T>)
    decreases |b|
  {
    if |a| == 0 then true
    else if |b| == 0 then false
    else if a[0] == b[0] then IsSubsequence(a[1..], b[1..])
    else IsSubsequence(a, b[1..])
  }

  /** `Array.prototype.filter`: keeps the elements satisfying `p`, in their original order,
      each as many times as it occurs. */
  function Filter<T>(p: T -> bool, s: seq<T>): (r: seq<T>)
    ensures |r| <= |s|
    ensures forall i :: 0 <= i < |r| ==> p(r[i])
    ensures forall i :: 0 <= i < |r| ==> r[i] in s
    ensures forall i :: 0 <= i < |s| && p(s[i]) ==> s[i] in r
    ensures IsSubsequence(r, s)
    ensures |r| == CountWhere(p, s)
    decreases |s|
  {
    if |s| == 0 then []
    else if p(s[0]) then [s[0]] + Filter(p, s[1..])
    else Filter(p, s[1..])
  }

  /** Number of positions of `s` whose element satisfies `p`. Together with `IsSubsequence`
      and every kept element satisfying `p`, a length equal to this count means every such
      position is kept, each exactly once. */
  function CountWhere<T>(p: T -> bool, s: seq<T>): nat
    decreases |s|
  {
    if |s| == 0 then 0 else (if p(s[0]) then 1 else 0) + CountWhere(p, s[1..])
  }

  /** Filtering with a predicate that every element satisfies returns the whole sequence. */
  lemma {:induction false} FilterKeepsAll<T>(p: T -> bool, s: seq<T>)
    requires forall i :: 0 <= i < |s| ==> p(s[i])
    ensures Filter(p, s) == s
    decreases |s|
  {
    if |s| > 0 {
      FilterKeepsAll(p, s[1..]);
    }
  }

  /** Filtering with a predicate no element satisfies returns the empty sequence. */
  lemma {:induction false} FilterDropsAll<T>(p: T -> bool, s: seq<T>)
    requires forall i :: 0 <= i < |s| ==> !p(s[i])
    ensures Filter(p, s) == []
    decreases |s|
  {
    if |s| > 0 {
      FilterDropsAll(p, s[1..]);
    }
  }

  /** Filtering a concatenation filters each part. */
  lemma {:induction false} FilterAppend<T>(p: T -> bool, a: seq<T>, b: seq<T>)
    ensures Filter(p, a + b) == Filter(p, a) + Filter(p, b)
    decreases |a|
  {
    if |a| == 0 {
      assert a + b == b;
    } else {
      assert (a + b)[1..] == a[1..] + b;
      FilterAppend(p, a[1..], b);
    }
  }

  /** Two predicates that agree on every element filter alike. */
  lemma {:induction false} FilterCongruent<T>(p: T -> bool, q: T -> bool, s: seq<T>)
    requires forall i :: 0 <= i < |s| ==> p(s[i]) == q(s[i])
    ensures Filter(p, s) == Filter(q, s)
    decreases |s|
  {
    if |s| > 0 {
      FilterCongruent(p, q, s[1..]);
    }
  }

  /** Number of positions of `s` holding `x`. */
  function Count<T(==)>(x: T, s: seq<T>): nat
    decreases |s|
  {
    if |s| == 0 then 0 else (if s[0] == x then 1 else 0) + Count(x, s[1..])
  }

  /** The elements of `s` are pairwise distinct. */
  predicate Distinct<T(==)>(s: seq<T>) {
    forall i, j :: 0 <= i < j < |s| ==> s[i] != s[j]
  }

  /** In a duplicate-free sequence every member occurs exactly once. */
  lemma {:induction false} DistinctCount<T>(x: T, s: seq<T>)
    requires Distinct(s)
    ensures Count(x, s) == (if x in s then 1 else 0)
    decreases |s|
  {
    if |s| > 0 {
      assert Distinct(s[1..]);
      DistinctCount(x, s[1..]);
      if s[0] == x {
        assert x !in s[1..] by {
          forall k | 0 <= k < |s[1..]|
            ensures s[1..][k] != x
          {
            assert s[1..][k] == s[k + 1];
          }
        }
      } else {
        assert (x in s) == (x in s[1..]) by {
          assert s == [s[0]] + s[1..];
        }
      }
    }
  }

  /** No two elements of `s` share a key. */
  predicate UniqueKeys<T, K(==)>(key: T -> K, s: seq<T>) {
    forall i, j :: 0 <= i < j < |s| ==> key(s[i]) != key(s[j])
  }

  /** Filtering never introduces a shared key. */
  lemma {:induction false} FilterKeepsUniqueKeys<T, K>(key: T -> K, p: T -> bool, s: seq<T>)
    requires UniqueKeys(key, s)
    ensures UniqueKeys(key, Filter(p, s))
    decreases |s|
  {
    if |s| > 0 {
      var rest := Filter(p, s[1..]);
      assert UniqueKeys(key, s[1..]);
      FilterKeepsUniqueKeys(key, p, s[1..]);
      if p(s[0]) {
        var r := [s[0]] + rest;
        forall j | 0 < j < |r|
          ensures key(r[0]) != key(r[j])
        {
          assert r[j] == rest[j - 1];
          assert rest[j - 1] in s[1..];
          var k :| 0 <= k < |s[1..]| && s[1..][k] == rest[j - 1];
          assert s[k + 1] == r[j];
        }
      }
    }
  }
}

=== FILE: text.dfy ===
/** String primitives the dashboard code relies on, restricted to what the model needs:
    ASCII case mapping (`toLowerCase`/`toUpperCase`), the ECMAScript white-space set used by
    `trim`, first-occurrence search (`indexOf`, `includes`, `replace` with a string pattern),
    and the decimal rendering of integers (`Number.prototype.toString`). */
module Text {
  import opened Wrappers

  // ---------------------------------------------------------------- digits

  predicate IsDigit(c: char) {
    '0' <= c <= '9'
  }

  /** The regular expression `/^\d+$/`: at least one character, all ASCII digits. */
  predicate IsDigitString(s: string) {
    |s| > 0 && forall i :: 0 <= i < |s| ==> IsDigit(s[i])
  }

  // ---------------------------------------------------------------- case mapping

  function LowerChar(c: char): char {
    if 'A' <= c <= 'Z' then (c as int + 32) as char else c
  }

  function UpperChar(c: char): char {
    if 'a' <= c <= 'z' then (c as int - 32) as char else c
  }

  /** `toLowerCase` on ASCII letters: no capital is left, every other character is kept,
      and the result is the same string up to case. */
  function Lower(s: string): (r: string)
    ensures |r| == |s|
    ensures forall i :: 0 <= i < |r| ==> !('A' <= r[i] <= 'Z')
    ensures forall i :: 0 <= i < |s| && !('A' <= s[i] <= 'Z') ==> r[i] == s[i]
    ensures Upper(r) == Upper(s)
  {
    seq(|s|, i requires 0 <= i < |s| => LowerChar(s[i]))
  }

  function Upper(s: string): (r: string)
    ensures |r| == |s|
  {
    seq(|s|, i requires 0 <= i < |s| => UpperChar(s[i]))
  }

  /** Lower-casing twice is lower-casing once. */
  lemma LowerIdempotent(s: string)
    ensures Lower(Lower(s)) == Lower(s)
  {
    assert forall i :: 0 <= i < |s| ==> Lower(Lower(s))[i] == Lower(s)[i];
  }

  /** A lower-cased string has no upper-case ASCII letter, and upper-casing leaves no lower-case one. */
  lemma CaseMappingResults(s: string)
    ensures forall i :: 0 <= i < |s| ==> !('A' <= Lower(s)[i] <= 'Z')
    ensures forall i :: 0 <= i < |s| ==> !('a' <= Upper(s)[i] <= 'z')
  {
  }

  /** No ASCII lower-case letter occurs in `s`. */
  predicate NoLowerCase(s: string) {
    forall i :: 0 <= i < |s| ==> !('a' <= s[i] <= 'z')
  }

  /** Upper-casing leaves a string without lower-case letters as it is. */
  lemma UpperUnchanged(s: string)
    requires NoLowerCase(s)
    ensures Upper(s) == s
  {
  }

  /** Upper-casing works character by character, so it distributes over concatenation. */
  lemma UpperAppend(a: string, b: string)
    ensures Upper(a + b) == Upper(a) + Upper(b)
  {
    assert forall i :: 0 <= i < |a + b| ==> Upper(a + b)[i] == (Upper(a) + Upper(b))[i];
  }

  // ---------------------------------------------------------------- white space

  /** ECMAScript WhiteSpace and LineTerminator code points, which `String.prototype.trim` strips. */
  predicate IsWhiteSpace(c: char) {
    var n := c as int;
    (0x09 <= n <= 0x0D) || n == 0x20 || n == 0xA0 || n == 0x1680 || (0x2000 <= n <= 0x200A) ||
    n == 0x2028 || n == 0x2029 || n == 0x202F || n == 0x205F || n == 0x3000 || n == 0xFEFF
  }

  /** Number of leading white-space characters. */
  function LeadingSpace(s: string): (n: nat)
    ensures n <= |s|
    ensures forall k :: 0 <= k < n ==> IsWhiteSpace(s[k])
    ensures n < |s| ==> !IsWhiteSpace(s[n])
    decreases |s|
  {
    if |s| > 0 && IsWhiteSpace(s[0]) then 1 + LeadingSpace(s[1..]) else 0
  }

  /** Number of trailing white-space characters. */
  function TrailingSpace(s: string): (n: nat)
    ensures n <= |s|
    ensures forall k :: |s| - n <= k < |s| ==> IsWhiteSpace(s[k])
    ensures n < |s| ==> !IsWhiteSpace(s[|s| - n - 1])
    decreases |s|
  {
    if |s| > 0 && IsWhiteSpace(s[|s| - 1]) then 1 + TrailingSpace(s[..|s| - 1]) else 0
  }

  /** `r` is `s` with its leading and trailing white space removed and nothing else changed. */
  ghost predicate IsTrimOf(r: string, s: string) {
    exists i, j :: 0 <= i <= j <= |s| && r == s[i..j] &&
      (forall k :: 0 <= k < i ==> IsWhiteSpace(s[k])) &&
      (forall k :: j <= k < |s| ==> IsWhiteSpace(s[k])) &&
      (|r| > 0 ==> !IsWhiteSpace(r[0]) && !IsWhiteSpace(r[|r| - 1]))
  }

  /** `String.prototype.trim`. */
  function Trim(s: string): (r: string)
    ensures IsTrimOf(r, s)
  {
    var i := LeadingSpace(s);
    var rest := s[i..];
    var t := TrailingSpace(rest);
    var r := rest[..|rest| - t];
    assert r == s[i..i + |r|];
    assert forall k :: i + |r| <= k < |s| ==> IsWhiteSpace(s[k]) by {
      forall k | i + |r| <= k < |s|
        ensures IsWhiteSpace(s[k])
      {
        assert s[k] == rest[k - i];
      }
    }
    assert |r| > 0 ==> !IsWhiteSpace(r[0]) by {
      if |r| > 0 {
        assert r[0] == s[i];
      }
    }
    r
  }

  /** Trimming never lengthens a string nor brings in a lower-case letter, and what it
      returns neither starts nor ends with white space. */
  lemma TrimKeepsCase(s: string)
    requires NoLowerCase(s)
    ensures NoLowerCase(Trim(s)) && |Trim(s)| <= |s|
    ensures |Trim(s)| > 0 ==> !IsWhiteSpace(Trim(s)[0]) && !IsWhiteSpace(Trim(s)[|Trim(s)| - 1])
  {
    var r := Trim(s);
    var i, j :| 0 <= i <= j <= |s| && r == s[i..j] &&
      (|r| > 0 ==> !IsWhiteSpace(r[0]) && !IsWhiteSpace(r[|r| - 1]));
    assert forall k :: 0 <= k < |r| ==> r[k] == s[i + k];
  }

  /** A string that neither starts nor ends with white space is its own trim. */
  lemma TrimUnchanged(s: string)
    requires |s| > 0 ==> !IsWhiteSpace(s[0]) && !IsWhiteSpace(s[|s| - 1])
    ensures Trim(s) == s
  {
    assert LeadingSpace(s) == 0;
    assert TrailingSpace(s) == 0;
  }

  // ---------------------------------------------------------------- search

  /** `pat` occurs in `s` starting at index `i`. */
  predicate OccursAt(s: string, pat: string, i: int) {
    0 <= i && i + |pat| <= |s| && s[i..i + |pat|] == pat
  }

  /** `i` is the first index at which `pat` occurs in `s`. */
  predicate FirstOccurrence(s: string, pat: string, i: int) {
    OccursAt(s, pat, i) && forall k :: 0 <= k < i ==> !OccursAt(s, pat, k)
  }

  function IndexOfFrom(s: string, pat: string, from: nat): (r: Option<nat>)
    ensures r.Some? ==> from <= r.value && OccursAt(s, pat, r.value)
    ensures r.Some? ==> forall k :: from <= k < r.value ==> !OccursAt(s, pat, k)
    ensures r.None? ==> forall k :: from <= k ==> !OccursAt(s, pat, k)
    decreases |s| - from
  {
    if from + |pat| > |s| then None
    else if s[from..from + |pat|] == pat then Some(from)
    else IndexOfFrom(s, pat, from + 1)
  }

  /** `String.prototype.indexOf`, with "not found" as `None` instead of -1. */
  function IndexOf(s: string, pat: string): (r: Option<nat>)
    ensures r.Some? <==> exists k :: OccursAt(s, pat, k)
    ensures r.Some? ==> FirstOccurrence(s, pat, r.value)
  {
    IndexOfFrom(s, pat, 0)
  }

  /** `String.prototype.includes`. */
  predicate Includes(s: string, pat: string) {
    IndexOf(s, pat).Some?
  }

  /** Every string includes the empty string. */
  lemma IncludesEmpty(s: string)
    ensures Includes(s, "")
  {
    assert OccursAt(s, "", 0);
  }

  /** A pattern whose first character is absent from `s` does not occur in it. */
  lemma AbsentFirstChar(s: string, pat: string)
    requires |pat| > 0 && pat[0] !in s
    ensures forall k :: !OccursAt(s, pat, k)
  {
    forall k | OccursAt(s, pat, k)
      ensures false
    {
      assert false;
    }
  }

  /** `String.prototype.replace` with a string pattern: only the first occurrence is replaced.
      The replacement strings used by the model contain no `$` patterns. */
  function ReplaceFirst(s: string, pat: string, rep: string): (r: string)
    ensures (forall k :: !OccursAt(s, pat, k)) ==> r == s
    ensures forall i :: FirstOccurrence(s, pat, i) ==> r == s[..i] + rep + s[i + |pat|..]
  {
    match IndexOf(s, pat)
    case None => s
    case Some(i) => s[..i] + rep + s[i + |pat|..]
  }

  /** Deleting the first occurrence of a pattern never lengthens a string nor brings in a
      lower-case letter. */
  lemma RemovalKeepsCase(s: string, pat: string)
    requires NoLowerCase(s)
    ensures NoLowerCase(ReplaceFirst(s, pat, "")) && |ReplaceFirst(s, pat, "")| <= |s|
  {
    var found := IndexOf(s, pat);
    if found.Some? {
      var i := found.value;
      assert s[..i] + "" + s[i + |pat|..] == s[..i] + s[i + |pat|..];
      DeletionKeepsCase(s, i, i + |pat|);
    }
  }

  lemma DeletionKeepsCase(s: string, i: nat, j: nat)
    requires i <= j <= |s| && NoLowerCase(s)
    ensures NoLowerCase(s[..i] + s[j..])
  {
    var r := s[..i] + s[j..];
    forall k | 0 <= k < |r|
      ensures !('a' <= r[k] <= 'z')
    {
      if k < i {
        assert r[k] == s[k];
      } else {
        assert r[k] == s[k - i + j];
      }
    }
  }

  // ---------------------------------------------------------------- decimal numbers

  function DigitChar(d: nat): char
    requires d < 10
  {
    ('0' as int + d) as char
  }

  function DigitValue(c: char): nat
    requires IsDigit(c)
  {
    c as int - '0' as int
  }

  /** `Number.prototype.toString` on a non-negative integer: digits only, with no leading zero. */
  function NatToString(n: nat): (r: string)
    ensures IsDigitString(r)
    ensures r[0] == '0' ==> n == 0 && |r| == 1
    decreases n
  {
    if n < 10 then [DigitChar(n)] else NatToString(n / 10) + [DigitChar(n % 10)]
  }

  /** `Number.prototype.toString` on an integer: a minus sign exactly for negatives, then
      the decimal digits of the magnitude, which read back to it. */
  function IntToString(n: int): (r: string)
    ensures |r| > 0
    ensures n < 0 <==> r[0] == '-'
    ensures n >= 0 ==> IsDigitString(r) && ParseDigits(r) == n
    ensures n < 0 ==> IsDigitString(r[1..]) && ParseDigits(r[1..]) == -n
    ensures n >= 0 ==> r[0] != '0' || r == "0"
    ensures n < 0 ==> |r| >= 2 && r[1] != '0'
  {
    if n < 0 then
      var digits := NatToString(-n);
      ParseNatToString(-n);
      assert ("-" + digits)[1..] == digits;
      "-" + digits
    else
      ParseNatToString(n);
      NatToString(n)
  }

  /** Distinct integers print differently. */
  lemma IntToStringInjective(m: int, n: int)
    requires IntToString(m) == IntToString(n)
    ensures m == n
  {
  }

  /** Decimal value of a string of digits (its most significant digit first). */
  function ParseDigits(s: string): nat
    requires forall i :: 0 <= i < |s| ==> IsDigit(s[i])
    decreases |s|
  {
    if |s| == 0 then 0 else ParseDigits(s[..|s| - 1]) * 10 + DigitValue(s[|s| - 1])
  }

  /** Reading back the decimal rendering of `n` gives `n`: the rendering loses nothing. */
  lemma {:induction false} ParseNatToString(n: nat)
    ensures ParseDigits(NatToString(n)) == n
    decreases n
  {
    var r := NatToString(n);
    if n >= 10 {
      ParseNatToString(n / 10);
      assert r[..|r| - 1] == NatToString(n / 10);
    }
  }

  /** Decimal rendering is injective: distinct numbers print differently. */
  lemma NatToStringInjective(m: nat, n: nat)
    requires NatToString(m) == NatToString(n)
    ensures m == n
  {
    ParseNatToString(m);
    ParseNatToString(n);
  }

  // ---------------------------------------------------------------- join and split

  /** `Array.prototype.join`: the parts with `sep` between neighbours. */
  function Join(parts: seq<string>, sep: string): (r: string)
    ensures |parts| == 1 ==> r == parts[0]
    decreases |parts|
  {
    if |parts| == 0 then "" else if |parts| == 1 then parts[0]
    else parts[0] + sep + Join(parts[1..], sep)
  }

  /** A joined string contains a character only if a part or the separator does. */
  lemma {:induction false} JoinExcludes(parts: seq<string>, sep: string, c: char)
    requires c !in sep
    requires forall i :: 0 <= i < |parts| ==> c !in parts[i]
    ensures c !in Join(parts, sep)
    decreases |parts|
  {
    if |parts| > 1 {
      JoinExcludes(parts[1..], sep, c);
    }
  }

  /** Index of the first `c` in `s`. */
  function CharIndex(s: string, c: char): (r: Option<nat>)
    ensures r.None? <==> c !in s
    ensures r.Some? ==> r.value < |s| && s[r.value] == c && c !in s[..r.value]
    decreases |s|
  {
    if |s| == 0 then None
    else if s[0] == c then Some(0)
    else match CharIndex(s[1..], c)
      case None => None
      case Some(i) =>
        assert s[1..][..i] == s[1..i + 1];
        Some(i + 1)
  }

  /** `String.prototype.split` with a one-character separator: the maximal pieces between
      separators, so there is always at least one piece. */
  function Split(s: string, c: char): (r: seq<string>)
    ensures |r| >= 1
    ensures forall i :: 0 <= i < |r| ==> c !in r[i]
    decreases |s|
  {
    match CharIndex(s, c)
    case None => [s]
    case Some(i) => [s[..i]] + Split(s[i + 1..], c)
  }

  lemma CharIndexAfterPrefix(a: string, c: char, b: string)
    requires c !in a
    ensures CharIndex(a + [c] + b, c) == Some(|a|)
  {
    var s := a + [c] + b;
    var r := CharIndex(s, c);
    assert s[|a|] == c;
    assert s[..|a|] == a;
  }

  /** Splitting after a separator-free prefix and the separator gives the prefix, then the
      pieces of the rest. */
  lemma SplitAfterPrefix(a: string, c: char, b: string)
    requires c !in a
    ensures Split(a + [c] + b, c) == [a] + Split(b, c)
  {
    var s := a + [c] + b;
    CharIndexAfterPrefix(a, c, b);
    assert s[..|a|] == a;
    assert s[|a| + 1..] == b;
  }

  /** Splitting a joined list at its separator gives the list back, provided no part holds
      the separator. */
  lemma {:induction false} SplitJoin(parts: seq<string>, c: char)
    requires |parts| >= 1
    requires forall i :: 0 <= i < |parts| ==> c !in parts[i]
    ensures Split(Join(parts, [c]), c) == parts
    decreases |parts|
  {
    if |parts| == 1 {
      assert CharIndex(parts[0], c).None?;
    } else {
      var rest := Join(parts[1..], [c]);
      assert Join(parts, [c]) == parts[0] + [c] + rest;
      SplitAfterPrefix(parts[0], c, rest);
      SplitJoin(parts[1..], c);
      assert parts == [parts[0]] + parts[1..];
    }
  }

  // ---------------------------------------------------------------- ordering

  /** Strict lexicographic order on the suffixes of `a` and `b` from index `i` on. */
  predicate LexLessFrom(a: string, b: string, i: nat)
    decreases |a| - i
  {
    i < |b| && (i >= |a| || a[i] < b[i] || (a[i] == b[i] && LexLessFrom(a, b, i + 1)))
  }

  /** Strict lexicographic order on strings, character by character (JavaScript's `<`). */
  predicate LexLess(a: string, b: string) {
    LexLessFrom(a, b, 0)
  }

  lemma {:induction false} LexLessFromIrreflexive(a: string, i: nat)
    ensures !LexLessFrom(a, a, i)
    decreases |a| - i
  {
    if i < |a| {
      LexLessFromIrreflexive(a, i + 1);
    }
  }

  lemma {:induction false} LexLessFromTransitive(a: string, b: string, c: string, i: nat)
    requires LexLessFrom(a, b, i) && LexLessFrom(b, c, i)
    ensures LexLessFrom(a, c, i)
    decreases |a| - i
  {
    if i < |a| && a[i] == b[i] && b[i] == c[i] {
      LexLessFromTransitive(a, b, c, i + 1);
    }
  }

  lemma LexLessIrreflexive(a: string)
    ensures !LexLess(a, a)
  {
    LexLessFromIrreflexive(a, 0);
  }

  lemma LexLessTransitive(a: string, b: string, c: string)
    requires LexLess(a, b) && LexLess(b, c)
    ensures LexLess(a, c)
  {
    LexLessFromTransitive(a, b, c, 0);
  }

  /** A list whose neighbours are in strict lexicographic order has no repeated string. */
  lemma StrictlySortedDistinct(s: seq<string>)
    requires forall i :: 0 <= i < |s| - 1 ==> LexLess(s[i], s[i + 1])
    ensures forall i, j :: 0 <= i < j < |s| ==> s[i] != s[j]
  {
    forall i, j | 0 <= i < j < |s|
      ensures s[i] != s[j]
    {
      SortedChain(s, i, j);
      LexLessIrreflexive(s[i]);
    }
  }

  lemma {:induction false} SortedChain(s: seq<string>, i: nat, j: nat)
    requires forall k :: 0 <= k < |s| - 1 ==> LexLess(s[k], s[k + 1])
    requires i < j < |s|
    ensures LexLess(s[i], s[j])
    decreases j - i
  {
    if j > i + 1 {
      SortedChain(s, i, j - 1);
      LexLessTransitive(s[i], s[j - 1], s[j]);
    }
  }
}

=== FILE: validation_schemas.dfy ===
/** The form schemas: each schema maps its input record to the list of issues a zod
    `safeParse` reports (empty when the input is accepted), and, for the object schemas, to the
    parsed value with defaults filled in. Fields a form may leave out are `Option`s. */
module ValidationSchemas {
  import opened Wrappers
  import opened Text

  /** One step of an issue path: an object key or an array position. */
  datatype PathKey = Key(name: string) | Index(pos: nat)

  datatype Issue = Issue(path: seq<PathKey>, message: string)

  /** Some issue's path mentions the object key `field` (the tests' `path.includes(field)`). */
  predicate HasIssueAt(issues: seq<Issue>, field: string) {
    exists i :: 0 <= i < |issues| && Key(field) in issues[i].path
  }

  /** Every issue's path starts with `at` and goes below it. */
  predicate AllUnder(issues: seq<Issue>, at: seq<PathKey>) {
    forall i :: 0 <= i < |issues| ==> |issues[i].path| > |at| && issues[i].path[..|at|] == at
  }

  /** Some issue has exactly the path `path`. */
  predicate HasIssueWithPath(issues: seq<Issue>, path: seq<PathKey>) {
    exists i :: 0 <= i < |issues| && issues[i].path == path
  }

  /** zod's message for a missing required field. */
  const Required := "Required"

  // ---------------------------------------------------------------- identity numbers

  /** `nikSchema`: min 16, max 16, then the digits-only pattern; zod reports every failing
      check, in that order. */
  function NikIssues(s: string): (r: seq<string>)
    ensures r == [] <==> |s| == 16 && IsDigitString(s)
    ensures |r| <= 2
  {
    (if |s| < 16 then ["NIK harus terdiri dari 16 digit"] else []) +
    (if |s| > 16 then ["NIK harus terdiri dari 16 digit"] else []) +
    (if !IsDigitString(s) then ["NIK harus berupa angka"] else [])
  }

  /** `nisSchema`: between 1 and 20 characters, all digits. */
  function NisIssues(s: string): (r: seq<string>)
    ensures r == [] <==> 1 <= |s| <= 20 && IsDigitString(s)
    ensures s == "" ==> r == ["NIS wajib diisi", "NIS harus berupa angka"]
  {
    (if |s| < 1 then ["NIS wajib diisi"] else []) +
    (if |s| > 20 then ["NIS maksimal 20 digit"] else []) +
    (if !IsDigitString(s) then ["NIS harus berupa angka"] else [])
  }

  // ---------------------------------------------------------------- field rules

  /** A required string field with a minimum length. */
  function MinLength(path: seq<PathKey>, v: Option<string>, min: nat, message: string): (r: seq<Issue>)
    ensures r == [] <==> v.Some? && |v.value| >= min
    ensures |r| <= 1 && forall i :: 0 <= i < |r| ==> r[i].path == path
  {
    match v
    case None => [Issue(path, Required)]
    case Some(s) => if |s| < min then [Issue(path, message)] else []
  }

  /** An optional enum field: absent, or one of `allowed`. */
  function OptionalEnum(path: seq<PathKey>, v: Option<string>, allowed: seq<string>, expected: string): (r: seq<Issue>)
    ensures r == [] <==> OptionIn(v, allowed)
    ensures |r| <= 1 && forall i :: 0 <= i < |r| ==> r[i].path == path
  {
    match v
    case None => []
    case Some(s) =>
      if s in allowed then []
      else [Issue(path, "Invalid enum value. Expected " + expected + ", received '" + s + "'")]
  }

  /** An optional number field with inclusive bounds. */
  function OptionalRange(path: seq<PathKey>, v: Option<real>, lo: real, hi: real, loText: string, hiText: string): (r: seq<Issue>)
    ensures r == [] <==> v.None? || lo <= v.value <= hi
    ensures forall i :: 0 <= i < |r| ==> r[i].path == path
  {
    match v
    case None => []
    case Some(x) =>
      (if x < lo then [Issue(path, "Number must be greater than or equal to " + loText)] else []) +
      (if x > hi then [Issue(path, "Number must be less than or equal to " + hiText)] else [])
  }

  // ---------------------------------------------------------------- login

  datatype LoginInput = LoginInput(username: Option<string>, password: Option<string>)

  /** `loginSchema`: both username and password present and non-empty. */
  function LoginIssues(x: LoginInput): (r: seq<Issue>)
    ensures r == [] <==> x.username.Some? && x.username.value != "" && x.password.Some? && x.password.value != ""
    ensures HasIssueAt(r, "username") <==> x.username.None? || x.username.value == ""
    ensures HasIssueAt(r, "password") <==> x.password.None? || x.password.value == ""
  {
    var u := MinLength([Key("username")], x.username, 1, "Username wajib diisi");
    var p := MinLength([Key("password")], x.password, 1, "Password wajib diisi");
    var r := u + p;
    assert Key("username") != Key("password");
    if |u| == 0 then
      assert r == p;
      assert |p| > 0 ==> Key("password") in r[0].path;
      r
    else if |p| == 0 then
      assert r == u;
      assert Key("username") in r[0].path;
      r
    else
      assert r == [u[0], p[0]];
      assert Key("username") in r[0].path && Key("password") in r[1].path;
      r
  }

  // ---------------------------------------------------------------- attendee

  datatype IdentifierType = Nik | Nis

  datatype AttendeeInput = AttendeeInput(
    name: Option<string>, nik: Option<string>, identifierType: Option<string>,
    kecamatan: Option<string>, desa: Option<string>, alamat: Option<string>,
    jenisKelamin: Option<string>, pekerjaan: Option<string>, usia: Option<real>)

  /** An attendee as the schema outputs it: `identifier_type` always set. */
  datatype Attendee = Attendee(
    name: string, nik: string, identifierType: IdentifierType,
    kecamatan: Option<string>, desa: Option<string>, alamat: Option<string>,
    jenisKelamin: Option<string>, pekerjaan: Option<string>, usia: Option<real>)

  /** What `attendeeSchema` accepts: a name of at least two characters, a non-empty nik (any
      characters, any length), identifier type NIK or NIS if given, gender L or P if given, age
      between 0 and 150 inclusive if given. */
  predicate AttendeeAcceptable(x: AttendeeInput) {
    x.name.Some? && |x.name.value| >= 2 &&
    x.nik.Some? && |x.nik.value| >= 1 &&
    OptionIn(x.identifierType, IdentifierTypes) &&
    OptionIn(x.jenisKelamin, Genders) &&
    (x.usia.None? || 0.0 <= x.usia.value <= 150.0)
  }

  const IdentifierTypes: seq<string> := ["NIK", "NIS"]
  const Genders: seq<string> := ["L", "P"]

  /** An optional value that, when present, is one of `allowed`. */
  predicate OptionIn(v: Option<string>, allowed: seq<string>) {
    v.None? || v.value in allowed
  }

  /** The issues of `attendeeSchema`, with each path prefixed by `at` (the attendee's position
      inside an enclosing object). */
  function AttendeeIssues(at: seq<PathKey>, x: AttendeeInput): (r: seq<Issue>)
    ensures r == [] <==> AttendeeAcceptable(x)
    ensures AllUnder(r, at)
    ensures (x.name.None? || |x.name.value| < 2) ==> HasIssueWithPath(r, at + [Key("name")])
  {
    var name := MinLength(at + [Key("name")], x.name, 2, "Nama harus minimal 2 karakter");
    var nik := MinLength(at + [Key("nik")], x.nik, 1, "NIK/NIS wajib diisi");
    var idType := OptionalEnum(at + [Key("identifier_type")], x.identifierType, IdentifierTypes, "'NIK' | 'NIS'");
    var gender := OptionalEnum(at + [Key("jenis_kelamin")], x.jenisKelamin, Genders, "'L' | 'P'");
    var age := OptionalRange(at + [Key("usia")], x.usia, 0.0, 150.0, "0", "150");
    var r := name + nik + idType + gender + age;
    assert |name| > 0 ==> r[0] == name[0];
    assert AllUnder(r, at) by {
      forall i | 0 <= i < |r|
        ensures |r[i].path| > |at| && r[i].path[..|at|] == at
      {
        assert r[i] in name || r[i] in nik || r[i] in idType || r[i] in gender || r[i] in age;
      }
    }
    r
  }

  /** `attendeeSchema.safeParse`: the attendee with `identifier_type` defaulted to NIK, or the
      issues found. */
  function ParseAttendee(x: AttendeeInput): (r: Result<Attendee, seq<Issue>>)
    ensures r.Success? <==> AttendeeAcceptable(x)
    ensures r.Failure? ==> r.error != []
    ensures r.Success? ==> r.value.name == x.name.value && r.value.nik == x.nik.value
    ensures r.Success? ==> r.value.identifierType == (if x.identifierType == Some("NIS") then Nis else Nik)
    ensures r.Success? ==> r.value.jenisKelamin == x.jenisKelamin && r.value.usia == x.usia
    ensures r.Success? ==>
      r.value.kecamatan == x.kecamatan && r.value.desa == x.desa &&
      r.value.alamat == x.alamat && r.value.pekerjaan == x.pekerjaan
  {
    var issues := AttendeeIssues([], x);
    if issues != [] then Failure(issues)
    else
      Success(Attendee(
        x.name.value, x.nik.value, if x.identifierType == Some("NIS") then Nis else Nik,
        x.kecamatan, x.desa, x.alamat, x.jenisKelamin, x.pekerjaan, x.usia))
  }

  // ---------------------------------------------------------------- event

  datatype EventInput = EventInput(
    title: Option<string>, date: Option<string>,
    locationKecamatan: Option<string>, locationKelurahan: Option<string>,
    description: Option<string>, attendees: Option<seq<AttendeeInput>>)

  /** The issues of the attendees from position `from` on, each under `attendees.<pos>`. */
  function AttendeeListIssues(list: seq<AttendeeInput>, from: nat): (r: seq<Issue>)
    requires from <= |list|
    ensures r == [] <==> forall k :: from <= k < |list| ==> AttendeeAcceptable(list[k])
    decreases |list| - from
  {
    if from == |list| then []
    else
      var here := AttendeeIssues([Key("attendees"), Index(from)], list[from]);
      var rest := AttendeeListIssues(list, from + 1);
      assert here == [] <==> AttendeeAcceptable(list[from]);
      assert rest == [] <==> forall k :: from + 1 <= k < |list| ==> AttendeeAcceptable(list[k]);
      assert (here + rest == []) <==> (here == [] && rest == []);
      here + rest
  }

  /** What `eventSchema` accepts; `dateParses` stands for `!isNaN(Date.parse(val))`. */
  predicate EventAcceptable(x: EventInput, dateParses: string -> bool) {
    x.title.Some? && |x.title.value| >= 5 &&
    x.date.Some? && dateParses(x.date.value) &&
    x.locationKecamatan.Some? && x.locationKecamatan.value != "" &&
    x.locationKelurahan.Some? && x.locationKelurahan.value != "" &&
    x.description.Some? && |x.description.value| >= 10 &&
    (x.attendees.None? || forall k :: 0 <= k < |x.attendees.value| ==> AttendeeAcceptable(x.attendees.value[k]))
  }

  /** The issues of `eventSchema`. */
  function EventIssues(x: EventInput, dateParses: string -> bool): (r: seq<Issue>)
    ensures r == [] <==> EventAcceptable(x, dateParses)
    ensures (x.title.None? || |x.title.value| < 5) ==> HasIssueAt(r, "title")
  {
    var title := MinLength([Key("title")], x.title, 5, "Judul kegiatan minimal 5 karakter");
    var date :=
      match x.date
      case None => [Issue([Key("date")], Required)]
      case Some(d) => if dateParses(d) then [] else [Issue([Key("date")], "Tanggal tidak valid")];
    var kec := MinLength([Key("location_kecamatan")], x.locationKecamatan, 1, "Kecamatan wajib dipilih");
    var kel := MinLength([Key("location_kelurahan")], x.locationKelurahan, 1, "Kelurahan/Desa wajib dipilih");
    var desc := MinLength([Key("description")], x.description, 10, "Deskripsi minimal 10 karakter");
    var people := match x.attendees case None => [] case Some(list) => AttendeeListIssues(list, 0);
    var r := title + date + kec + kel + desc + people;
    assert (r == []) <==> (title == [] && date == [] && kec == [] && kel == [] && desc == [] && people == []);
    assert |title| > 0 ==> r[0] == title[0];
    r
  }
}

=== FILE: vote_results.dfy ===
/** The vote results page: per-RT vote counts with their totals, a free-text search over
    every column, and rows that expand and collapse. The data is the page's fixed sample. */
module VoteResults {
  import opened Seqs
  import opened Text

  datatype VoteRow = VoteRow(
    id: nat, district: string, subdistrict: string, village: string, hamlet: string,
    rtRw: string, votes: nat, potential: nat)

  /** `mockVoteData`. */
  const MockVoteData: seq<VoteRow> := [
    VoteRow(1, "Dapil 1", "Kecamatan A", "Desa 1", "Dusun 1", "RT 01/RW 02", 450, 230),
    VoteRow(2, "Dapil 1", "Kecamatan A", "Desa 1", "Dusun 2", "RT 02/RW 02", 380, 190),
    VoteRow(3, "Dapil 1", "Kecamatan A", "Desa 2", "Dusun 1", "RT 01/RW 01", 520, 270),
    VoteRow(4, "Dapil 1", "Kecamatan B", "Desa 1", "Dusun 1", "RT 03/RW 04", 410, 210),
    VoteRow(5, "Dapil 2", "Kecamatan C", "Desa 1", "Dusun 1", "RT 01/RW 03", 390, 180),
    VoteRow(6, "Dapil 2", "Kecamatan C", "Desa 2", "Dusun 2", "RT 04/RW 05", 480, 240),
    VoteRow(7, "Dapil 2", "Kecamatan D", "Desa 1", "Dusun 1", "RT 02/RW 02", 560, 290),
    VoteRow(8, "Dapil 3", "Kecamatan E", "Desa 1", "Dusun 1", "RT 01/RW 01", 430, 220),
    VoteRow(9, "Dapil 3", "Kecamatan E", "Desa 2", "Dusun 2", "RT 03/RW 03", 490, 250),
    VoteRow(10, "Dapil 3", "Kecamatan F", "Desa 1", "Dusun 1", "RT 02/RW 04", 520, 260)
  ]

  // ---------------------------------------------------------------- totals

  /** Sum of the votes column, folding from the left as `reduce` does. */
  function SumVotes(rows: seq<VoteRow>): nat
    decreases |rows|
  {
    if |rows| == 0 then 0 else SumVotes(rows[..|rows| - 1]) + rows[|rows| - 1].votes
  }

  /** Sum of the potential column. */
  function SumPotential(rows: seq<VoteRow>): nat
    decreases |rows|
  {
    if |rows| == 0 then 0 else SumPotential(rows[..|rows| - 1]) + rows[|rows| - 1].potential
  }

  /** The Total column of one row. */
  function RowTotal(row: VoteRow): nat {
    row.votes + row.potential
  }

  function SumRowTotals(rows: seq<VoteRow>): nat
    decreases |rows|
  {
    if |rows| == 0 then 0 else SumRowTotals(rows[..|rows| - 1]) + RowTotal(rows[|rows| - 1])
  }

  /** `totalVotes` and `totalPotential`, accumulated in one pass as the two `reduce` calls
      do. */
  method Totals(rows: seq<VoteRow>) returns (totalVotes: nat, totalPotential: nat)
    ensures totalVotes == SumVotes(rows) && totalPotential == SumPotential(rows)
  {
    totalVotes, totalPotential := 0, 0;
    var i := 0;
    while i < |rows|
      invariant 0 <= i <= |rows|
      invariant totalVotes == SumVotes(rows[..i])
      invariant totalPotential == SumPotential(rows[..i])
    {
      assert rows[..i + 1][..i] == rows[..i];
      totalVotes := totalVotes + rows[i].votes;
      totalPotential := totalPotential + rows[i].potential;
      i := i + 1;
    }
    assert rows[..|rows|] == rows;
  }

  /** The Total column adds up to the two headline totals. */
  lemma {:induction false} RowTotalsSum(rows: seq<VoteRow>)
    ensures SumRowTotals(rows) == SumVotes(rows) + SumPotential(rows)
    decreases |rows|
  {
    if |rows| > 0 {
      RowTotalsSum(rows[..|rows| - 1]);
    }
  }

  /** A headline figure is at least the figure of any single row. */
  lemma {:induction false} RowWithinTotal(rows: seq<VoteRow>, i: nat)
    requires i < |rows|
    ensures rows[i].votes <= SumVotes(rows) && rows[i].potential <= SumPotential(rows)
    decreases |rows|
  {
    if i < |rows| - 1 {
      RowWithinTotal(rows[..|rows| - 1], i);
    }
  }

  /** The sample's headline figures. */
  lemma MockVotesTotal()
    ensures SumVotes(MockVoteData) == 4630
  {
    var d := MockVoteData;
    assert SumVotes(d[..1]) == 450;
    assert d[..2][..1] == d[..1];
    assert SumVotes(d[..2]) == 830;
    assert d[..3][..2] == d[..2];
    assert SumVotes(d[..3]) == 1350;
    assert d[..4][..3] == d[..3];
    assert SumVotes(d[..4]) == 1760;
    assert d[..5][..4] == d[..4];
    assert SumVotes(d[..5]) == 2150;
    assert d[..6][..5] == d[..5];
    assert SumVotes(d[..6]) == 2630;
    assert d[..7][..6] == d[..6];
    assert SumVotes(d[..7]) == 3190;
    assert d[..8][..7] == d[..7];
    assert SumVotes(d[..8]) == 3620;
    assert d[..9][..8] == d[..8];
    assert SumVotes(d[..9]) == 4110;
    assert d[..10][..9] == d[..9];
    assert SumVotes(d[..10]) == 4630;
    assert d[..10] == d;
  }

  lemma MockPotentialTotal()
    ensures SumPotential(MockVoteData) == 2340
  {
    var d := MockVoteData;
    assert SumPotential(d[..1]) == 230;
    assert d[..2][..1] == d[..1];
    assert SumPotential(d[..2]) == 420;
    assert d[..3][..2] == d[..2];
    assert SumPotential(d[..3]) == 690;
    assert d[..4][..3] == d[..3];
    assert SumPotential(d[..4]) == 900;
    assert d[..5][..4] == d[..4];
    assert SumPotential(d[..5]) == 1080;
    assert d[..6][..5] == d[..5];
    assert SumPotential(d[..6]) == 1320;
    assert d[..7][..6] == d[..6];
    assert SumPotential(d[..7]) == 1610;
    assert d[..8][..7] == d[..7];
    assert SumPotential(d[..8]) == 1830;
    assert d[..9][..8] == d[..8];
    assert SumPotential(d[..9]) == 2080;
    assert d[..10][..9] == d[..9];
    assert SumPotential(d[..10]) == 2340;
    assert d[..10] == d;
  }

  // ---------------------------------------------------------------- areas

  /** The key an area is counted under: village and hamlet. */
  function AreaKey(row: VoteRow): string {
    row.village + "-" + row.hamlet
  }

  function AreaKeys(rows: seq<VoteRow>): (r: set<string>)
    ensures forall i :: 0 <= i < |rows| ==> AreaKey(rows[i]) in r
    ensures forall k :: k in r ==> exists i :: 0 <= i < |rows| && AreaKey(rows[i]) == k
    decreases |rows|
  {
    if |rows| == 0 then {}
    else
      var rest := AreaKeys(rows[1..]);
      assert forall i :: 1 <= i < |rows| ==> rows[i] == rows[1..][i - 1];
      {AreaKey(rows[0])} + rest
  }

  /** `totalAreas`: the number of distinct village-hamlet keys. */
  function TotalAreas(rows: seq<VoteRow>): nat {
    |AreaKeys(rows)|
  }

  /** There are never more areas than rows. */
  lemma {:induction false} AreasAtMostRows(rows: seq<VoteRow>)
    ensures TotalAreas(rows) <= |rows|
    decreases |rows|
  {
    if |rows| > 0 {
      AreasAtMostRows(rows[1..]);
    }
  }

  const MockAreaSet: set<string> := {"Desa 1-Dusun 1", "Desa 1-Dusun 2", "Desa 2-Dusun 1", "Desa 2-Dusun 2"}

  lemma MockAreaKeysListed(i: nat)
    requires i < |MockVoteData|
    ensures AreaKey(MockVoteData[i]) in MockAreaSet
  {
    var d := MockVoteData;
    if i == 0 { assert AreaKey(d[0]) == "Desa 1-Dusun 1"; }
    else if i == 1 { assert AreaKey(d[1]) == "Desa 1-Dusun 2"; }
    else if i == 2 { assert AreaKey(d[2]) == "Desa 2-Dusun 1"; }
    else if i == 3 { assert AreaKey(d[3]) == "Desa 1-Dusun 1"; }
    else if i == 4 { assert AreaKey(d[4]) == "Desa 1-Dusun 1"; }
    else if i == 5 { assert AreaKey(d[5]) == "Desa 2-Dusun 2"; }
    else if i == 6 { assert AreaKey(d[6]) == "Desa 1-Dusun 1"; }
    else if i == 7 { assert AreaKey(d[7]) == "Desa 1-Dusun 1"; }
    else if i == 8 { assert AreaKey(d[8]) == "Desa 2-Dusun 2"; }
    else { assert AreaKey(d[9]) == "Desa 1-Dusun 1"; }
  }

  lemma MockAreaSetSize()
    ensures |MockAreaSet| == 4
  {
    var a, b, c, e := "Desa 1-Dusun 1", "Desa 1-Dusun 2", "Desa 2-Dusun 1", "Desa 2-Dusun 2";
    assert a[13] != b[13] && a[5] != c[5] && a[5] != e[5] && b[5] != c[5] && b[5] != e[5] && c[13] != e[13];
  }

  /** The area keys are exactly a given set when every row's key is in it and every member
      is some row's key. */
  lemma AreaKeysExactly(rows: seq<VoteRow>, keys: set<string>)
    requires forall i :: 0 <= i < |rows| ==> AreaKey(rows[i]) in keys
    requires forall k :: k in keys ==> exists i :: 0 <= i < |rows| && AreaKey(rows[i]) == k
    ensures AreaKeys(rows) == keys
  {
  }

  lemma MockAreaKeysEqual()
    ensures AreaKeys(MockVoteData) == MockAreaSet
  {
    var d := MockVoteData;
    forall i | 0 <= i < |d|
      ensures AreaKey(d[i]) in MockAreaSet
    {
      MockAreaKeysListed(i);
    }
    MockAreaWitnesses();
    AreaKeysExactly(d, MockAreaSet);
  }

  lemma MockAreaWitnesses()
    ensures forall k :: k in MockAreaSet ==> exists i :: 0 <= i < |MockVoteData| && AreaKey(MockVoteData[i]) == k
  {
    var d := MockVoteData;
    assert AreaKey(d[0]) == "Desa 1-Dusun 1" && AreaKey(d[1]) == "Desa 1-Dusun 2";
    assert AreaKey(d[2]) == "Desa 2-Dusun 1" && AreaKey(d[5]) == "Desa 2-Dusun 2";
  }

  /** The sample covers four areas. */
  lemma MockAreas()
    ensures TotalAreas(MockVoteData) == 4
  {
    MockAreaKeysEqual();
    MockAreaSetSize();
  }

  // ---------------------------------------------------------------- search

  /** `Object.values(item)` rendered with `toString`, in declaration order. */
  function ColumnTexts(row: VoteRow): (r: seq<string>)
    ensures |r| == 8
  {
    [NatToString(row.id), row.district, row.subdistrict, row.village, row.hamlet, row.rtRw,
     NatToString(row.votes), NatToString(row.potential)]
  }

  /** Some column contains the term, ignoring case. */
  predicate Matches(row: VoteRow, term: string) {
    exists i :: 0 <= i < 8 && Includes(Lower(ColumnTexts(row)[i]), Lower(term))
  }

  /** `filteredData`: the rows matching the search term, in their original order. */
  function FilteredData(rows: seq<VoteRow>, term: string): (r: seq<VoteRow>)
    ensures forall i :: 0 <= i < |r| ==> Matches(r[i], term) && r[i] in rows
    ensures forall i :: 0 <= i < |rows| && Matches(rows[i], term) ==> rows[i] in r
    ensures IsSubsequence(r, rows)
    ensures |r| == CountWhere((row: VoteRow) => Matches(row, term), rows)
  {
    Filter((row: VoteRow) => Matches(row, term), rows)
  }

  /** An empty search shows every row. */
  lemma EmptySearchKeepsAll(rows: seq<VoteRow>)
    ensures FilteredData(rows, "") == rows
  {
    forall row: VoteRow
      ensures Matches(row, "")
    {
      IncludesEmpty(Lower(ColumnTexts(row)[0]));
    }
    FilterKeepsAll((row: VoteRow) => Matches(row, ""), rows);
  }

  /** The search ignores the case of the term. */
  lemma SearchIgnoresCase(rows: seq<VoteRow>, term: string)
    ensures FilteredData(rows, term) == FilteredData(rows, Lower(term))
  {
    LowerIdempotent(term);
    FilterCongruent((row: VoteRow) => Matches(row, term), (row: VoteRow) => Matches(row, Lower(term)), rows);
  }

  // ---------------------------------------------------------------- expanded rows

  /** `toggleRow`: flips whether `id` is expanded and leaves every other row alone. */
  function ToggleRow(expanded: set<nat>, id: nat): (r: set<nat>)
    ensures id in r <==> id !in expanded
    ensures forall x :: x != id ==> (x in r <==> x in expanded)
  {
    if id in expanded then expanded - {id} else expanded + {id}
  }

  /** Toggling the same row twice restores the expanded set. */
  lemma ToggleTwice(expanded: set<nat>, id: nat)
    ensures ToggleRow(ToggleRow(expanded, id), id) == expanded
  {
  }
}

=== FILE: wilayah.dfy ===
/** The region reference data of Kabupaten Bandung: each kecamatan (sub-district) belongs to
    one dapil (electoral district) and holds a list of villages, each a Desa or a Kelurahan.
    The lookups here work over any table; the concrete table is in `WilayahTable`. */
module Wilayah {
  import opened Wrappers
  import opened Seqs

  datatype VillageType = Desa | Kelurahan

  datatype Village = Village(name: string, kind: VillageType)

  datatype Kecamatan = Kecamatan(name: string, dapil: string, villages: seq<Village>)

  // ---------------------------------------------------------------- lookups

  /** `getKecamatanNames`: the name of every entry, in table order. */
  function KecamatanNames(table: seq<Kecamatan>): (r: seq<string>)
    ensures |r| == |table|
    ensures forall i :: 0 <= i < |table| ==> r[i] == table[i].name
    decreases |table|
  {
    if |table| == 0 then [] else [table[0].name] + KecamatanNames(table[1..])
  }

  /** Index `i` holds the first entry of the table named `name`. */
  predicate FirstNamed(table: seq<Kecamatan>, name: string, i: int) {
    0 <= i < |table| && table[i].name == name &&
    forall j :: 0 <= j < i ==> table[j].name != name
  }

  /** No entry of the table is named `name`. */
  predicate Unlisted(table: seq<Kecamatan>, name: string) {
    forall j :: 0 <= j < |table| ==> table[j].name != name
  }

  function FindFrom(table: seq<Kecamatan>, name: string, from: nat): (r: Option<nat>)
    requires forall j :: 0 <= j < from && j < |table| ==> table[j].name != name
    ensures r.Some? ==> FirstNamed(table, name, r.value)
    ensures r.None? ==> Unlisted(table, name)
    decreases |table| - from
  {
    if from >= |table| then None
    else if table[from].name == name then Some(from)
    else FindFrom(table, name, from + 1)
  }

  /** `KECAMATAN_DATA.find(k => k.name === name)`, as the index of the entry found. */
  function Find(table: seq<Kecamatan>, name: string): (r: Option<nat>)
    ensures r.Some? ==> FirstNamed(table, name, r.value)
    ensures r.None? <==> Unlisted(table, name)
  {
    FindFrom(table, name, 0)
  }

  /** `getDesaByKecamatan`: the villages of the first entry named exactly `name`
      (case-sensitive), and none when no entry has that name. */
  function DesaByKecamatan(table: seq<Kecamatan>, name: string): (r: seq<Village>)
    ensures Unlisted(table, name) ==> r == []
    ensures forall i :: FirstNamed(table, name, i) ==> r == table[i].villages
  {
    match Find(table, name)
    case None => []
    case Some(i) => table[i].villages
  }

  /** `getKecamatanByDapil`: exactly the entries of dapil `d`, in table order. */
  function KecamatanByDapil(table: seq<Kecamatan>, d: string): (r: seq<Kecamatan>)
    ensures forall i :: 0 <= i < |r| ==> r[i].dapil == d && r[i] in table
    ensures forall i :: 0 <= i < |table| && table[i].dapil == d ==> table[i] in r
    ensures IsSubsequence(r, table)
    ensures |r| == CountWhere((k: Kecamatan) => k.dapil == d, table)
  {
    Filter((k: Kecamatan) => k.dapil == d, table)
  }

  /** No two entries of the table share a name. */
  predicate NamesUnique(table: seq<Kecamatan>) {
    forall i, j :: 0 <= i < j < |table| ==> table[i].name != table[j].name
  }

  /** Distinct names in `getKecamatanNames` means no two entries share a name. */
  lemma DistinctNamesUnique(table: seq<Kecamatan>)
    requires Distinct(KecamatanNames(table))
    ensures NamesUnique(table)
  {
    var names := KecamatanNames(table);
    forall i, j | 0 <= i < j < |table|
      ensures table[i].name != table[j].name
    {
      assert names[i] != names[j];
    }
  }

  /** In a table with distinct names every entry is the first one carrying its name. */
  lemma UniqueNameFirst(table: seq<Kecamatan>, i: nat)
    requires NamesUnique(table)
    requires i < |table|
    ensures FirstNamed(table, table[i].name, i)
  {
  }

  /** The name of every entry of a table is among that table's names. */
  lemma NameListed(table: seq<Kecamatan>, k: Kecamatan)
    requires k in table
    ensures k.name in KecamatanNames(table)
  {
    var i :| 0 <= i < |table| && table[i] == k;
    assert KecamatanNames(table)[i] == k.name;
  }

  /** `getDapilByKecamatan`: the dapil of the first entry named `name`; undefined for unknown
      names. A dapil it returns lists `name` among its kecamatan. */
  function DapilByKecamatan(table: seq<Kecamatan>, name: string): (r: Option<string>)
    ensures r.None? <==> Unlisted(table, name)
    ensures forall i :: FirstNamed(table, name, i) ==> r == Some(table[i].dapil)
    ensures r.Some? ==> name in KecamatanNames(KecamatanByDapil(table, r.value))
  {
    match Find(table, name)
    case None => None
    case Some(i) =>
      NameListed(KecamatanByDapil(table, table[i].dapil), table[i]);
      Some(table[i].dapil)
  }

  // ---------------------------------------------------------------- partition by dapil

  /** Total size of the dapil groups of `table`, one group per option. */
  function GroupSizes(table: seq<Kecamatan>, options: seq<string>): nat
    decreases |options|
  {
    if |options| == 0 then 0
    else |KecamatanByDapil(table, options[0])| + GroupSizes(table, options[1..])
  }

  /** Adding an entry in front adds one to the group size of every option equal to its dapil. */
  lemma {:induction false} GroupSizesCons(k: Kecamatan, rest: seq<Kecamatan>, options: seq<string>)
    ensures GroupSizes([k] + rest, options) == GroupSizes(rest, options) + Count(k.dapil, options)
    decreases |options|
  {
    if |options| > 0 {
      GroupSizesCons(k, rest, options[1..]);
      assert ([k] + rest)[1..] == rest;
    }
  }

  /** When every entry's dapil is one of a duplicate-free list of options, the dapil groups
      of those options together hold every entry exactly once. */
  lemma DapilGroupsPartition(table: seq<Kecamatan>, options: seq<string>)
    requires Distinct(options)
    requires forall i :: 0 <= i < |table| ==> table[i].dapil in options
    ensures GroupSizes(table, options) == |table|
    ensures forall i, j :: 0 <= i < |table| && 0 <= j < |options| ==>
      (table[i] in KecamatanByDapil(table, options[j]) <==> options[j] == table[i].dapil)
  {
    GroupSizesTotal(table, options);
  }

  /** The counting half of the partition, by induction on the table. */
  lemma {:induction false} GroupSizesTotal(table: seq<Kecamatan>, options: seq<string>)
    requires Distinct(options)
    requires forall i :: 0 <= i < |table| ==> table[i].dapil in options
    ensures GroupSizes(table, options) == |table|
    decreases |table|
  {
    if |table| == 0 {
      EmptyGroups(options);
    } else {
      var rest := table[1..];
      GroupSizesTotal(rest, options);
      assert table == [table[0]] + rest;
      GroupSizesCons(table[0], rest, options);
      DistinctCount(table[0].dapil, options);
    }
  }

  lemma {:induction false} EmptyGroups(options: seq<string>)
    ensures GroupSizes([], options) == 0
    decreases |options|
  {
    if |options| > 0 {
      EmptyGroups(options[1..]);
    }
  }

  // ---------------------------------------------------------------- generations

  datatype Generation = GenZ | Millennial | GenX | Boomer | Silent | Unknown

  /** The category names shown in exports. */
  function GenerationLabel(g: Generation): string {
    match g
    case GenZ => "Gen Z"
    case Millennial => "Millennial"
    case GenX => "Gen X"
    case Boomer => "Boomer"
    case Silent => "Silent"
    case Unknown => "Unknown"
  }

  /** Position of a generation in the order youngest to oldest. */
  function Rank(g: Generation): nat {
    match g
    case GenZ => 0
    case Millennial => 1
    case GenX => 2
    case Boomer => 3
    case Silent => 4
    case Unknown => 5
  }

  /** The age range of each generation as an interval: `lo < age <= hi`, where Gen Z starts at
      0 inclusive and Silent has no upper end. */
  predicate InBand(g: Generation, age: real) {
    match g
    case GenZ => 0.0 <= age <= 25.0
    case Millennial => 25.0 < age <= 41.0
    case GenX => 41.0 < age <= 57.0
    case Boomer => 57.0 < age <= 76.0
    case Silent => 76.0 < age
    case Unknown => age < 0.0
  }

  /** `getGenerationCategory`: negative ages are Unknown; every other age falls in its band. */
  function GenerationCategory(age: real): (g: Generation)
    ensures g == Unknown <==> age < 0.0
    ensures InBand(g, age)
  {
    if age < 0.0 then Unknown
    else if age <= 25.0 then GenZ
    else if age <= 41.0 then Millennial
    else if age <= 57.0 then GenX
    else if age <= 76.0 then Boomer
    else Silent
  }

  /** The bands do not overlap, so the band an age falls in is determined by the age. */
  lemma BandsDisjoint(g: Generation, h: Generation, age: real)
    requires InBand(g, age) && InBand(h, age)
    ensures g == h
  {
  }

  /** The band edges: 25 is the last Gen Z age and 26 a Millennial one, and likewise 41/42,
      57/58 and 76/77. */
  lemma GenerationEdges()
    ensures GenerationCategory(-1.0) == Unknown
    ensures GenerationCategory(0.0) == GenZ
    ensures GenerationCategory(25.0) == GenZ && GenerationCategory(26.0) == Millennial
    ensures GenerationCategory(41.0) == Millennial && GenerationCategory(42.0) == GenX
    ensures GenerationCategory(57.0) == GenX && GenerationCategory(58.0) == Boomer
    ensures GenerationCategory(76.0) == Boomer && GenerationCategory(77.0) == Silent
  {
  }

  /** Over non-negative ages the classification is monotone: an older age never maps to an
      earlier generation. */
  lemma GenerationMonotone(a: real, b: real)
    requires 0.0 <= a <= b
    ensures Rank(GenerationCategory(a)) <= Rank(GenerationCategory(b))
  {
  }
}

=== FILE: wilayah_table.dfy ===
/** The concrete reference table of Kabupaten Bandung: six dapil and 31 kecamatan with their
    villages, transcribed entry by entry, and the facts that hold of this instance. */
module WilayahTable {
  import opened Wrappers
  import opened Seqs
  import opened Text
  import opened Wilayah

  /** `DAPIL_OPTIONS`. */
  const DapilOptions: seq<string> :=
    ["JABAR 2-1", "JABAR 2-2", "JABAR 2-3", "JABAR 2-4", "JABAR 2-5", "JABAR 2-6"]

  /** `KECAMATAN_DATA`, in the order of the source table (alphabetical by name). */
  const KecamatanData: seq<Kecamatan> := [
    Arjasari, Baleendah, Banjaran, Bojongsoang, Cangkuang, Cicalengka, Cikancung, Cilengkrang,
    Cileunyi, Cimaung, Cimenyan, Ciparay, Ciwidey, Dayeuhkolot, Ibun, Katapang, Kertasari,
    Kutawaringin, Majalaya, Margaasih, Margahayu, Nagreg, Pacet, Pameungpeuk, Pangalengan,
    Paseh, Pasirjambu, Rancabali, Rancaekek, Solokanjeruk, Soreang
  ]

  const TotalKecamatan: nat := 31
  const TotalDesa: nat := 270
  const TotalKelurahan: nat := 10
  const TotalWilayah: nat := TotalDesa + TotalKelurahan

  // ---------------------------------------------------------------- facts about this table

  /** The table has `TOTAL_KECAMATAN` entries. */
  lemma TableSize()
    ensures |KecamatanData| == TotalKecamatan
    ensures |KecamatanNames(KecamatanData)| == TotalKecamatan
  {
  }

  /** Every entry belongs to one of the listed dapil options. */
  lemma DapilsListed()
    ensures forall i :: 0 <= i < |KecamatanData| ==> KecamatanData[i].dapil in DapilOptions
  {
  }

  /** The kecamatan names are pairwise distinct, so each name identifies one entry. */
  lemma NamesDistinct()
    ensures Distinct(KecamatanNames(KecamatanData))
  {
    var names := KecamatanNames(KecamatanData);
    forall i | 0 <= i < |names| - 1
      ensures LexLess(names[i], names[i + 1])
    {
      NamesAscending(i);
    }
    StrictlySortedDistinct(names);
  }

  /** The table is in strictly ascending order of names (checked in stretches of three). */
  lemma NamesAscending(i: nat)
    requires i < |KecamatanData| - 1
    ensures LexLess(KecamatanData[i].name, KecamatanData[i + 1].name)
  {
    if i < 3 {
      AscendingStretch0(i);
    } else if i < 6 {
      AscendingStretch1(i);
    } else if i < 9 {
      AscendingStretch2(i);
    } else if i < 12 {
      AscendingStretch3(i);
    } else if i < 15 {
      AscendingStretch4(i);
    } else if i < 18 {
      AscendingStretch5(i);
    } else if i < 21 {
      AscendingStretch6(i);
    } else if i < 24 {
      AscendingStretch7(i);
    } else if i < 27 {
      AscendingStretch8(i);
    } else {
      AscendingStretch9(i);
    }
  }

  lemma AscendingStretch0(i: nat)
    requires 0 <= i < 3
    ensures LexLess(KecamatanData[i].name, KecamatanData[i + 1].name)
  {
    EntryNamesAscending0();
    if i == 0 {
      assert KecamatanData[0] == Arjasari && KecamatanData[1] == Baleendah;
    } else if i == 1 {
      assert KecamatanData[1] == Baleendah && KecamatanData[2] == Banjaran;
    } else {
      assert KecamatanData[2] == Banjaran && KecamatanData[3] == Bojongsoang;
    }
  }

  lemma EntryNamesAscending0()
    ensures LexLess(Arjasari.name, Baleendah.name)
    ensures LexLess(Baleendah.name, Banjaran.name)
    ensures LexLess(Banjaran.name, Bojongsoang.name)
  {
  }

  lemma AscendingStretch1(i: nat)
    requires 3 <= i < 6
    ensures LexLess(KecamatanData[i].name, KecamatanData[i + 1].name)
  {
    EntryNamesAscending1();
    if i == 3 {
      assert KecamatanData[3] == Bojongsoang && KecamatanData[4] == Cangkuang;
    } else if i == 4 {
      assert KecamatanData[4] == Cangkuang && KecamatanData[5] == Cicalengka;
    } else {
      assert KecamatanData[5] == Cicalengka && KecamatanData[6] == Cikancung;
    }
  }

  lemma EntryNamesAscending1()
    ensures LexLess(Bojongsoang.name, Cangkuang.name)
    ensures LexLess(Cangkuang.name, Cicalengka.name)
    ensures LexLess(Cicalengka.name, Cikancung.name)
  {
  }

  lemma AscendingStretch2(i: nat)
    requires 6 <= i < 9
    ensures LexLess(KecamatanData[i].name, KecamatanData[i + 1].name)
  {
    EntryNamesAscending2();
    if i == 6 {
      assert KecamatanData[6] == Cikancung && KecamatanData[7] == Cilengkrang;
    } else if i == 7 {
      assert KecamatanData[7] == Cilengkrang && KecamatanData[8] == Cileunyi;
    } else {
      assert KecamatanData[8] == Cileunyi && KecamatanData[9] == Cimaung;
    }
  }

  lemma EntryNamesAscending2()
    ensures LexLess(Cikancung.name, Cilengkrang.name)
    ensures LexLess(Cilengkrang.name, Cileunyi.name)
    ensures LexLess(Cileunyi.name, Cimaung.name)
  {
  }

  lemma AscendingStretch3(i: nat)
    requires 9 <= i < 12
    ensures LexLess(KecamatanData[i].name, KecamatanData[i + 1].name)
  {
    EntryNamesAscending3();
    if i == 9 {
      assert KecamatanData[9] == Cimaung && KecamatanData[10] == Cimenyan;
    } else if i == 10 {
      assert KecamatanData[10] == Cimenyan && KecamatanData[11] == Ciparay;
    } else {
      assert KecamatanData[11] == Ciparay && KecamatanData[12] == Ciwidey;
    }
  }

  lemma EntryNamesAscending3()
    ensures LexLess(Cimaung.name, Cimenyan.name)
    ensures LexLess(Cimenyan.name, Ciparay.name)
    ensures LexLess(Ciparay.name, Ciwidey.name)
  {
  }

  lemma AscendingStretch4(i: nat)
    requires 12 <= i < 15
    ensures LexLess(KecamatanData[i].name, KecamatanData[i + 1].name)
  {
    EntryNamesAscending4();
    if i == 12 {
      assert KecamatanData[12] == Ciwidey && KecamatanData[13] == Dayeuhkolot;
    } else if i == 13 {
      assert KecamatanData[13] == Dayeuhkolot && KecamatanData[14] == Ibun;
    } else {
      assert KecamatanData[14] == Ibun && KecamatanData[15] == Katapang;
    }
  }

  lemma EntryNamesAscending4()
    ensures LexLess(Ciwidey.name, Dayeuhkolot.name)
    ensures LexLess(Dayeuhkolot.name, Ibun.name)
    ensures LexLess(Ibun.name, Katapang.name)
  {
  }

  lemma AscendingStretch5(i: nat)
    requires 15 <= i < 18
    ensures LexLess(KecamatanData[i].name, KecamatanData[i + 1].name)
  {
    EntryNamesAscending5();
    if i == 15 {
      assert KecamatanData[15] == Katapang && KecamatanData[16] == Kertasari;
    } else if i == 16 {
      assert KecamatanData[16] == Kertasari && KecamatanData[17] == Kutawaringin;
    } else {
      assert KecamatanData[17] == Kutawaringin && KecamatanData[18] == Majalaya;
    }
  }

  lemma EntryNamesAscending5()
    ensures LexLess(Katapang.name, Kertasari.name)
    ensures LexLess(Kertasari.name, Kutawaringin.name)
    ensures LexLess(Kutawaringin.name, Majalaya.name)
  {
  }

  lemma AscendingStretch6(i: nat)
    requires 18 <= i < 21
    ensures LexLess(KecamatanData[i].name, KecamatanData[i + 1].name)
  {
    EntryNamesAscending6();
    if i == 18 {
      assert KecamatanData[18] == Majalaya && KecamatanData[19] == Margaasih;
    } else if i == 19 {
      assert KecamatanData[19] == Margaasih && KecamatanData[20] == Margahayu;
    } else {
      assert KecamatanData[20] == Margahayu && KecamatanData[21] == Nagreg;
    }
  }

  lemma EntryNamesAscending6()
    ensures LexLess(Majalaya.name, Margaasih.name)
    ensures LexLess(Margaasih.name, Margahayu.name)
    ensures LexLess(Margahayu.name, Nagreg.name)
  {
  }

  lemma AscendingStretch7(i: nat)
    requires 21 <= i < 24
    ensures LexLess(KecamatanData[i].name, KecamatanData[i + 1].name)
  {
    EntryNamesAscending7();
    if i == 21 {
      assert KecamatanData[21] == Nagreg && KecamatanData[22] == Pacet;
    } else if i == 22 {
      assert KecamatanData[22] == Pacet && KecamatanData[23] == Pameungpeuk;
    } else {
      assert KecamatanData[23] == Pameungpeuk && KecamatanData[24] == Pangalengan;
    }
  }

  lemma EntryNamesAscending7()
    ensures LexLess(Nagreg.name, Pacet.name)
    ensures LexLess(Pacet.name, Pameungpeuk.name)
    ensures LexLess(Pameungpeuk.name, Pangalengan.name)
  {
  }

  lemma AscendingStretch8(i: nat)
    requires 24 <= i < 27
    ensures LexLess(KecamatanData[i].name, KecamatanData[i + 1].name)
  {
    EntryNamesAscending8();
    if i == 24 {
      assert KecamatanData[24] == Pangalengan && KecamatanData[25] == Paseh;
    } else if i == 25 {
      assert KecamatanData[25] == Paseh && KecamatanData[26] == Pasirjambu;
    } else {
      assert KecamatanData[26] == Pasirjambu && KecamatanData[27] == Rancabali;
    }
  }

  lemma EntryNamesAscending8()
    ensures LexLess(Pangalengan.name, Paseh.name)
    ensures LexLess(Paseh.name, Pasirjambu.name)
    ensures LexLess(Pasirjambu.name, Rancabali.name)
  {
  }

  lemma AscendingStretch9(i: nat)
    requires 27 <= i < 30
    ensures LexLess(KecamatanData[i].name, KecamatanData[i + 1].name)
  {
    EntryNamesAscending9();
    if i == 27 {
      assert KecamatanData[27] == Rancabali && KecamatanData[28] == Rancaekek;
    } else if i == 28 {
      assert KecamatanData[28] == Rancaekek && KecamatanData[29] == Solokanjeruk;
    } else {
      assert KecamatanData[29] == Solokanjeruk && KecamatanData[30] == Soreang;
    }
  }

  lemma EntryNamesAscending9()
    ensures LexLess(Rancabali.name, Rancaekek.name)
    ensures LexLess(Rancaekek.name, Solokanjeruk.name)
    ensures LexLess(Solokanjeruk.name, Soreang.name)
  {
  }

  /** The six dapil options are pairwise distinct. */
  lemma OptionsDistinct()
    ensures Distinct(DapilOptions)
  {
  }

  /** Grouping the table by each of the six dapil options partitions it: the groups hold 31
      entries together, and each entry is in the group of its own dapil and in no other. */
  lemma DapilOptionsPartitionTable()
    ensures GroupSizes(KecamatanData, DapilOptions) == |KecamatanData|
    ensures forall i, j :: 0 <= i < |KecamatanData| && 0 <= j < |DapilOptions| ==>
      (KecamatanData[i] in KecamatanByDapil(KecamatanData, DapilOptions[j]) <==>
       DapilOptions[j] == KecamatanData[i].dapil)
  {
    DapilsListed();
    OptionsDistinct();
    DapilGroupsPartition(KecamatanData, DapilOptions);
  }

  /** Looking up CILEUNYI finds its own entry: dapil JABAR 2-4 and its six villages. */
  lemma CileunyiLookup()
    ensures DapilByKecamatan(KecamatanData, "CILEUNYI") == Some("JABAR 2-4")
    ensures DesaByKecamatan(KecamatanData, "CILEUNYI") == CileunyiVillages
    ensures |DesaByKecamatan(KecamatanData, "CILEUNYI")| == 6
  {
    assert KecamatanData[8] == Cileunyi;
    NamesDistinct();
    DistinctNamesUnique(KecamatanData);
    UniqueNameFirst(KecamatanData, 8);
  }

  // ---------------------------------------------------------------- the entries

  const Arjasari: Kecamatan := Kecamatan("ARJASARI", "JABAR 2-1", ArjasariVillages)
  const ArjasariVillages: seq<Village> := [
      Village("Arjasari", Desa),
      Village("Baros", Desa),
      Village("Lebakwangi", Desa),
      Village("Mekarjaya", Desa),
      Village("Pinggirsari", Desa),
      Village("Rancakole", Desa)
  ]

  const Baleendah: Kecamatan := Kecamatan("BALEENDAH", "JABAR 2-2", BaleendahVillages)
  const BaleendahVillages: seq<Village> := [
      Village("Andir", Desa),
      Village("Baleendah", Desa),
      Village("Jelekong", Desa),
      Village("Manggahang", Desa),
      Village("Malakasari", Desa),
      Village("Rancamanyar", Desa),
      Village("Wargamekar", Desa)
  ]

  const Banjaran: Kecamatan := Kecamatan("BANJARAN", "JABAR 2-1", BanjaranVillages)
  const BanjaranVillages: seq<Village> := [
      Village("Banjaran", Kelurahan),
      Village("Banjaran Wetan", Desa),
      Village("Ciapus", Desa),
      Village("Ciherang", Desa),
      Village("Kamasan", Desa),
      Village("Mekarjaya", Desa),
      Village("Neglasari", Desa),
      Village("Pasirmulya", Desa),
      Village("Sindangpanon", Desa),
      Village("Tarajusari", Desa)
  ]

  const Bojongsoang: Kecamatan := Kecamatan("BOJONGSOANG", "JABAR 2-2", BojongsoangVillages)
  const BojongsoangVillages: seq<Village> := [
      Village("Bojongsoang", Desa),
      Village("Buahbatu", Desa),
      Village("Cipagalo", Desa),
      Village("Lengkong", Desa),
      Village("Tegalluar", Desa)
  ]

  const Cangkuang: Kecamatan := Kecamatan("CANGKUANG", "JABAR 2-1", CangkuangVillages)
  const CangkuangVillages: seq<Village> := [
      Village("Bandasari", Desa),
      Village("Ciluncat", Desa),
      Village("Cingcin", Desa),
      Village("Jatisari", Desa),
      Village("Nagrak", Desa),
      Village("Panundaan", Desa),
      Village("Tanjungsari", Desa)
  ]

  const Cicalengka: Kecamatan := Kecamatan("CICALENGKA", "JABAR 2-5", CicalengkaVillages)
  const CicalengkaVillages: seq<Village> := [
      Village("Babakan Peuteuy", Desa),
      Village("Cicalengka Kulon", Desa),
      Village("Cicalengka Wetan", Desa),
      Village("Cikuya", Desa),
      Village("Dampit", Desa),
      Village("Margaasih", Desa),
      Village("Narawita", Desa),
      Village("Panenjoan", Desa),
      Village("Tanjungwangi", Desa),
      Village("Waluya", Desa)
  ]

  const Cikancung: Kecamatan := Kecamatan("CIKANCUNG", "JABAR 2-5", CikancungVillages)
  const CikancungVillages: seq<Village> := [
      Village("Cihanyir", Desa),
      Village("Cikancung", Desa),
      Village("Cikasungka", Desa),
      Village("Ciluluk", Desa),
      Village("Hegarmanah", Desa),
      Village("Mandalasari", Desa),
      Village("Mekarlaksana", Desa),
      Village("Srirahayu", Desa),
      Village("Tanjungmekar", Desa)
  ]

  const Cilengkrang: Kecamatan := Kecamatan("CILENGKRANG", "JABAR 2-4", CilengkrangVillages)
  const CilengkrangVillages: seq<Village> := [
      Village("Cilengkrang", Desa),
      Village("Cipanjalu", Desa),
      Village("Girimekar", Desa),
      Village("Jatiendah", Desa),
      Village("Melatiwangi", Desa)
  ]

  const Cileunyi: Kecamatan := Kecamatan("CILEUNYI", "JABAR 2-4", CileunyiVillages)
  const CileunyiVillages: seq<Village> := [
      Village("Cibiru Hilir", Desa),
      Village("Cibiru Wetan", Desa),
      Village("Cileunyi Kulon", Desa),
      Village("Cileunyi Wetan", Desa),
      Village("Cimekar", Desa),
      Village("Cinunuk", Kelurahan)
  ]

  const Cimaung: Kecamatan := Kecamatan("CIMAUNG", "JABAR 2-1", CimaungVillages)
  const CimaungVillages: seq<Village> := [
      Village("Cikalong", Desa),
      Village("Cimaung", Desa),
      Village("Cipinang", Desa),
      Village("Jagabaya", Desa),
      Village("Mekarsari", Desa),
      Village("Pasirhuni", Desa),
      Village("Sukamaju", Desa)
  ]

  const Cimenyan: Kecamatan := Kecamatan("CIMENYAN", "JABAR 2-4", CimenyanVillages)
  const CimenyanVillages: seq<Village> := [
      Village("Cibeunying", Desa),
      Village("Ciburial", Desa),
      Village("Cimenyan", Desa),
      Village("Mandalamekar", Desa),
      Village("Mekarmanik", Desa),
      Village("Mekarsaluyu", Desa),
      Village("Padasuka", Desa),
      Village("Sindangmanik", Desa)
  ]

  const Ciparay: Kecamatan := Kecamatan("CIPARAY", "JABAR 2-3", CiparayVillages)
  const CiparayVillages: seq<Village> := [
      Village("Bumiwangi", Desa),
      Village("Ciherang", Desa),
      Village("Cikoneng", Desa),
      Village("Ciparay", Kelurahan),
      Village("Gunungleutik", Desa),
      Village("Mekarlaksana", Desa),
      Village("Mekarsari", Desa),
      Village("Pakutandang", Desa),
      Village("Sarimahi", Desa),
      Village("Serangmekar", Desa),
      Village("Sumbersari", Desa),
      Village("Tegalwaru", Desa)
  ]

  const Ciwidey: Kecamatan := Kecamatan("CIWIDEY", "JABAR 2-6", CiwideyVillages)
  const CiwideyVillages: seq<Village> := [
      Village("Ciwidey", Kelurahan),
      Village("Lebakmuncang", Desa),
      Village("Nengkelan", Desa),
      Village("Panundaan", Desa),
      Village("Panyocokan", Desa),
      Village("Rawabogo", Desa),
      Village("Sukawening", Desa)
  ]

  const Dayeuhkolot: Kecamatan := Kecamatan("DAYEUHKOLOT", "JABAR 2-2", DayeuhkolotVillages)
  const DayeuhkolotVillages: seq<Village> := [
      Village("Bojongemas", Kelurahan),
      Village("Cangkuang Kulon", Desa),
      Village("Cangkuang Wetan", Desa),
      Village("Citeureup", Desa),
      Village("Dayeuhkolot", Kelurahan),
      Village("Sukaasih", Desa)
  ]

  const Ibun: Kecamatan := Kecamatan("IBUN", "JABAR 2-3", IbunVillages)
  const IbunVillages: seq<Village> := [
      Village("Dukuh", Desa),
      Village("Ibun", Desa),
      Village("Karyalaksana", Desa),
      Village("Lampegan", Desa),
      Village("Laksana", Desa),
      Village("Mekarwangi", Desa),
      Village("Neglasari", Desa),
      Village("Pangguh", Desa),
      Village("Sudi", Desa),
      Village("Talun", Desa),
      Village("Tangsimekar", Desa)
  ]

  const Katapang: Kecamatan := Kecamatan("KATAPANG", "JABAR 2-2", KatapangVillages)
  const KatapangVillages: seq<Village> := [
      Village("Cilampeni", Desa),
      Village("Gandasari", Desa),
      Village("Katapang", Desa),
      Village("Pangauban", Desa),
      Village("Parungserab", Desa),
      Village("Sangkanhurip", Desa),
      Village("Sukamukti", Desa)
  ]

  const Kertasari: Kecamatan := Kecamatan("KERTASARI", "JABAR 2-3", KertasariVillages)
  const KertasariVillages: seq<Village> := [
      Village("Ciberem", Desa),
      Village("Cihawuk", Desa),
      Village("Neglawangi", Desa),
      Village("Santosa", Desa),
      Village("Sukapura", Desa),
      Village("Tarumajaya", Desa)
  ]

  const Kutawaringin: Kecamatan := Kecamatan("KUTAWARINGIN", "JABAR 2-2", KutawaringinVillages)
  const KutawaringinVillages: seq<Village> := [
      Village("Buninagara", Desa),
      Village("Cilame", Desa),
      Village("Gajahmekar", Desa),
      Village("Jatisari", Desa),
      Village("Kopo", Desa),
      Village("Kutawaringin", Desa),
      Village("Padasuka", Desa),
      Village("Pameuntingan", Desa),
      Village("Patrapan", Desa)
  ]

  const Majalaya: Kecamatan := Kecamatan("MAJALAYA", "JABAR 2-3", MajalayaVillages)
  const MajalayaVillages: seq<Village> := [
      Village("Bojong", Desa),
      Village("Biru", Desa),
      Village("Majakerta", Desa),
      Village("Majalaya", Kelurahan),
      Village("Majasetra", Desa),
      Village("Neglasari", Desa),
      Village("Padaulun", Desa),
      Village("Padamulya", Desa),
      Village("Sukamaju", Desa),
      Village("Sukamukti", Desa),
      Village("Wangisagara", Desa)
  ]

  const Margaasih: Kecamatan := Kecamatan("MARGAASIH", "JABAR 2-2", MargaasihVillages)
  const MargaasihVillages: seq<Village> := [
      Village("Lagadar", Desa),
      Village("Margaasih", Desa),
      Village("Mekarrahayu", Desa),
      Village("Nanjung", Desa),
      Village("Rahayu", Desa),
      Village("Sayati", Desa)
  ]

  const Margahayu: Kecamatan := Kecamatan("MARGAHAYU", "JABAR 2-2", MargahayuVillages)
  const MargahayuVillages: seq<Village> := [
      Village("Margahayu Selatan", Kelurahan),
      Village("Margahayu Tengah", Desa),
      Village("Sayati", Desa),
      Village("Sukamenak", Desa),
      Village("Sulaeman", Desa)
  ]

  const Nagreg: Kecamatan := Kecamatan("NAGREG", "JABAR 2-5", NagregVillages)
  const NagregVillages: seq<Village> := [
      Village("Bojong", Desa),
      Village("Ciaro", Desa),
      Village("Ciherang", Desa),
      Village("Mandalawangi", Desa),
      Village("Nagrek", Desa),
      Village("Nagreg Kendan", Desa)
  ]

  const Pacet: Kecamatan := Kecamatan("PACET", "JABAR 2-3", PacetVillages)
  const PacetVillages: seq<Village> := [
      Village("Cinanggela", Desa),
      Village("Cirapuan", Desa),
      Village("Mangunharja", Desa),
      Village("Maruyung", Desa),
      Village("Mekar", Desa),
      Village("Mekarsari", Desa),
      Village("Nagrak", Desa),
      Village("Pangauban", Desa),
      Village("Sukarame", Desa),
      Village("Tanjungwangi", Desa)
  ]

  const Pameungpeuk: Kecamatan := Kecamatan("PAMEUNGPEUK", "JABAR 2-2", PameungpeukVillages)
  const PameungpeukVillages: seq<Village> := [
      Village("Bojongkunci", Desa),
      Village("Langonsari", Desa),
      Village("Pameungpeuk", Desa),
      Village("Rancatungku", Desa)
  ]

  const Pangalengan: Kecamatan := Kecamatan("PANGALENGAN", "JABAR 2-6", PangalenganVillages)
  const PangalenganVillages: seq<Village> := [
      Village("Lamajang", Desa),
      Village("Margamukti", Desa),
      Village("Margamekar", Desa),
      Village("Margamulya", Desa),
      Village("Pangalengan", Kelurahan),
      Village("Pulosari", Desa),
      Village("Sukaluyu", Desa),
      Village("Sukamanah", Desa),
      Village("Tribaktimulya", Desa),
      Village("Wanasuka", Desa),
      Village("Warnasari", Desa)
  ]

  const Paseh: Kecamatan := Kecamatan("PASEH", "JABAR 2-3", PasehVillages)
  const PasehVillages: seq<Village> := [
      Village("Cipaku", Desa),
      Village("Ciramea", Desa),
      Village("Karangtunggal", Desa),
      Village("Mekarsari", Desa),
      Village("Paseh", Desa),
      Village("Sindangsari Al Hidayah", Desa),
      Village("Sukamanah", Desa),
      Village("Tangsungsari", Desa)
  ]

  const Pasirjambu: Kecamatan := Kecamatan("PASIRJAMBU", "JABAR 2-6", PasirjambuVillages)
  const PasirjambuVillages: seq<Village> := [
      Village("Cibodas", Desa),
      Village("Cukanggenteng", Desa),
      Village("Mekarmaju", Desa),
      Village("Mekarsari", Desa),
      Village("Pasirjambu", Desa),
      Village("Sugihmukti", Desa),
      Village("Tenjolaya", Desa)
  ]

  const Rancabali: Kecamatan := Kecamatan("RANCABALI", "JABAR 2-6", RancabaliVillages)
  const RancabaliVillages: seq<Village> := [
      Village("Alamendah", Desa),
      Village("Cipelah", Desa),
      Village("Indragiri", Desa),
      Village("Patengan", Desa),
      Village("Sukaresmi", Desa)
  ]

  const Rancaekek: Kecamatan := Kecamatan("RANCAEKEK", "JABAR 2-4", RancaekekVillages)
  const RancaekekVillages: seq<Village> := [
      Village("Bojongloa", Desa),
      Village("Bojongsalam", Desa),
      Village("Jelegong", Desa),
      Village("Linggar", Desa),
      Village("Nanjungmekar", Desa),
      Village("Rancaekek Kencana", Desa),
      Village("Rancaekek Kulon", Desa),
      Village("Rancaekek Wetan", Desa),
      Village("Sangiang", Desa),
      Village("Sukadana", Desa),
      Village("Sukamanah", Desa),
      Village("Tegalsumedang", Desa)
  ]

  const Solokanjeruk: Kecamatan := Kecamatan("SOLOKANJERUK", "JABAR 2-3", SolokanjerukVillages)
  const SolokanjerukVillages: seq<Village> := [
      Village("Bojongemas", Desa),
      Village("Cibodas", Desa),
      Village("Langensari", Desa),
      Village("Padamulya", Desa),
      Village("Panyadap", Desa),
      Village("Rancakasumba", Desa),
      Village("Solokanjeruk", Desa),
      Village("Sukamulya", Desa)
  ]

  const Soreang: Kecamatan := Kecamatan("SOREANG", "JABAR 2-1", SoreangVillages)
  const SoreangVillages: seq<Village> := [
      Village("Cingcin", Desa),
      Village("Karamatmulya", Desa),
      Village("Parungserab", Desa),
      Village("Panyirapan", Desa),
      Village("Pamekaran", Desa),
      Village("Soreang", Kelurahan),
      Village("Sukajadi", Desa),
      Village("Sukasari", Desa),
      Village("Sukanagara", Desa)
  ]
}

=== FILE: wrappers.dfy ===
/** Wrappers for the optional values and error paths of the dashboard code.
    `Option` stands for a TypeScript `T | undefined` (or `T | null`), `Result` for an operation
    that either succeeds with a value or reports an error the page shows to the user. */
module Wrappers {

  datatype Option<+T> = None | Some(value: T) {

    /** The value when present, otherwise `default` (the `x || default` idiom, where `default`
        is the falsy value of the field's type, so it agrees with `x ?? default`). */
    function GetOr(default: T): T {
      match this
      case Some(v) => v
      case None => default
    }
  }

  datatype Result<+T, +E> = Success(value: T) | Failure(error: E)
}
